=== FILE: README.md ===
# lgd-helper core, modelled in Dafny

lgd-helper helps a developer run Odoo projects inside a Vagrant machine. It
has two front ends that share conventions:

- a VS Code extension (`src/extension.ts`, `src/folderManager.js`,
  `src/priorityFolderProvider.ts`);
- a Tk desktop GUI (`gui.py`).

This project models the logic both front ends run between their I/O calls:

- how they decide whether the machine is up from `vagrant status`;
- how they read database names from `psql -l` and containers from
  `docker ps`;
- the shell commands they send into the VM;
- the `.code-workspace` file the extension writes and the structure check
  `validateWorkspaceStructure`, which the extension defines but never calls;
- the priority-folder configuration and tree;
- the GUI's port listing, backup picker and database restore.

Every operation is a pure function. Its inputs are the command outputs,
directory listings, user answers and environment values the original gets
from its I/O calls. Its outputs are the values, commands and file contents
the original produces.

The modules follow the source:

| module | covers |
|---|---|
| `Base`, `Seqs`, `Text`, `Paths`, `Shell` | JavaScript and Python library behaviour both front ends rely on: `split`, `trim`/`strip`, `includes`, `path.basename`/`dirname`/`join`, `os.path`, stable `sort`, and the `vagrant ssh -c` quoting |
| `PsqlListing` | the layout `psql -l` prints, and the reading of database names the front ends intend |
| `ExtensionParsers`, `VmStatus`, `Workspace`, `OdooCommands` | `src/extension.ts` |
| `FolderManager` | `src/folderManager.js` |
| `PriorityFolders` | `src/priorityFolderProvider.ts` |
| `GuiNames`, `GuiDatabases`, `GuiPorts`, `GuiBackups`, `GuiRestore` | `gui.py` |

## Model

| member | source | states |
|---|---|---|
| Base.DirNames | src/priorityFolderProvider.ts:27-28 | The names of the directory entries of a listing: a name is in the result exactly when some entry that is a directory carries it. |
| Base.First | src/extension.ts:898 | `find`: no result exactly when no element satisfies the test; otherwise the result is the element at the first index that does. |
| Base.FirstAppend | src/extension.ts:898 | Searching a concatenation looks at the second part only when the first has no match. |
| Seqs.FilterMap | src/extension.ts:433-435 | `filter` then `map`: every kept element's image is in the result, every result element is the image of a kept element, and the result is no longer than the input. |
| Seqs.FilterMapAppend | src/extension.ts:433-435 | Filtering and mapping distribute over concatenation, so the result keeps the input order. |
| Seqs.FilterMapSingle | src/extension.ts:433-435 | One element contributes its image exactly when it is kept. |
| Seqs.AppendAbsentContents | src/priorityFolderProvider.ts:31-35 | After the "push unless included" merge, every merged element is present and nothing outside the two lists is. |
| Seqs.AppendAbsentNoDup | src/priorityFolderProvider.ts:31-35 | The merge never introduces a duplicate into a list without duplicates. |
| Seqs.AppendAbsentPresent | src/priorityFolderProvider.ts:31-35 | Merging elements that are all present already leaves the list unchanged. |
| Seqs.AppendAbsentIdempotent | src/priorityFolderProvider.ts:31-35 | Merging the same list twice is the same as merging it once. |
| Seqs.AppendAbsentIsFresh | src/priorityFolderProvider.ts:31-35 | The merge keeps the old list as a prefix and appends exactly the new elements, first occurrences only, in order. |
| Seqs.PrependAbsent | src/folderManager.js:30-32 | `unshift` unless included: the element is present afterwards, and the old list is the unchanged tail of a result at most one longer. |
| Seqs.PrependAbsentNoDup | src/folderManager.js:30-32 | Prepending an absent element never introduces a duplicate. |
| Seqs.InsertDesc | gui.py:580 | Inserting into a list sorted largest first keeps it sorted and adds exactly that element. |
| Seqs.SortDesc | gui.py:580 | `sort(key, reverse=True)`: the result is sorted largest key first and is a permutation of the input. |
| Seqs.InsertDescWithKey | gui.py:580 | Among the elements with one key, insertion keeps their relative order. |
| Seqs.SortDescStable | gui.py:580 | The sort is stable: elements with equal keys keep their input order. |
| Text.TrimWith | src/extension.ts:435 | Trimming gives a slice with only whitespace outside it that neither starts nor ends with whitespace. |
| Text.TrimEmptyIff | src/extension.ts:434 | The trimmed string is empty exactly when the input is all whitespace, which is what the truthiness test decides. |
| Text.TrimOfPlain | gui.py:369 | A string that neither starts nor ends with whitespace is its own trim. |
| Text.TrimOfPadded | gui.py:369 | Whitespace around a non-empty, non-padded string is exactly what trimming removes. |
| Text.JsTrimAllSpace | src/extension.ts:435 | A string of blanks trims to the empty string. |
| Text.Contains | src/extension.ts:434 | `includes` holds exactly when the needle occurs at some index. |
| Text.ContainsMiddle | src/extension.ts:434 | A string contains every string placed inside it. |
| Text.ContainsInSlice | src/extension.ts:434 | Whatever a slice contains, the whole string contains. |
| Text.MissingCharNotContained | src/extension.ts:434 | A string that lacks one of the needle's characters does not contain the needle. |
| Text.Affixes | gui.py:575 | A concatenation starts with its first part and ends with its second. |
| Text.Lower | src/extension.ts:221 | Lower-casing keeps the length and maps each character on its own. |
| Text.LowerSlice | src/extension.ts:221 | Lower-casing commutes with slicing. |
| Text.ContainsLowerInside | src/extension.ts:221 | When the lower-cased part contains a word, so does the lower-cased whole. |
| Text.Before | src/extension.ts:435 | The first field of a split is a prefix without the separator, and the separator follows it when it is shorter than the input. |
| Text.BeforeAt | src/extension.ts:435 | The first field ends at the first separator. |
| Text.Split | src/extension.ts:433 | `split`: at least one piece, the first is the first field, and no piece contains the separator. |
| Text.JoinSplit | src/extension.ts:433 | Joining the pieces of a split with the separator gives back the input. |
| Text.SplitJoin | src/extension.ts:433 | Splitting a join of separator-free pieces gives back the pieces. |
| Text.SplitAppend | src/extension.ts:433 | Splitting two strings joined by the separator gives the pieces of the first, then those of the second. |
| Text.JoinAt | src/extension.ts:433 | A join is the join of the pieces before any index, a separator, and the join of the rest. |
| Text.SplitPieceInside | src/extension.ts:897 | Every piece of a split occurs inside the input. |
| Text.SplitTwo | src/extension.ts:897 | Two separator-free strings joined by the separator split into exactly those two. |
| Paths.PyBasename | gui.py:587 | Python's `os.path.basename` is a slash-free suffix of the path. |
| Paths.PyJoin | gui.py:576 | Python's `os.path.join` ends with its second component, and starts with the first unless the second is absolute. |
| Paths.AfterLast | gui.py:587 | The text after the last separator is a separator-free suffix, and the separator precedes it when it is shorter than the input. |
| Paths.PyBasenameJoin | gui.py:576 | `os.path.basename(os.path.join(d, n)) == n` for a name without a slash. |
| Paths.AfterLastSuffix | gui.py:587 | The basename is exactly the suffix after the last separator. |
| Paths.TrailingSlashesStart | src/priorityFolderProvider.ts:67 | The cut before the trailing slashes leaves only slashes after it and a non-slash before it. |
| Paths.NodeBasename | src/priorityFolderProvider.ts:67 | Node's `path.basename` never contains a slash. |
| Paths.DirnameEnd | src/priorityFolderProvider.ts:92 | The index Node's `path.dirname` cuts at is a slash at index 1 or later, or there is none. |
| Paths.NodeDirname | src/priorityFolderProvider.ts:92 | Node's `path.dirname` is `.`, `/`, `//`, or a proper prefix of the input. |
| Paths.NodePlainName | src/priorityFolderProvider.ts:65-92 | A plain name is its own basename and has dirname `.`. |
| Paths.NodeSplitPath | src/extension.ts:519-522 | For `dir/name`, basename and dirname give back the name and the directory. |
| Paths.NodeJoinParts | src/priorityFolderProvider.ts:66 | Node's `path.join` of two components is never empty, starts with the first and ends with the second; empty components are skipped and joining two empty ones gives `.`. |
| PsqlListing.AfterRule | gui.py:364-368 | The lines after the rule line are a suffix of the input. |
| PsqlListing.Column | gui.py:369 | The trimmed first column of a line contains no vertical bar. |
| PsqlListing.DatabaseRows | gui.py:367-371 | The intended reading of `psql -l` yields only non-empty, bar-free, non-template names, each the first column of a non-rule line with columns that the front end's template test accepts. |
| PsqlListing.DatabaseRowsOfTable | gui.py:367-371 | On a table as psql prints it, the intended reading gives exactly the databases the template test keeps, in order; title, header, rule, continuation rows and footer give nothing. |
| PsqlListing.RowLineColumn | gui.py:369 | The first column of a printed row is that row's name. |
| ExtensionParsers.FirstField | src/extension.ts:435 | The trimmed first bar-separated field contains no vertical bar. |
| ExtensionParsers.ParseDatabases | src/extension.ts:432-436 | `parseDatabases`: a name for every kept line, and every name comes from a kept line (non-blank, not a rule, no `template`). |
| ExtensionParsers.ParseDatabasesAppend | src/extension.ts:432-436 | Parsing works line by line in order: output joined by a newline parses to the names of the first part, then those of the second. |
| ExtensionParsers.ParseDatabasesLine | src/extension.ts:432-436 | A single line gives its first field when kept and nothing otherwise. |
| ExtensionParsers.ContinuationRowGivesEmptyName | src/extension.ts:432-436 | As written, a psql continuation row yields the empty string as a database name. |
| ExtensionParsers.TitleOfferedAsName | src/extension.ts:432-436 | As written, the title line above the table is offered as a database name. |
| ExtensionParsers.ParseDatabaseRows | src/extension.ts:432-436 | The corrected reading yields only non-empty, bar-free, non-template names, each the first field of a non-rule output line that does not mention `template` anywhere. |
| ExtensionParsers.ParseDatabaseRowsWithinParseDatabases | src/extension.ts:432-436 | Every name of the corrected reading is one `parseDatabases` offers: the correction only drops names and keeps the rule that a line mentioning `template` is no database. |
| ExtensionParsers.ParseDatabaseRowsOfTable | src/extension.ts:432-436 | On a psql table's text, the corrected reading gives exactly the databases whose rows do not mention `template`, in order. |
| ExtensionParsers.OdooContainers | src/extension.ts:649-661 | The container names offered: exactly the first fields of non-blank lines whose image field mentions odoo, dashboard or control in any case. |
| ExtensionParsers.OdooContainersAppend | src/extension.ts:649-661 | The container listing works line by line, keeping `docker ps` order. |
| ExtensionParsers.LineWithoutImageDropped | src/extension.ts:652-655 | A line without a vertical bar is dropped and causes no error. |
| VmStatus.ClassifyStatus | src/extension.ts:217-241 | The recorded status is one of the five the panel knows, and it is `error` exactly when `vagrant status` failed. |
| VmStatus.ClassifyByRules | src/extension.ts:221-229 | The classification equals a first-match rule list (running, poweroff, not created, else unknown) applied to the lower-cased output. |
| VmStatus.RunningWinsOverExtraOutput | src/extension.ts:221-222 | Output classified `running` stays `running` whatever text is added before or after it. |
| VmStatus.CheckStatusCommand | src/extension.ts:59-91 | The `checkStatus` command returns true exactly when it shows an information message. |
| VmStatus.CheckStatusAgreesWithPanel | src/extension.ts:68-85 | The command reports running exactly when the panel records `running`; it shows an error exactly for `not-created` or `error`, and a warning exactly for `stopped` or `unknown`. |
| VmStatus.StatusIndicator | src/extension.ts:248-268 | The indicator class is one of four; the error class is shown exactly for `not-created` and `error`, and the unknown class for anything outside the known statuses. |
| VmStatus.IndicatorTextIdentifiesStatus | src/extension.ts:248-268 | Different statuses the panel can hold get different indicator texts. |
| VmStatus.PanelErrorClass | src/extension.ts:217-268 | The panel shows the error class exactly when `vagrant status` failed or reported a machine not created (and neither running nor powered off). |
| VmStatus.CheckVagrantStatus | src/extension.ts:891-914 | `checkVagrantStatus` is false whenever `vagrant status` failed. |
| VmStatus.FirstDefault | src/extension.ts:898 | The index found is the first line from the start point that begins with `default` once trimmed, or the end when there is none. |
| VmStatus.FirstDefaultIsFind | src/extension.ts:897-898 | The index search finds a line exactly when `lines.find` of the trimmed-`default` test does, and the same line. |
| VmStatus.CheckVagrantStatusMeaning | src/extension.ts:891-914 | `checkVagrantStatus` is true exactly when the command succeeded and the first `default` line mentions `running` in any case. |
| VmStatus.NoDefaultLineNotRunning | src/extension.ts:900-908 | Without a `default` line the machine is never reported running. |
| VmStatus.CheckVagrantStatusSound | src/extension.ts:891-914 | A machine `checkVagrantStatus` reports running is `running` for the panel too. |
| VmStatus.PieceMentionsRunning | src/extension.ts:897-902 | A line that mentions `running` makes the whole output mention it. |
| VmStatus.CheckVagrantStatusLooksAtDefaultOnly | src/extension.ts:891-914 | The converse fails: a `default` line that is not running, followed by a line that is, gives `running` in the panel but false here. |
| VmStatus.ExecOutput | src/extension.ts:397-414 | The extension sees the output of a run exactly when the command exits with status 0, and then sees its stdout. |
| VmStatus.GuiVmRunning | gui.py:167-182 | The GUI reports running only for a program that started and whose stdout and stderr mention `running`; a program that cannot be started is not running. |
| VmStatus.GuiIgnoresExitStatus | gui.py:170-180 | The exit status of `vagrant status` plays no part in the GUI's verdict. |
| VmStatus.PanelRunningGuiRunning | gui.py:170-180 | A run the side panel records as `running` is running to the GUI too. |
| VmStatus.GuiAgreesWithPanel | gui.py:170-180 | On a run that exits with status 0 and writes nothing to stderr, the GUI's verdict is exactly the panel's `running`. |
| VmStatus.GuiRunningOnFailedRun | gui.py:170-180 | A failed run that mentions `running` on either stream is running to the GUI but an error to the side panel. |
| Workspace.MarkAll | src/extension.ts:548-561 | Setting a list of keys: the keys are those of the map plus the list, listed keys get the value, and other keys keep theirs. |
| Workspace.DevFolders | src/extension.ts:517-522 | One folder per `dev` subdirectory, in listing order, with path `dev/<name>` and the name as display name. |
| Workspace.UnderDev | src/extension.ts:555 | `dev/<name>` for every name, position by position. |
| Workspace.RootDirsButDev | src/extension.ts:556 | The root's directories other than `dev`: exactly those names. |
| Workspace.BuildConfig | src/extension.ts:498-579 | The settings do not follow symbolic links in searches, leave the Sphinx configuration directory empty, and key the two view maps `files.exclude.<rootName>/dev` and `files.exclude.<rootName>`. |
| Workspace.SettingKeysDistinct | src/extension.ts:548-579 | The three exclusion settings have three different keys whatever the project's name. |
| Workspace.CreateWorkspace | src/extension.ts:482-591 | Fails with the Vagrantfile message exactly when the parent of the dev path has no Vagrantfile, with the dev message exactly when there is one but the dev path is not a directory, and with the `statSync` error exactly when both checks pass but an entry of either listing cannot be stat'ed. It creates the workspace exactly when all three pass, with the configuration built for the root's basename, at `<root>/<basename>.code-workspace`. |
| Workspace.FoldersShape | src/extension.ts:525-543 | Folders, in order: `dev`, one `dev/<name>` per subdirectory (basename the name, dirname `dev`), the dev files view, the root. |
| Workspace.ExcludeKeys | src/extension.ts:548-561 | `files.exclude` hides, with `true`, exactly `dev/<name>` for every dev subdirectory and every root directory other than `dev`. |
| Workspace.UnderDevHas | src/extension.ts:555 | `dev/<n>` is listed exactly for the listed names. |
| Workspace.ViewMaps | src/extension.ts:563-579 | In the dev view `**/` stays visible and every subdirectory is hidden; in the root view `dev` and every root directory are hidden, and nothing else. |
| Workspace.ResolveFromRootOrDev | src/extension.ts:103-107 | Opened at a project root or at its `dev` folder, the command uses the same dev path, whose dirname is that root. |
| Workspace.WorkspaceFileInRoot | src/extension.ts:583 | The workspace file lies in the root and is named after it. |
| Workspace.ValidateStructure | src/extension.ts:594-635 | No verdict exactly without a workspace. The parent is suggested exactly for a folder ending in `/dev` whose parent has no Vagrantfile. The folder is incompatible exactly when it does not end in `/dev` and has neither a Vagrantfile nor a `dev` directory. |
| Workspace.ValidateAgreesWithCreate | src/extension.ts:594-635 | A root the check calls incompatible is one `createWorkspace` refuses, and one it accepts passes the check. |
| Workspace.ValidateAcceptsMissingVagrantfile | src/extension.ts:594-635 | A root with `dev` but no Vagrantfile passes the check, yet `createWorkspace` refuses it. |
| OdooCommands.EnsureVagrantRunning | src/extension.ts:917-943 | The action proceeds exactly when the first check passes, or the user answers "Sí" and the second check passes. |
| OdooCommands.ProceedsOnlyOnRunningVm | src/extension.ts:891-943 | With both checks made by `checkVagrantStatus`, an action proceeds only when the first run, or after "Sí" the second, is `running` for the side panel as well. |
| OdooCommands.DecliningKeepsStopped | src/extension.ts:920-940 | Any answer other than "Sí" to a stopped VM stops the action. |
| OdooCommands.OdooCommand | src/extension.ts:782-785 | The update or install command: its words joined by single spaces (what the words are is stated by OdooCommandWords). |
| OdooCommands.OdooCommandWords | src/extension.ts:782-785 | For space-free names, splitting the update/install command on spaces gives its words back, with the container as `exec` target and database and the module after the flag. |
| OdooCommands.UpdateInstallDifferInFlag | src/extension.ts:782-785 | The update and install commands differ only in the flag letter, `u` versus `i`. |
| OdooCommands.OdooCommandSplit | src/extension.ts:782-785 | The command is `docker exec <c> odoo`, the flag, and the remaining words. |
| OdooCommands.ModuleFlow | src/extension.ts:701-793 | A command is sent only after a running VM, a non-empty Odoo listing, a non-empty pick and module name, and the exact confirmation label. |
| OdooCommands.ModuleFlowSends | src/extension.ts:759-785 | For a listed container, the command is sent exactly on the confirmation label, and it runs the picked container and module. |
| OdooCommands.ConfirmLabelsDiffer | src/extension.ts:759-767 | No answer confirms both an update and an install. |
| OdooCommands.LogsFlow | src/extension.ts:638-698 | The logs command sends exactly when the VM runs, the listing succeeds and offers a container, and a container is picked; what it sends follows that container's logs. |
| OdooCommands.LogsFlowSends | src/extension.ts:686-698 | Picking a listed container on a running VM sends `docker logs -f` for that container. |
| OdooCommands.LogsAndModuleShareGate | src/extension.ts:638-661 | Whenever the logs flow stops, the module flow stops with the same outcome, whatever module name and answer follow; the module flow sends only when the logs flow would. |
| OdooCommands.DeleteDatabaseCommands | src/extension.ts:456-467 | Deleting issues two commands. |
| OdooCommands.DatabaseFlow | src/extension.ts:418-467 | Commands are issued exactly when the VM runs at both checks, the listing succeeds, a listed database is picked and the answer is `Eliminar`; the drop only after a successful stop. `showDatabases` is not a registered command and the page's message is dropped by the dispatch as written, so this flow is reached only through the corrected dispatch. |
| OdooCommands.DatabaseFlowIssues | src/extension.ts:447-462 | A listed pick confirmed with `Eliminar` on a running VM stops that database's container first, and drops that database exactly when the stop succeeds. |
| OdooCommands.DatabaseFlowDeletesListed | src/extension.ts:418-467 | With the corrected listing, whatever is issued is a prefix of the delete commands of one non-empty listed database, and all of them exactly when the stop succeeded. |
| OdooCommands.Dispatch | src/extension.ts:188-213 | As written, no message refreshes the status at once or opens the database list. |
| OdooCommands.DispatchDropsPageMessages | src/extension.ts:188-213 | The page posts `checkStatus` and `showDatabases`, and the dispatch ignores both. |
| OdooCommands.DispatchCorrected | src/extension.ts:188-213 | The corrected dispatch ignores exactly the commands the page never posts (other than `showDebugLogs`). |
| OdooCommands.DispatchCorrectedHandlesPage | src/extension.ts:355-386 | Every posted command is handled, each by a different action, and the original's cases are unchanged. |
| OdooCommands.VagrantArg | src/extension.ts:190-199 | Only start and stop run a `vagrant` command. |
| OdooCommands.RefreshDelay | src/extension.ts:190-199 | Only start, stop and the corrected `checkStatus` refresh the status, and only `checkStatus` does so at once. |
| OdooCommands.DispatchRefreshesOnlyLater | src/extension.ts:188-213 | As written the status is refreshed exactly after `startVM` and `stopVM`, and never at once; the corrected dispatch refreshes it at once for `checkStatus`. |
| FolderManager.LoadConfig | src/folderManager.js:10-20 | The parsed file, or on failure no priority folders, dev path `./dev` and no last selection. |
| FolderManager.SetPriorityFolder | src/folderManager.js:26-37 | Succeeds exactly when the resolved folder exists. On failure nothing changes and nothing is written. On success the folder is the last selection, the list is the old one plus the folder, and exactly the new configuration is written. |
| FolderManager.SetPriorityFolderPlacement | src/folderManager.js:30-32 | A new folder goes in front of the unchanged list, and a known one leaves the list as it was. |
| FolderManager.SetPriorityFolderIdempotent | src/folderManager.js:26-37 | Choosing the same folder twice gives the configuration choosing it once does. |
| FolderManager.SetPriorityFolderNoDup | src/folderManager.js:30-32 | A list without duplicates stays without duplicates. |
| PriorityFolders.InitializeDefaultFolders | src/priorityFolderProvider.ts:14-39 | Skipped exactly without `dev`. A written list extends the stored one and holds every `dev` subdirectory. It throws exactly when `dev` is not a directory, has an entry `statSync` cannot read, or the stored list cannot be had, except that an empty listing with no stored list writes none. |
| PriorityFolders.InitializeAppendsFresh | src/priorityFolderProvider.ts:31-35 | The written list is the stored one plus the new folder names, first occurrences in listing order, and keeps a duplicate-free list so. |
| PriorityFolders.InitializeIdempotent | src/priorityFolderProvider.ts:14-39 | Running the merge on the file it wrote writes the same thing again. |
| PriorityFolders.GetChildren | src/priorityFolderProvider.ts:49-80 | Nothing without a root or a parsed config. Every item is a configured path that exists under `dev`, labelled with its basename and described by its dirname. Every such existing path has its item. |
| PriorityFolders.Item | src/priorityFolderProvider.ts:64-100 | An item keeps the configured path as its relative path and tooltip, and its label has no slash. |
| PriorityFolders.GetChildrenOrder | src/priorityFolderProvider.ts:64-75 | The items follow the configured order. |
| PriorityFolders.NestedItem | src/priorityFolderProvider.ts:83-100 | A configured `dir/name` shows as `name`, described by `dir`. |
| PriorityFolders.TreeShowsMergedFolders | src/priorityFolderProvider.ts:14-80 | After the merge the tree shows every `dev` subdirectory that still exists, labelled by its name and described by `.`. |
| Shell.InVm | gui.py:430-448 | The GUI's `vagrant ssh -c '…'` passes the command unchanged between single quotes. |
| Shell.VagrantSsh | src/extension.ts:461-462 | The extension's `vagrant ssh -c "…"` passes the command unchanged between double quotes. |
| Shell.Docker | gui.py:430 | `docker <verb> <container>` holds the verb and ends with the container. |
| Shell.DropDb | gui.py:448 | The drop command ends with the database name. |
| GuiNames.ContainerName | gui.py:19-25 | `<project>-local-<USERDEV>`, with `controlcdms-gh` as default: starts with the project and ends with the user. |
| GuiNames.ContainerNameInjective | gui.py:25 | For one developer, different projects get different container names. |
| GuiNames.ContainerNameAmbiguous | gui.py:25 | Across developers the name is ambiguous when a project name contains `-local-`. |
| GuiNames.Tasks | gui.py:32-75 | Three tasks, and only the first is the default test task. |
| GuiNames.TasksNameContainer | gui.py:38-64 | Each task runs its own docker verb on the container, and start and restart follow that container's logs. |
| GuiNames.VsCodeConfig | gui.py:15-16 | The tasks go to a file named `tasks.json`. |
| GuiNames.TasksAndRestoreAgree | gui.py:19-25 | The tasks of `<dev>/<project>` control the container the restore names after the project. |
| GuiNames.FilestorePath | gui.py:722-724 | The VM filestore path is under `/opt/odoo/staging/<db>/filestore/`. |
| GuiNames.FilestorePathBasename | gui.py:722-724 | For a slash-free database name, the filestore directory is named after the database. |
| GuiDatabases.GuiName | gui.py:369 | The stripped first column contains no vertical bar. |
| GuiDatabases.ListDatabases | gui.py:345-419 | Fewer than two lines is the error case. Otherwise the names are exactly those of kept lines after the two header lines, all non-empty, bar-free and non-template. |
| GuiDatabases.ListDatabasesAppend | gui.py:367-371 | Past the header the listing works line by line in order. |
| GuiDatabases.ListDatabasesOfRows | gui.py:364-371 | On a footer-less psql table the GUI lists exactly the non-template databases. |
| GuiDatabases.FooterOfferedAsDatabase | gui.py:367-371 | As written, the `(1 row)` footer is offered as a database next to the real ones. |
| GuiDatabases.DeleteCommands | gui.py:422-471 | Deleting issues two commands. |
| GuiDatabases.DeleteCommandsAgree | gui.py:430-448 | The GUI and the extension send the same two docker commands, in order, each ending with the database name; only the quoting differs. |
| GuiPorts.DigitsEnd | gui.py:314 | `\d+` is greedy: the run of digits ends at the first non-digit. |
| GuiPorts.FindPorts | gui.py:314-319 | Every captured port is a non-empty string of digits. |
| GuiPorts.PortsOfRender | gui.py:314-319 | Reading the ports back from a ports field as Docker prints it gives the host ports, in order. |
| GuiPorts.PortsOfMapping | gui.py:314-319 | A mapping contributes its host port, then scanning resumes after it. |
| GuiPorts.PortsShift | gui.py:314 | Scanning `a + t` from inside `t` is scanning `t`. |
| GuiPorts.Urls | gui.py:320 | One `http://192.168.56.10:<port>` per port, in order. |
| GuiPorts.Describe | gui.py:304-308 | A line is described exactly when its stripped text has at least two bar-separated fields. |
| GuiPorts.LineEffect | gui.py:303-337 | Blank lines are skipped, and non-blank lines without an image field are fatal. |
| GuiPorts.ListPorts | gui.py:303-339 | `list_container_ports` shows at most one container per line. |
| GuiPorts.ListPortsCompletes | gui.py:303-339 | The completion message is reached exactly when every non-blank line has an image field. |
| GuiPorts.ListPortsAppend | gui.py:303-339 | After a complete prefix the rest is listed on its own, and a fatal line hides everything after it. |
| GuiPorts.DescribePsLine | gui.py:303-320 | A container line as Docker prints it shows its name, image and one URL per host port. |
| GuiPorts.ListPortsOfPsLine | gui.py:303-339 | Such a line lists one container and the listing goes on. |
| GuiBackups.Backups | gui.py:571-580 | The backups are sorted newest first and are a permutation of the home directory's `.zip` entries. |
| GuiBackups.BackupsStable | gui.py:580 | Backups with equal times keep directory order. |
| GuiBackups.BackupsAreZips | gui.py:574-577 | Every listed backup is a `.zip` entry of home, found again by its basename, with its own time, and every `.zip` entry is listed. |
| GuiBackups.Rows | gui.py:583-590 | Two list rows per backup. |
| GuiBackups.RowsLayout | gui.py:583-590 | Row `2k` shows backup `k` and row `2k+1` holds its path. |
| GuiBackups.SelectBackup | gui.py:592-598 | As written, selecting a row hands over the row after it, or the empty string past the end of the list. |
| GuiBackups.SelectDisplayRow | gui.py:592-598 | Selecting a display row hands over that backup's path. |
| GuiBackups.SelectPathRow | gui.py:592-598 | As written, selecting a path row hands over the next backup's display name, or the empty string on the last row. |
| GuiBackups.LastRowSelectsNoBackup | gui.py:592-598 | The last row selects the empty string, which is no backup's path. |
| GuiBackups.SelectBackupCorrected | gui.py:592-598 | The corrected selection yields a backup exactly for rows of the list. |
| GuiBackups.SelectCorrectedOwnsRow | gui.py:592-598 | Either row of a backup selects that backup, and on display rows the correction agrees with the code as written. |
| GuiRestore.Extract | gui.py:624-627 | Extraction only adds to `dev/temp`. |
| GuiRestore.Restore | gui.py:610-782 | A restore acts on `<project>-local-<USERDEV>`, and a copy or extraction failure leaves `dev/temp` unchanged. |
| GuiRestore.Script | gui.py:638-763 | Five commands, or seven when a filestore was extracted, each kind at its fixed position. |
| GuiRestore.Command | gui.py:638-763 | The command line each step of the restore runs in the VM. |
| GuiRestore.ScriptShape | gui.py:638-763 | The commands run in fixed order on one database, and the filestore is replaced exactly when one was extracted. |
| GuiRestore.RestoreNeedsDump | gui.py:629-645 | Commands are issued exactly when the copy and extraction succeed and `dev/temp` holds a dump, starting with stop, drop, create. |
| GuiRestore.StaleDumpRestored | gui.py:629-632 | As written, a ZIP without a dump is restored from the dump an earlier restore left behind. |
| GuiRestore.RestoreChecked | gui.py:629-632 | The corrected restore only proceeds for a ZIP that contains a dump. |
| GuiRestore.RestoreCheckedSound | gui.py:629-632 | The corrected restore succeeds exactly for readable ZIPs with a dump, and then acts as written. |
| GuiRestore.DeleteIsRestorePrefix | gui.py:640-645 | Deleting a database from the list runs the first two commands of a restore. |
| GuiRestore.RestoreMatchesTasks | gui.py:634-636 | The restored database, the tasks' container and the filestore directory share one name. |
| GuiRestore.Projects | gui.py:485-495 | The restore targets exactly the directories of `dev`, and none when `dev` is missing. |

## Left out

- **I/O and UI:** the processes themselves, terminals, the Tk widgets and threads, VS Code messages, and the HTML and CSS of the side panel. Their inputs and results are parameters.
- **Exit status:** the shell commands the GUI runs are never checked for it.
- **File writes:** the writes of `config.json`, `tasks.json` and the workspace file are returned as values, not performed. Their JSON serialisation (key order, indentation) is not modelled; the keys and values are.
- **`executeVagrantCommand`:** the terminal it opens and the 5-second waits are left out. The model keeps the argument it passes, and the delay of the status refresh after start and stop as a number.
- **Node `path` functions:**
  - `path.resolve` in `setPriorityFolder` is a parameter.
  - `path.join` is modelled for components that need no normalisation (no `.`, `..` or repeated slashes). Empty components are skipped as Node skips them.
- **`toLowerCase`/`lower`:** modelled for ASCII letters only. The words searched for (`running`, `poweroff`, `not created`, `odoo`, `dashboard`, `control`) are ASCII, and no non-ASCII character lower-cases to an ASCII letter except the Kelvin sign and dotted capital I.
- **`\d`:** modelled as the ASCII digits. Python also matches other Unicode digits.
- **Backup picker:** date formatting is a parameter, and modification times are whole numbers rather than floats.
- **Line terminators:** the GUI's command outputs are given as lines without terminators. Every test on them strips or ignores the terminator.
- **Outcomes given as flags:** whether `docker stop` succeeds (extension) and whether the VM's `mv` of the filestore succeeds (GUI) are flags.
- OdooCommands.DatabaseFlow: uses the corrected `psql -l` reading; the as-written reading is kept in `ExtensionParsers.ParseDatabases`. A quick-pick position outside the list counts as dismissed, because a quick pick only returns listed items.
- **`priorityFolders` values:** `PriorityFolders` models arrays of strings or an absent key; other JSON values are not modelled.
- FolderManager.SetPriorityFolder: `config.json` is a record with a list of strings and a dev path. A parsed file without `priorityFolders` or `devPath` is not modelled. On such a file `path.resolve` throws on the missing dev path, or `includes` throws after the last selection was already set.
- VmStatus.GuiVmRunning: the GUI's pipe carries stdout and stderr in the order they were written. The model places stderr after stdout. The operating system's interleaving of the two streams is not modelled.
- VmStatus.ExecOutput: Node's `exec` also rejects when stdout exceeds the 1 MiB `maxBuffer` and when the child is killed by a signal, even with exit status 0. The model has neither output size nor signals, so it sees the output whenever the status is 0.
- VmStatus.GuiVmRunning: gui.py catches every exception, so output that cannot be decoded as text also gives `False`. The model has no undecodable output.
- **Failing reads:** an exception from `readdirSync` on a directory that exists (missing permissions, say) is not modelled. A failing `readFileSync` of `config.json` acts as an unparsable file, and `statSync` failing on a listed entry is modelled.
- **Workspace root:** `getChildren`'s missing workspace root is modelled as the empty string.
- **Not modelled:** `showDebugLogs`, `debugLog`, `activate`'s registration, the HTML, `open_in_cursor`, the GUI's window layout and `toggle_fullscreen`. They hold no logic beyond I/O.

## Findings

| source | as written | input that shows it | evidently intended | confidence | as-written member | corrected member |
|---|---|---|---|---|---|---|
| src/extension.ts:188-213 | the side panel's dispatch has no case for `checkStatus` or `showDatabases` | the page's "check status" and "show databases" buttons, or its 30-second refresh (src/extension.ts:355-386) | each message posted by the page is handled | not executed | OdooCommands.DispatchDropsPageMessages | OdooCommands.DispatchCorrectedHandlesPage |
| src/extension.ts:432-436 | `parseDatabases` keeps every non-blank, non-rule, template-free line of `psql -l` | the title `List of databases`, the header, a continuation row (blank name column, privileges continued), or the `(3 rows)` footer | only the database rows below the rule line, with the line-wide `template` test unchanged | not executed | ExtensionParsers.ContinuationRowGivesEmptyName | ExtensionParsers.ParseDatabaseRowsOfTable |
| gui.py:364-371 | after skipping two lines, every non-blank, non-rule line with a non-template first column is a database | the footer `(1 row)` of `psql -l` | only the database rows | not executed | GuiDatabases.FooterOfferedAsDatabase | PsqlListing.DatabaseRowsOfTable |
| gui.py:583-598 | each backup is two list rows, and selection takes the row after the selected one | selecting the path row of the last backup yields `""`; selecting another path row yields the next backup's display name | each row selects the backup it belongs to | not executed | GuiBackups.LastRowSelectsNoBackup | GuiBackups.SelectCorrectedOwnsRow |
| gui.py:629-632 | the dump check looks at `dev/temp`, which is never cleared | a first restore with a dump, then a ZIP without one | reject a ZIP that contains no `dump.sql` | not executed | GuiRestore.StaleDumpRestored | GuiRestore.RestoreCheckedSound |

=== FILE: base.dfy ===
/** Small shared types: optional values, directory listings and a snapshot of
    which paths exist, which stand in for the filesystem calls of the system. */
module Base {
  import opened Seqs

  datatype Option<+T> = None | Some(value: T) {
    function GetOr(default: T): T {
      match this
      case Some(v) => v
      case None => default
    }
  }

  /** One entry of a directory listing (`readdir`/`os.listdir` together with
      the `isDirectory` test made on it). */
  datatype DirEntry = DirEntry(name: string, isDir: bool)

  /** The paths that exist, and which of them are directories. */
  datatype Fs = Fs(files: set<string>, dirs: set<string>) {
    /** `fs.existsSync(p)` / `os.path.exists(p)`. */
    predicate Exists(p: string) {
      p in files || p in dirs
    }

    /** `fs.existsSync(p) && fs.statSync(p).isDirectory()`. */
    predicate IsDir(p: string) {
      p in dirs
    }
  }

  /** The names of the directories in a listing, in listing order. */
  function DirNames(entries: seq<DirEntry>): (r: seq<string>)
    ensures |r| <= |entries|
    ensures forall n :: n in r <==> exists e :: e in entries && e.isDir && e.name == n
  {
    FilterMap(entries, (e: DirEntry) => e.isDir, (e: DirEntry) => e.name)
  }

  /** `xs.find(p)`: the first element satisfying `p`, if any. */
  function First<T>(xs: seq<T>, p: T -> bool): (r: Option<T>)
    ensures r.None? <==> forall i :: 0 <= i < |xs| ==> !p(xs[i])
    ensures r.Some? ==> exists i :: 0 <= i < |xs| && xs[i] == r.value && p(xs[i])
                                    && forall j :: 0 <= j < i ==> !p(xs[j])
  {
    if |xs| == 0 then None
    else if p(xs[0]) then Some(xs[0])
    else
      var r := First(xs[1..], p);
      assert forall i :: 1 <= i < |xs| ==> xs[i] == xs[1..][i - 1];
      r
  }

  /** The search over a concatenation only looks at the second part when the
      first has no match. */
  lemma {:induction false} FirstAppend<T>(xs: seq<T>, ys: seq<T>, p: T -> bool)
    ensures First(xs + ys, p) == if First(xs, p).Some? then First(xs, p) else First(ys, p)
    decreases |xs|
  {
    if |xs| == 0 {
      assert xs + ys == ys;
    } else {
      assert (xs + ys)[1..] == xs[1..] + ys;
      FirstAppend(xs[1..], ys, p);
    }
  }
}

=== FILE: extension_commands.dfy ===
/** The Odoo actions of the VS Code extension: the `docker exec … odoo -u/-i`
    command sent to a terminal, the container-logs command, the database
    deletion commands, the "make sure the VM runs" prompt, and the side
    panel's message dispatch. User answers (quick picks, input boxes,
    confirmations) and command output are parameters; `None` stands for a
    dismissed prompt or a failed command. */
module OdooCommands {
  import opened Text
  import opened Shell
  import opened Base
  import opened ExtensionParsers
  import VmStatus

  /** `ensureVagrantRunning`: if the first check fails, ask; on "Sí" start
      the VM and return the second check. The action proceeds exactly when
      the VM was running, or the user agreed to start it and it came up. */
  function EnsureVagrantRunning(firstCheck: bool, answer: Option<string>, secondCheck: bool): (r: bool)
    ensures r <==> firstCheck || (answer == Some("Sí") && secondCheck)
  {
    if firstCheck then true
    else if answer == Some("Sí") then secondCheck
    else false
  }

  /** With both checks made by `checkVagrantStatus` on a run of
      `vagrant status`, an action proceeds only when the first run, or after
      a "Sí" the second, reported the machine running. */
  lemma ProceedsOnlyOnRunningVm(first: VmStatus.StatusRun, answer: Option<string>,
                                second: VmStatus.StatusRun)
    ensures EnsureVagrantRunning(VmStatus.CheckVagrantStatus(VmStatus.ExecOutput(first)), answer,
                                 VmStatus.CheckVagrantStatus(VmStatus.ExecOutput(second)))
            ==> VmStatus.ClassifyStatus(VmStatus.ExecOutput(first)) == "running"
                || (answer == Some("Sí") && VmStatus.ClassifyStatus(VmStatus.ExecOutput(second)) == "running")
  {
    if VmStatus.CheckVagrantStatus(VmStatus.ExecOutput(first)) {
      VmStatus.CheckVagrantStatusSound(VmStatus.ExecOutput(first).value);
    } else if VmStatus.CheckVagrantStatus(VmStatus.ExecOutput(second)) {
      VmStatus.CheckVagrantStatusSound(VmStatus.ExecOutput(second).value);
    }
  }

  /** Declining the prompt never lets an action proceed on a stopped VM. */
  lemma DecliningKeepsStopped(answer: Option<string>, secondCheck: bool)
    requires answer != Some("Sí")
    ensures !EnsureVagrantRunning(false, answer, secondCheck)
  {
  }

  datatype ModuleAction = Update | Install

  function Flag(a: ModuleAction): string {
    match a
    case Update => "-u"
    case Install => "-i"
  }

  /** The answer that confirms the action in the warning dialog. */
  function ConfirmLabel(a: ModuleAction): string {
    match a
    case Update => "Sí, actualizar"
    case Install => "Sí, instalar"
  }

  /** The words of the command run inside the VM: the module is updated or
      installed in the database named like the container, and Odoo stops
      afterwards. */
  function OdooWords(a: ModuleAction, container: string, moduleName: string): seq<string> {
    ["docker", "exec", container, "odoo", Flag(a), moduleName, "-d", container, "--stop-after-init"]
  }

  /** The command itself: the words separated by single spaces. */
  function OdooCommand(a: ModuleAction, container: string, moduleName: string): string {
    Join(OdooWords(a, container, moduleName), ' ')
  }

  /** Splitting the command on spaces gives back the container, the flag and
      the module, when the two names are single words: such names cannot
      inject further arguments. */
  lemma OdooCommandWords(a: ModuleAction, container: string, moduleName: string)
    requires ' ' !in container && ' ' !in moduleName
    ensures Split(OdooCommand(a, container, moduleName), ' ') == OdooWords(a, container, moduleName)
    ensures var w := Split(OdooCommand(a, container, moduleName), ' ');
            w[2] == container && w[7] == container && w[5] == moduleName
  {
    var w := OdooWords(a, container, moduleName);
    assert ' ' !in "--stop-after-init";
    assert ' ' !in Flag(a);
    SplitJoin(w, ' ');
  }

  /** Update and install commands differ in the flag letter only. */
  lemma UpdateInstallDifferInFlag(container: string, moduleName: string)
    ensures var u := OdooCommand(Update, container, moduleName);
            var i := OdooCommand(Install, container, moduleName);
            var k := |"docker exec " + container + " odoo -"|;
            |u| == |i| && k < |u| && u[k] == 'u' && i[k] == 'i'
            && forall j :: 0 <= j < |u| && j != k ==> u[j] == i[j]
  {
    var wu := OdooWords(Update, container, moduleName);
    var wi := OdooWords(Install, container, moduleName);
    var p := "docker exec " + container + " odoo";
    var q := Join(wu[5..], ' ');
    OdooCommandSplit(Update, container, moduleName);
    OdooCommandSplit(Install, container, moduleName);
    assert wi[5..] == wu[5..];
    var u := OdooCommand(Update, container, moduleName);
    var i := OdooCommand(Install, container, moduleName);
    assert u == p + " -" + "u" + " " + q;
    assert i == p + " -" + "i" + " " + q;
  }

  /** The command around its flag: `docker exec <c> odoo`, the flag, the
      rest. */
  lemma OdooCommandSplit(a: ModuleAction, container: string, moduleName: string)
    ensures var w := OdooWords(a, container, moduleName);
            OdooCommand(a, container, moduleName)
            == "docker exec " + container + " odoo" + " " + Flag(a) + " " + Join(w[5..], ' ')
  {
    var w := OdooWords(a, container, moduleName);
    JoinAt(w, ' ', 4);
    JoinPrefix(container, w[..4]);
    JoinAt(w[4..], ' ', 1);
    assert w[4..][..1] == [Flag(a)] && w[4..][1..] == w[5..];
  }

  lemma JoinPrefix(container: string, ws: seq<string>)
    requires ws == ["docker", "exec", container, "odoo"]
    ensures Join(ws, ' ') == "docker exec " + container + " odoo"
  {
    JoinAt(ws, ' ', 3);
    JoinAt(ws[..3], ' ', 2);
    JoinAt(ws[..3][..2], ' ', 1);
    assert ws[..3][..2][..1] == ["docker"];
    assert ws[..3][..2][1..] == ["exec"];
    assert ws[..3][2..] == [container];
    assert ws[3..] == ["odoo"];
  }

  /** What the terminal receives. */
  function TerminalText(a: ModuleAction, container: string, moduleName: string): string {
    VagrantSsh(OdooCommand(a, container, moduleName))
  }

  /** How one run of `updateOdooModule` / `installOdooModule` ends. */
  datatype Outcome =
    | VmNotRunning
    | ListFailed
    | NoContainers
    | Cancelled
    | Sent(text: string)

  /** The whole flow: the VM check, the container listing, the container
      pick, the module name, the confirmation. An empty pick or an empty
      module name counts as dismissed, as JavaScript's `!value` does. */
  function ModuleFlow(a: ModuleAction, vmRunning: bool, psOutput: Option<string>,
                      pick: Option<string>, moduleName: Option<string>, confirm: Option<string>)
    : (r: Outcome)
    ensures r.Sent? ==> vmRunning && psOutput.Some? && OdooContainers(psOutput.value) != []
                        && pick.Some? && pick.value != "" && moduleName.Some? && moduleName.value != ""
                        && confirm == Some(ConfirmLabel(a))
  {
    if !vmRunning then VmNotRunning
    else if psOutput.None? then ListFailed
    else if OdooContainers(psOutput.value) == [] then NoContainers
    else if pick.None? || pick.value == "" then Cancelled
    else if moduleName.None? || moduleName.value == "" then Cancelled
    else if confirm != Some(ConfirmLabel(a)) then Cancelled
    else Sent(TerminalText(a, pick.value, moduleName.value))
  }

  /** A command is sent for a container picked from the Odoo list; it names
      that container both as `docker exec` target and as database, and no
      answer other than the exact confirmation label sends anything. */
  lemma ModuleFlowSends(a: ModuleAction, psOutput: string, pick: string, moduleName: string, confirm: Option<string>)
    requires pick in OdooContainers(psOutput) && pick != "" && moduleName != ""
    ensures ModuleFlow(a, true, Some(psOutput), Some(pick), Some(moduleName), confirm).Sent?
            <==> confirm == Some(ConfirmLabel(a))
    ensures ModuleFlow(a, true, Some(psOutput), Some(pick), Some(moduleName), confirm).Sent?
            ==> ModuleFlow(a, true, Some(psOutput), Some(pick), Some(moduleName), confirm).text
                == TerminalText(a, pick, moduleName)
  {
    ModuleFlowPast(a, psOutput, pick, moduleName, confirm);
  }

  lemma ModuleFlowPast(a: ModuleAction, psOutput: string, pick: string, moduleName: string, confirm: Option<string>)
    requires OdooContainers(psOutput) != [] && pick != "" && moduleName != ""
    ensures ModuleFlow(a, true, Some(psOutput), Some(pick), Some(moduleName), confirm)
            == if confirm != Some(ConfirmLabel(a)) then Cancelled else Sent(TerminalText(a, pick, moduleName))
  {
  }

  /** The confirmation labels of the two actions differ, so confirming one
      never confirms the other. */
  lemma ConfirmLabelsDiffer(confirm: Option<string>, vmRunning: bool, psOutput: Option<string>,
                            pick: Option<string>, moduleName: Option<string>)
    ensures !(ModuleFlow(Update, vmRunning, psOutput, pick, moduleName, confirm).Sent?
              && ModuleFlow(Install, vmRunning, psOutput, pick, moduleName, confirm).Sent?)
  {
    assert ConfirmLabel(Update)[4] != ConfirmLabel(Install)[4];
  }

  /** `showOdooContainerLogs`: follow the logs of the picked container. A
      command is sent exactly when the VM runs, the listing succeeds and
      offers a container, and a container is picked. */
  function LogsFlow(vmRunning: bool, psOutput: Option<string>, pick: Option<string>): (r: Outcome)
    ensures r.Sent? <==> vmRunning && psOutput.Some? && OdooContainers(psOutput.value) != []
                         && pick.Some? && pick.value != ""
    ensures r.Sent? ==> pick.Some? && r.text == VagrantSsh(Docker("logs -f", pick.value))
  {
    if !vmRunning then VmNotRunning
    else if psOutput.None? then ListFailed
    else if OdooContainers(psOutput.value) == [] then NoContainers
    else if pick.None? || pick.value == "" then Cancelled
    else Sent(VagrantSsh(Docker("logs -f", pick.value)))
  }

  /** Picking a listed container on a running VM follows its logs. */
  lemma LogsFlowSends(psOutput: string, pick: string)
    requires pick in OdooContainers(psOutput) && pick != ""
    ensures LogsFlow(true, Some(psOutput), Some(pick)) == Sent(VagrantSsh(Docker("logs -f", pick)))
  {
  }

  /** The logs flow and the module flow share their gate: with the same VM
      state, listing and pick, whatever module name and answer follow, the
      module flow stops with the logs flow's outcome when that one stops,
      and it sends only when the logs flow sends. */
  lemma LogsAndModuleShareGate(a: ModuleAction, vmRunning: bool, psOutput: Option<string>, pick: Option<string>,
                               moduleName: Option<string>, confirm: Option<string>)
    ensures var l := LogsFlow(vmRunning, psOutput, pick);
            var m := ModuleFlow(a, vmRunning, psOutput, pick, moduleName, confirm);
            (!l.Sent? ==> l == m) && (m.Sent? ==> l.Sent?)
  {
  }

  /** `deleteDatabase(db)`: the two commands issued, in order: stop the
      container named `db`, then drop the database `db` if it exists. */
  function DeleteDatabaseCommands(db: string): (r: seq<string>)
    ensures |r| == 2
  {
    [VagrantSsh(Docker("stop", db)), VagrantSsh(DropDb(db))]
  }

  /** `showDatabases` followed by `deleteDatabase`: the commands issued.
      The VM is checked before listing and again before deleting; the
      database is picked by its position in the list (a quick pick only
      returns listed items, so a position outside the list counts as
      dismissed); only the answer `Eliminar` deletes. When `docker stop`
      fails the promise rejects and the drop is never issued. The list is the
      corrected reading of the `psql -l` output. */
  function DatabaseFlow(vmRunning: bool, psql: Option<string>, pick: Option<nat>,
                        action: Option<string>, vmStillRunning: bool, stopOk: bool)
    : (r: seq<string>)
    ensures r != [] <==> vmRunning && psql.Some? && pick.Some? && pick.value < |ParseDatabaseRows(psql.value)|
                         && action == Some("Eliminar") && vmStillRunning
    ensures |r| <= 2 && (|r| == 2 ==> stopOk)
  {
    if !vmRunning || psql.None? then []
    else
      var dbs := ParseDatabaseRows(psql.value);
      if pick.None? || pick.value >= |dbs| then []
      else if action != Some("Eliminar") || !vmStillRunning then []
      else if stopOk then DeleteDatabaseCommands(dbs[pick.value])
      else DeleteDatabaseCommands(dbs[pick.value])[..1]
  }

  /** Whatever is issued acts on one database of the corrected listing,
      stopping its container before dropping it; with that listing it is
      never a title, footer or blank name. */
  lemma DatabaseFlowDeletesListed(vmRunning: bool, psql: Option<string>, pick: Option<nat>,
                                  action: Option<string>, vmStillRunning: bool, stopOk: bool)
    ensures var r := DatabaseFlow(vmRunning, psql, pick, action, vmStillRunning, stopOk);
            r != [] ==> exists db :: db in ParseDatabaseRows(psql.value) && db != ""
                                     && r <= DeleteDatabaseCommands(db)
                                     && (stopOk <==> r == DeleteDatabaseCommands(db))
  {
    var r := DatabaseFlow(vmRunning, psql, pick, action, vmStillRunning, stopOk);
    if r != [] {
      var dbs := ParseDatabaseRows(psql.value);
      var db := dbs[pick.value];
      var c := DeleteDatabaseCommands(db);
      assert r == (if stopOk then c else c[..1]);
      FirstOrBoth(c, stopOk);
      assert db in dbs;
    }
  }

  /** Picking a listed database, answering `Eliminar` and finding the VM
      still up stops its container, and drops the database exactly when
      the stop succeeds. */
  lemma DatabaseFlowIssues(psql: string, pick: nat, stopOk: bool)
    requires pick < |ParseDatabaseRows(psql)|
    ensures var db := ParseDatabaseRows(psql)[pick];
            var r := DatabaseFlow(true, Some(psql), Some(pick), Some("Eliminar"), true, stopOk);
            r[0] == VagrantSsh(Docker("stop", db))
            && (stopOk <==> |r| == 2) && (stopOk ==> r[1] == VagrantSsh(DropDb(db)))
  {
  }

  lemma FirstOrBoth(c: seq<string>, both: bool)
    requires |c| == 2
    ensures var r := if both then c else c[..1];
            r <= c && (both <==> r == c)
  {
  }

  /** What the side panel does for a message posted by its page. */
  datatype PanelAction =
    | StartVm | StopVm | ShowDebugLogs | UpdateModule | InstallModule
    | ShowContainerLogs | RefreshStatus | ShowDatabases | Ignored

  /** The commands the panel's page posts: one per button, and
      `checkStatus` also every 30 seconds. */
  const PagePosts: seq<string> :=
    ["checkStatus", "startVM", "stopVM", "showDatabases",
     "updateOdooModule", "installOdooModule", "showOdooContainerLogs"]

  /** `onDidReceiveMessage` as written: `checkStatus` and `showDatabases`
      have no case and fall through the switch. */
  function Dispatch(command: string): (r: PanelAction)
    ensures r != RefreshStatus && r != ShowDatabases
  {
    match command
    case "startVM" => StartVm
    case "stopVM" => StopVm
    case "showDebugLogs" => ShowDebugLogs
    case "updateOdooModule" => UpdateModule
    case "installOdooModule" => InstallModule
    case "showOdooContainerLogs" => ShowContainerLogs
    case _ => Ignored
  }

  /** Two buttons of the page, and its periodic refresh, do nothing. */
  lemma DispatchDropsPageMessages()
    ensures "checkStatus" in PagePosts && Dispatch("checkStatus") == Ignored
    ensures "showDatabases" in PagePosts && Dispatch("showDatabases") == Ignored
  {
  }

  /** The dispatch with the two missing cases: `checkStatus` re-runs the
      status check and `showDatabases` opens the database list. */
  function DispatchCorrected(command: string): (r: PanelAction)
    ensures r == Ignored <==> command !in PagePosts && command != "showDebugLogs"
  {
    match command
    case "checkStatus" => RefreshStatus
    case "showDatabases" => ShowDatabases
    case _ => Dispatch(command)
  }

  /** Every message the page posts is handled, each by a different action,
      and every message the original dispatch handled is handled the same way. */
  lemma DispatchCorrectedHandlesPage(c1: string, c2: string)
    ensures c1 in PagePosts ==> DispatchCorrected(c1) != Ignored
    ensures Dispatch(c1) != Ignored ==> DispatchCorrected(c1) == Dispatch(c1)
    ensures DispatchCorrected(c1) != Ignored && DispatchCorrected(c1) == DispatchCorrected(c2) ==> c1 == c2
  {
  }

  /** The `vagrant` argument for the panel's start and stop buttons. */
  function VagrantArg(a: PanelAction): (r: Option<string>)
    ensures r.Some? <==> a == StartVm || a == StopVm
  {
    match a
    case StartVm => Some("up")
    case StopVm => Some("halt")
    case _ => None
  }

  /** After how many milliseconds an action re-runs the panel's status
      check, if it does: the start and stop buttons schedule it 5000 ms
      later, a `checkStatus` message runs it at once. */
  function RefreshDelay(a: PanelAction): (r: Option<nat>)
    ensures r.Some? <==> a == StartVm || a == StopVm || a == RefreshStatus
    ensures r == Some(0) <==> a == RefreshStatus
  {
    match a
    case StartVm => Some(5000)
    case StopVm => Some(5000)
    case RefreshStatus => Some(0)
    case _ => None
  }

  /** As written the status is refreshed only after starting or stopping
      the VM, 5000 ms later, and never at the page's request; the corrected
      dispatch refreshes it at once for `checkStatus`. */
  lemma DispatchRefreshesOnlyLater(command: string)
    ensures RefreshDelay(Dispatch(command)).Some? <==> command == "startVM" || command == "stopVM"
    ensures RefreshDelay(Dispatch(command)) != Some(0)
    ensures RefreshDelay(DispatchCorrected("checkStatus")) == Some(0)
  {
  }
}

=== FILE: extension_parsers.dfy ===
/** The parsers of the VS Code extension (src/extension.ts) that turn the text
    printed by `psql -l` and `docker ps --format '{{.Names}}|{{.Image}}'` into
    the names offered in quick picks. */
module ExtensionParsers {
  import opened Text
  import opened Seqs
  import opened PsqlListing

  /** `output.split('\n')`. */
  function Lines(output: string): seq<string> {
    Split(output, '\n')
  }

  /** `line.split('|')[0].trim()`: the trimmed first `|` field. */
  function FirstField(line: string): (r: string)
    ensures '|' !in r
  {
    var f := Before(line, '|');
    var r := JsTrim(f);
    assert forall c :: c in r ==> c in f;
    r
  }

  /** The line filter of `parseDatabases`: non-blank, not a `---` rule, and no
      mention of `template` anywhere in the line. */
  predicate KeepDbLine(line: string) {
    JsTrim(line) != "" && !StartsWith(line, "-") && !Contains(line, "template")
  }

  /** `parseDatabases`: one name per kept line, the line's trimmed first field. */
  function ParseDatabases(output: string): (r: seq<string>)
    ensures |r| <= |Lines(output)|
    ensures forall line :: line in Lines(output) && KeepDbLine(line) ==> FirstField(line) in r
    ensures forall name :: name in r ==>
              exists line :: line in Lines(output) && KeepDbLine(line) && name == FirstField(line)
    ensures forall name :: name in r ==> '|' !in name
  {
    FilterMap(Lines(output), KeepDbLine, FirstField)
  }

  /** Parsing is line by line and keeps input order: the names of two pieces of
      output joined by a newline are the names of the first piece followed by
      the names of the second. */
  lemma ParseDatabasesAppend(a: string, b: string)
    ensures ParseDatabases(a + "\n" + b) == ParseDatabases(a) + ParseDatabases(b)
  {
    SplitAppend(a, b, '\n');
    FilterMapAppend(Lines(a), Lines(b), KeepDbLine, FirstField);
  }

  /** A single line yields exactly one name when it is kept and none otherwise. */
  lemma ParseDatabasesLine(line: string)
    requires '\n' !in line
    ensures ParseDatabases(line) == if KeepDbLine(line) then [FirstField(line)] else []
  {
    SplitJoin([line], '\n');
    FilterMapSingle(line, KeepDbLine, FirstField);
  }

  /** A psql continuation row (the second line of a multi-line access
      privileges cell): `parseDatabases` offers an empty database name for it. */
  lemma ContinuationRowGivesEmptyName()
    ensures ParseDatabases(ContinuationRow) == [""]
  {
    var line := ContinuationRow;
    assert '\n' !in line by {
      forall k | 0 <= k < |line| ensures line[k] != '\n' {
      }
    }
    ContinuationRowKept();
    ParseDatabasesLine(line);
  }

  lemma ContinuationRowKept()
    ensures KeepDbLine(ContinuationRow) && FirstField(ContinuationRow) == ""
  {
    ContinuationRowField();
    ContinuationRowNoTemplate();
    ContinuationRowNotBlank();
    assert !StartsWith(ContinuationRow, "-");
  }

  lemma ContinuationRowField()
    ensures FirstField(ContinuationRow) == ""
  {
    BeforeOfPrefix(RowIndent, RowRest, '|');
    JsTrimAllSpace(RowIndent);
  }

  lemma ContinuationRowNoTemplate()
    ensures !Contains(ContinuationRow, "template")
  {
    var line := ContinuationRow;
    assert "template"[1] == 'e';
    forall k | 0 <= k < |line| ensures line[k] != 'e' {
    }
    MissingCharNotContained(line, "template", 'e');
  }

  lemma ContinuationRowNotBlank()
    ensures JsTrim(ContinuationRow) != ""
  {
    var line := ContinuationRow;
    TrimEmptyIff(line, IsJsSpace);
    assert line[|RowIndent|] == RowRest[0];
  }

  /** The row as psql prints it: an empty name column, an empty encoding
      column, and the continued privileges. */
  const RowIndent: string := "   "
  const RowRest: string := "|  | odoo=CTc/odoo"
  const ContinuationRow: string := RowIndent + RowRest

  /** The title line psql prints above the table (`List of databases`), and
      any other line without columns, is offered as a database name too. */
  lemma TitleOfferedAsName(title: string, rest: string)
    requires '\n' !in title && '|' !in title
    requires KeepDbLine(title)
    ensures ParseDatabases(title + "\n" + rest) == [JsTrim(title)] + ParseDatabases(rest)
  {
    ParseDatabasesAppend(title, rest);
    ParseDatabasesLine(title);
    BeforeOfPrefix(title, "", '|');
    assert title + "" == title;
  }

  /** The corrected reading of the `psql -l` output: the first column of the
      lines below the rule that have columns, blank names dropped, and every
      line that mentions `template` dropped as `parseDatabases` drops it. */
  function ParseDatabaseRows(output: string): (r: seq<string>)
    ensures forall name :: name in r ==> name != "" && '|' !in name && !StartsWith(name, "template")
    ensures forall name :: name in r ==>
              exists line :: line in Lines(output) && !Contains(line, "template")
                             && !StartsWith(line, "-") && name == FirstField(line)
  {
    DatabaseRows(Lines(output), IsJsSpace, LineRule)
  }

  /** The correction only drops names: every name of the corrected reading is
      one `parseDatabases` offers too, so the template rule of the original
      is kept. */
  lemma ParseDatabaseRowsWithinParseDatabases(output: string)
    ensures forall name :: name in ParseDatabaseRows(output) ==> name in ParseDatabases(output)
  {
    forall name | name in ParseDatabaseRows(output)
      ensures name in ParseDatabases(output)
    {
      var line :| line in Lines(output) && IsDbRow(line, IsJsSpace, LineRule)
                  && name == Column(line, IsJsSpace);
      ColumnNotBlank(line);
      assert KeepDbLine(line);
    }
  }

  /** A line whose first column is not blank is not blank. */
  lemma ColumnNotBlank(line: string)
    requires Column(line, IsJsSpace) != ""
    ensures JsTrim(line) != ""
  {
    var f := Before(line, '|');
    TrimEmptyIff(f, IsJsSpace);
    TrimEmptyIff(line, IsJsSpace);
    var k :| 0 <= k < |f| && !IsJsSpace(f[k]);
    assert line[k] == f[k];
  }

  /** On the text of a psql table, the corrected reading gives exactly the
      listed databases whose rows do not mention `template`: no title,
      header, continuation row or footer. */
  lemma ParseDatabaseRowsOfTable(pre: seq<string>, rule: string, rows: seq<Row>, post: seq<string>)
    requires forall k :: 0 <= k < |pre| ==> !StartsWith(pre[k], "-") && '\n' !in pre[k]
    requires StartsWith(rule, "-") && '\n' !in rule
    requires forall k :: 0 <= k < |rows| ==> PlainName(rows[k].name, IsJsSpace)
                                             && '\n' !in rows[k].name && '\n' !in rows[k].rest
    requires forall k :: 0 <= k < |post| ==> '|' !in post[k] && '\n' !in post[k]
    ensures ParseDatabaseRows(Join(pre + [rule] + RowLines(rows) + post, '\n')) == Names(rows, LineRule)
  {
    var lines := pre + [rule] + RowLines(rows) + post;
    RowLinesNoNewline(rows);
    NoNewlineConcat(pre, [rule]);
    NoNewlineConcat(pre + [rule], RowLines(rows));
    NoNewlineConcat(pre + [rule] + RowLines(rows), post);
    SplitJoin(lines, '\n');
    DatabaseRowsOfTable(pre, rule, rows, post, IsJsSpace, LineRule);
  }

  /** Lines without line breaks stay so when concatenated. */
  lemma NoNewlineConcat(a: seq<string>, b: seq<string>)
    requires forall k :: 0 <= k < |a| ==> '\n' !in a[k]
    requires forall k :: 0 <= k < |b| ==> '\n' !in b[k]
    ensures forall k :: 0 <= k < |a + b| ==> '\n' !in (a + b)[k]
  {
  }

  lemma {:induction false} RowLinesNoNewline(rows: seq<Row>)
    requires forall k :: 0 <= k < |rows| ==> '\n' !in rows[k].name && '\n' !in rows[k].rest
    ensures forall k :: 0 <= k < |rows| ==> '\n' !in RowLines(rows)[k]
    decreases |rows|
  {
    if |rows| > 0 {
      RowLinesNoNewline(rows[1..]);
      var l := RowLine(rows[0]);
      assert forall c :: c in l ==> c in rows[0].name || c in rows[0].rest || c == ' ' || c == '|';
      forall k | 0 <= k < |rows| ensures '\n' !in RowLines(rows)[k] {
        if k > 0 {
          assert RowLines(rows)[k] == RowLines(rows[1..])[k - 1];
        }
      }
    }
  }

  /** The image test of the Odoo-container filter, on the lower-cased image. */
  predicate IsOdooImage(image: string) {
    var l := Lower(image);
    Contains(l, "odoo") || Contains(l, "dashboard") || Contains(l, "control")
  }

  /** The line filter of the Odoo-container listing: non-blank, with a second
      `|` field that is non-empty and names an Odoo-like image. */
  predicate KeepContainerLine(line: string) {
    var parts := Split(line, '|');
    JsTrim(line) != "" && |parts| >= 2 && parts[1] != "" && IsOdooImage(parts[1])
  }

  /** The names of the running containers whose image looks like Odoo, a
      dashboard or a control panel, in `docker ps` order. */
  function OdooContainers(output: string): (r: seq<string>)
    ensures |r| <= |Lines(output)|
    ensures forall line :: line in Lines(output) && KeepContainerLine(line) ==> FirstField(line) in r
    ensures forall name :: name in r ==>
              exists line :: line in Lines(output) && KeepContainerLine(line) && name == FirstField(line)
  {
    FilterMap(Lines(output), KeepContainerLine, FirstField)
  }

  /** Line-by-line and order-preserving, as for the database list. */
  lemma OdooContainersAppend(a: string, b: string)
    ensures OdooContainers(a + "\n" + b) == OdooContainers(a) + OdooContainers(b)
  {
    SplitAppend(a, b, '\n');
    FilterMapAppend(Lines(a), Lines(b), KeepContainerLine, FirstField);
  }

  /** A line without any `|` has no image field and is dropped, never fatal. */
  lemma LineWithoutImageDropped(line: string)
    requires '\n' !in line && '|' !in line
    ensures OdooContainers(line) == []
  {
    SplitJoin([line], '\n');
    SplitJoin([line], '|');
    FilterMapSingle(line, KeepContainerLine, FirstField);
  }
}

=== FILE: extension_status.dfy ===
/** How the extension and the GUI decide whether the Vagrant machine is up,
    from the text `vagrant status` prints, and how the side panel shows it.
    The extension sees a run of `vagrant status` as `ExecOutput(run)`:
    `None` when the command fails, otherwise `Some(stdout)`. */
module VmStatus {
  import opened Text
  import opened Base

  /** The values the side panel's `_vmStatus` is set to. */
  const Statuses: set<string> := {"running", "stopped", "not-created", "unknown", "error"}

  /** The words searched for in the lower-cased output, in priority order,
      each with the status it selects. */
  const Rules: seq<(string, string)> :=
    [("running", "running"), ("poweroff", "stopped"), ("not created", "not-created")]

  /** `_checkAndUpdateStatus`: the status the side panel records. */
  function ClassifyStatus(output: Option<string>): (r: string)
    ensures r in Statuses
    ensures r == "error" <==> output.None?
  {
    match output
    case None => "error"
    case Some(o) =>
      var l := Lower(o);
      if Contains(l, "running") then "running"
      else if Contains(l, "poweroff") then "stopped"
      else if Contains(l, "not created") then "not-created"
      else "unknown"
  }

  /** Reference definition: the first rule whose word occurs decides, and no
      match at all means `unknown`. */
  function FirstRule(l: string, rules: seq<(string, string)>): string {
    if |rules| == 0 then "unknown"
    else if Contains(l, rules[0].0) then rules[0].1
    else FirstRule(l, rules[1..])
  }

  /** The classification is the first-match rule list applied to the
      lower-cased output; in particular it ignores letter case. */
  lemma ClassifyByRules(o: string)
    ensures ClassifyStatus(Some(o)) == FirstRule(Lower(o), Rules)
  {
    var l := Lower(o);
    var r3 := Rules[1..][1..][1..];
    assert r3 == [];
    assert FirstRule(l, Rules[1..][1..]) == if Contains(l, "not created") then "not-created" else "unknown";
    assert FirstRule(l, Rules[1..]) == if Contains(l, "poweroff") then "stopped" else FirstRule(l, Rules[1..][1..]);
  }

  /** `running` has top priority: once the output mentions it anywhere,
      nothing printed before or after can change the verdict. */
  lemma {:induction false} RunningWinsOverExtraOutput(a: string, b: string, c: string)
    requires ClassifyStatus(Some(b)) == "running"
    ensures ClassifyStatus(Some(a + b + c)) == "running"
  {
    assert Contains(Lower(b), "running");
    ContainsLowerInside(a, b, c, "running");
  }

  /** The `lgd-helper.checkStatus` command: whether the machine runs, and the
      kind of message it shows. */
  datatype Level = Info | Warning | Failure

  function CheckStatusCommand(output: Option<string>): (r: (bool, Level))
    ensures r.0 <==> r.1 == Info
  {
    match output
    case None => (false, Failure)
    case Some(o) =>
      var l := Lower(o);
      if Contains(l, "running") then (true, Info)
      else if Contains(l, "poweroff") then (false, Warning)
      else if Contains(l, "not created") then (false, Failure)
      else (false, Warning)
  }

  /** The command and the side panel agree: the command reports a running
      machine exactly when the panel records `running`, an error message
      exactly when the panel records `not-created` or `error`. */
  lemma CheckStatusAgreesWithPanel(output: Option<string>)
    ensures CheckStatusCommand(output).0 <==> ClassifyStatus(output) == "running"
    ensures CheckStatusCommand(output).1 == Failure
            <==> ClassifyStatus(output) in {"not-created", "error"}
    ensures CheckStatusCommand(output).1 == Warning
            <==> ClassifyStatus(output) in {"stopped", "unknown"}
  {
  }

  /** `_getHtmlContent`'s status switch: the indicator text and CSS class. */
  function StatusIndicator(status: string): (r: (string, string))
    ensures r.1 in {"status-running", "status-stopped", "status-error", "status-unknown"}
    ensures r.1 == "status-unknown" <==> status !in Statuses - {"unknown"}
    ensures r.1 == "status-error" <==> status == "not-created" || status == "error"
  {
    match status
    case "running" => ("✅ Máquina Virtual: ACTIVA", "status-running")
    case "stopped" => ("⚠️ Máquina Virtual: DETENIDA", "status-stopped")
    case "not-created" => ("❌ Máquina Virtual: NO CREADA", "status-error")
    case "error" => ("❌ Error al verificar estado", "status-error")
    case _ => ("❓ Estado: Desconocido", "status-unknown")
  }

  /** Where two statuses share a class the texts still tell them apart: the
      indicator text identifies the status among those the panel can hold,
      `unknown` standing for everything outside the known four. */
  lemma IndicatorTextIdentifiesStatus(s1: string, s2: string)
    requires s1 in Statuses && s2 in Statuses
    requires StatusIndicator(s1).0 == StatusIndicator(s2).0
    ensures s1 == s2
  {
  }

  /** The panel shows the error class exactly when `vagrant status` failed or
      reported a machine that was never created. */
  lemma PanelErrorClass(output: Option<string>)
    ensures StatusIndicator(ClassifyStatus(output)).1 == "status-error"
            <==> output.None? || (!Contains(Lower(output.value), "running")
                                  && !Contains(Lower(output.value), "poweroff")
                                  && Contains(Lower(output.value), "not created"))
  {
  }

  /** The status line of `checkVagrantStatus`: trimmed, it starts with the
      machine name `default`. */
  predicate IsDefaultLine(line: string) {
    StartsWith(JsTrim(line), "default")
  }

  /** `lines[i]` is the first line that starts with `default` once trimmed. */
  predicate FirstDefaultAt(lines: seq<string>, i: int) {
    0 <= i < |lines| && IsDefaultLine(lines[i])
    && forall j :: 0 <= j < i ==> !IsDefaultLine(lines[j])
  }

  /** The index of the first `default` line at or after `from`, or `|lines|`
      when there is none. */
  function FirstDefault(lines: seq<string>, from: nat): (i: nat)
    requires from <= |lines|
    ensures from <= i <= |lines|
    ensures forall j :: from <= j < i ==> !IsDefaultLine(lines[j])
    ensures i < |lines| ==> IsDefaultLine(lines[i])
    decreases |lines| - from
  {
    if from == |lines| || IsDefaultLine(lines[from]) then from
    else FirstDefault(lines, from + 1)
  }

  /** `checkVagrantStatus`: the first `default` line of the output mentions
      `running`, ignoring case. No such line, or a failed command, is `false`. */
  function CheckVagrantStatus(output: Option<string>): (r: bool)
    ensures r ==> output.Some?
  {
    match output
    case None => false
    case Some(o) =>
      var lines := Split(o, '\n');
      var i := FirstDefault(lines, 0);
      i < |lines| && Contains(Lower(lines[i]), "running")
  }

  /** The verdict in terms of the output's lines: true exactly when some line
      is the first `default` line and mentions `running`. */
  lemma CheckVagrantStatusMeaning(output: Option<string>)
    ensures CheckVagrantStatus(output)
            <==> output.Some?
                 && exists i :: FirstDefaultAt(Split(output.value, '\n'), i)
                                && Contains(Lower(Split(output.value, '\n')[i]), "running")
  {
    if output.Some? {
      var lines := Split(output.value, '\n');
      FirstDefaultUnique(lines);
      var k := FirstDefault(lines, 0);
      if k < |lines| {
        assert FirstDefaultAt(lines, k);
      }
    }
  }

  lemma FirstDefaultUnique(lines: seq<string>)
    ensures forall i :: FirstDefaultAt(lines, i) ==> i == FirstDefault(lines, 0)
  {
  }

  function DefaultTest(): string -> bool {
    line => IsDefaultLine(line)
  }

  /** The index search is `lines.find(...)`: it finds a line exactly when
      `find` does, and the same line. */
  lemma FirstDefaultIsFind(lines: seq<string>)
    ensures var i := FirstDefault(lines, 0);
            var f := First(lines, DefaultTest());
            (i < |lines| <==> f.Some?) && (f.Some? ==> f.value == lines[i])
  {
    var i := FirstDefault(lines, 0);
    var f := First(lines, DefaultTest());
    if f.Some? {
      var j :| 0 <= j < |lines| && lines[j] == f.value && DefaultTest()(lines[j])
               && forall k :: 0 <= k < j ==> !DefaultTest()(lines[k]);
      assert FirstDefaultAt(lines, j);
      FirstDefaultUnique(lines);
    }
  }

  /** Without a `default` line the machine is never reported as running. */
  lemma NoDefaultLineNotRunning(o: string)
    requires forall line :: line in Split(o, '\n') ==> !IsDefaultLine(line)
    ensures !CheckVagrantStatus(Some(o))
  {
  }

  /** The careful check implies the coarse one: a machine
      `checkVagrantStatus` reports running is also `running` for the side
      panel, for the `checkStatus` command and for the GUI. */
  lemma CheckVagrantStatusSound(o: string)
    requires CheckVagrantStatus(Some(o))
    ensures ClassifyStatus(Some(o)) == "running"
  {
    var lines := Split(o, '\n');
    var i := FirstDefault(lines, 0);
    PieceMentionsRunning(o, i);
  }

  /** A line of the output that mentions `running` makes the whole output
      mention it. */
  lemma PieceMentionsRunning(o: string, i: int)
    requires 0 <= i < |Split(o, '\n')|
    requires Contains(Lower(Split(o, '\n')[i]), "running")
    ensures Contains(Lower(o), "running")
  {
    var a, c := SplitPieceInside(o, '\n', i);
    ContainsLowerInside(a, Split(o, '\n')[i], c, "running");
  }

  /** The coarse check does not imply the careful one: when the `default`
      machine is not running but a later line (another machine) is, the panel
      still records `running`. */
  lemma CheckVagrantStatusLooksAtDefaultOnly(a: string, b: string)
    requires '\n' !in a && '\n' !in b
    requires IsDefaultLine(a) && !Contains(Lower(a), "running")
    requires Contains(Lower(b), "running")
    ensures ClassifyStatus(Some(a + "\n" + b)) == "running"
    ensures !CheckVagrantStatus(Some(a + "\n" + b))
  {
    TwoLines(a, b);
    PieceMentionsRunning(a + "\n" + b, 1);
  }

  lemma TwoLines(a: string, b: string)
    requires '\n' !in a && '\n' !in b
    requires IsDefaultLine(a) && !Contains(Lower(a), "running")
    ensures Split(a + "\n" + b, '\n') == [a, b]
    ensures !CheckVagrantStatus(Some(a + "\n" + b))
  {
    var o := a + "\n" + b;
    SplitTwo(a, b, '\n');
    DefaultFirstLine(Split(o, '\n'));
  }

  /** A first line starting with `default` is the one looked at. */
  lemma DefaultFirstLine(lines: seq<string>)
    requires |lines| > 0 && IsDefaultLine(lines[0])
    ensures FirstDefault(lines, 0) == 0
  {
  }

  /** One run of `vagrant status`: the program could not be started, or it
      exited with a status code after writing `out` to stdout and `err` to
      stderr. */
  datatype StatusRun = NotStarted | Exited(code: int, out: string, err: string)

  /** `executeCommand`: the promise resolves with stdout when the command
      exits with status 0 and rejects otherwise, so the extension sees
      `vagrant status` as this `Option`. */
  function ExecOutput(run: StatusRun): (r: Option<string>)
    ensures r.Some? <==> run.Exited? && run.code == 0
    ensures r.Some? ==> r.value == run.out
  {
    match run
    case NotStarted => None
    case Exited(code, out, _) => if code == 0 then Some(out) else None
  }

  /** What the GUI reads from its pipe: stderr is redirected into stdout, and
      the model places it after stdout. */
  function Piped(run: StatusRun): string
    requires run.Exited?
  {
    run.out + run.err
  }

  /** `check_vagrant_status` of the GUI: `running` anywhere in what the pipe
      delivered, whatever the exit status. A program that cannot be started
      gives `False`; so does any other exception the GUI catches, such as
      output that cannot be decoded, which the model does not represent. */
  function GuiVmRunning(run: StatusRun): (r: bool)
    ensures run.NotStarted? ==> !r
    ensures r ==> run.Exited? && Contains(Lower(run.out + run.err), "running")
  {
    match run
    case NotStarted => false
    case Exited(_, out, err) => Contains(Lower(Piped(run)), "running")
  }

  /** The exit status plays no part in the GUI's verdict. */
  lemma GuiIgnoresExitStatus(c1: int, c2: int, out: string, err: string)
    ensures GuiVmRunning(Exited(c1, out, err)) == GuiVmRunning(Exited(c2, out, err))
  {
  }

  /** Whenever the side panel records `running` for a run, the GUI reports
      running for that run too. */
  lemma PanelRunningGuiRunning(run: StatusRun)
    requires ClassifyStatus(ExecOutput(run)) == "running"
    ensures GuiVmRunning(run)
  {
    ContainsLowerInside("", run.out, run.err, "running");
    assert "" + run.out + run.err == Piped(run);
  }

  /** On a run that exits with status 0 and writes nothing to stderr both
      front ends read the same text, and the GUI's verdict is exactly the
      side panel's `running`. */
  lemma GuiAgreesWithPanel(run: StatusRun)
    requires run.Exited? ==> run.code == 0 && run.err == ""
    ensures GuiVmRunning(run) <==> ClassifyStatus(ExecOutput(run)) == "running"
  {
    if run.Exited? {
      assert Piped(run) == run.out;
    }
  }

  /** A failed run that mentions `running` on either stream is running to the
      GUI and an error to the side panel. */
  lemma GuiRunningOnFailedRun(code: int, out: string, err: string)
    requires code != 0
    requires Contains(Lower(out), "running") || Contains(Lower(err), "running")
    ensures GuiVmRunning(Exited(code, out, err))
    ensures ClassifyStatus(ExecOutput(Exited(code, out, err))) == "error"
  {
    MentionInEither(out, err, "running");
    assert Piped(Exited(code, out, err)) == out + err;
  }

  /** A word either stream mentions is in the piped text. */
  lemma MentionInEither(out: string, err: string, word: string)
    requires Contains(Lower(out), word) || Contains(Lower(err), word)
    ensures Contains(Lower(out + err), word)
  {
    if Contains(Lower(out), word) {
      ContainsLowerInside([], out, err, word);
      assert [] + out + err == out + err;
    } else {
      ContainsLowerInside(out, err, [], word);
      assert out + err + [] == out + err;
    }
  }
}

=== FILE: extension_workspace.dfy ===
/** The `.code-workspace` file the extension writes for a Vagrant project
    (`createWorkspace`), the root it starts from, and the structure check
    `validateWorkspaceStructure`, which the source defines but never calls. The
    filesystem is an `Fs` snapshot plus the two directory listings read. */
module Workspace {
  import opened Text
  import opened Seqs
  import opened Paths
  import opened Base

  /** One entry of the workspace's `folders` list. */
  datatype Folder = Folder(path: string, name: string)

  /** The generated workspace: its folders and its settings, which are
      `search.followSymlinks`, `esbonio.sphinx.confDir`, the `files.exclude`
      map, and the two per-view maps with their setting keys. */
  datatype WorkspaceConfig = WorkspaceConfig(
    folders: seq<Folder>,
    followSymlinks: bool,
    sphinxConfDir: string,
    exclude: map<string, bool>,
    devViewKey: string,
    devView: map<string, bool>,
    rootViewKey: string,
    rootView: map<string, bool>)

  /** `StatFailed`: `statSync` threw on an entry of one of the two listings,
      as it does for a dangling symbolic link. */
  datatype CreateResult =
    | Created(workspacePath: string, config: WorkspaceConfig)
    | Failed(message: string)
    | StatFailed

  const MissingVagrantfile: string := "No se encontró Vagrantfile en el directorio raíz"
  const MissingDev: string := "No se encontró la carpeta dev"
  const DevFilesName: string := "📄 Archivos dev"
  const VmFilesName: string := "📄 Archivos vm"

  /** `{...m, [k]: v}` for every `k` of `keys` in turn. */
  function MarkAll(m: map<string, bool>, keys: seq<string>, v: bool): (r: map<string, bool>)
    ensures forall k :: k in r <==> k in m || k in keys
    ensures forall k :: k in keys ==> r[k] == v
    ensures forall k :: k in m && k !in keys ==> r[k] == m[k]
    decreases |keys|
  {
    if |keys| == 0 then m
    else
      var r := MarkAll(m[keys[0] := v], keys[1..], v);
      assert forall k :: k in keys ==> k == keys[0] || k in keys[1..];
      r
  }

  /** `path.join('dev', name)` for every directory of the `dev` listing. */
  function DevFolders(names: seq<string>): (r: seq<Folder>)
    ensures |r| == |names|
    ensures forall k :: 0 <= k < |names| ==> r[k] == Folder(NodeJoin("dev", names[k]), names[k])
  {
    if |names| == 0 then [] else [Folder(NodeJoin("dev", names[0]), names[0])] + DevFolders(names[1..])
  }

  /** `"dev/" + name` for every name. */
  function UnderDev(names: seq<string>): (r: seq<string>)
    ensures |r| == |names|
    ensures forall k :: 0 <= k < |names| ==> r[k] == "dev/" + names[k]
  {
    if |names| == 0 then [] else ["dev/" + names[0]] + UnderDev(names[1..])
  }

  /** The names of the root's directories other than `dev`. */
  function RootDirsButDev(rootItems: seq<DirEntry>): (r: seq<string>)
    ensures forall n :: n in r <==> exists e :: e in rootItems && e.isDir && e.name != "dev" && e.name == n
  {
    FilterMap(rootItems, (e: DirEntry) => e.isDir && e.name != "dev", (e: DirEntry) => e.name)
  }

  /** The workspace content built from the project's name and the `dev` and
      root listings: symbolic links are not followed in searches, the Sphinx
      configuration directory is empty, and the view maps are keyed
      `files.exclude.<rootName>/dev` and `files.exclude.<rootName>`. */
  function BuildConfig(rootName: string, devItems: seq<DirEntry>, rootItems: seq<DirEntry>)
    : (r: WorkspaceConfig)
    ensures !r.followSymlinks && r.sphinxConfDir == ""
    ensures r.devViewKey == ExcludeKey + "." + rootName + "/dev"
    ensures r.rootViewKey == ExcludeKey + "." + rootName
  {
    var devNames := DirNames(devItems);
    WorkspaceConfig(
      [Folder("dev", "dev")] + DevFolders(devNames) + [Folder("dev", DevFilesName), Folder(".", VmFilesName)],
      false,
      "",
      MarkAll(MarkAll(map[], UnderDev(devNames), true), RootDirsButDev(rootItems), true),
      ExcludeKey + "." + rootName + "/dev",
      MarkAll(map["**/" := false], devNames, true),
      ExcludeKey + "." + rootName,
      MarkAll(map["**/" := false, "dev" := true], DirNames(rootItems), true))
  }

  const ExcludeKey: string := "files.exclude"

  /** The three exclusion settings sit under three different keys whatever
      the project's name, so none of them overwrites another. */
  lemma SettingKeysDistinct(rootName: string, devItems: seq<DirEntry>, rootItems: seq<DirEntry>)
    ensures var c := BuildConfig(rootName, devItems, rootItems);
            c.devViewKey != c.rootViewKey && c.devViewKey != ExcludeKey && c.rootViewKey != ExcludeKey
  {
    var c := BuildConfig(rootName, devItems, rootItems);
    assert |c.devViewKey| == |c.rootViewKey| + 4;
    assert |c.rootViewKey| > |ExcludeKey|;
  }

  /** `createWorkspace(devPath)`: the Vagrantfile is looked for in the parent
      of `devPath` first, then `devPath` must be a directory, then both
      directories are listed; the workspace file is
      `<root>/<basename(root)>.code-workspace`. A listing is `None` when
      `statSync` throws on one of its entries. */
  function CreateWorkspace(devPath: string, fs: Fs, devItems: Option<seq<DirEntry>>,
                           rootItems: Option<seq<DirEntry>>)
    : (r: CreateResult)
    ensures r == Failed(MissingVagrantfile)
            <==> !fs.Exists(NodeJoin(NodeDirname(devPath), "Vagrantfile"))
    ensures r == Failed(MissingDev)
            <==> fs.Exists(NodeJoin(NodeDirname(devPath), "Vagrantfile")) && !fs.IsDir(devPath)
    ensures r.StatFailed?
            <==> fs.Exists(NodeJoin(NodeDirname(devPath), "Vagrantfile")) && fs.IsDir(devPath)
                 && (devItems.None? || rootItems.None?)
    ensures r.Created? <==> fs.Exists(NodeJoin(NodeDirname(devPath), "Vagrantfile")) && fs.IsDir(devPath)
                            && devItems.Some? && rootItems.Some?
    ensures r.Created? ==> && devItems.Some? && rootItems.Some?
                           && r.config == BuildConfig(NodeBasename(NodeDirname(devPath)),
                                                      devItems.value, rootItems.value)
                           && r.workspacePath == WorkspaceFile(NodeDirname(devPath))
  {
    var root := NodeDirname(devPath);
    if !fs.Exists(NodeJoin(root, "Vagrantfile")) then Failed(MissingVagrantfile)
    else if !fs.IsDir(devPath) then Failed(MissingDev)
    else if devItems.None? || rootItems.None? then StatFailed
    else
      Created(WorkspaceFile(root), BuildConfig(NodeBasename(root), devItems.value, rootItems.value))
  }

  /** A name a directory listing can return: non-empty and without a slash. */
  predicate PlainName(n: string) {
    n != "" && Slash !in n
  }

  predicate PlainListing(items: seq<DirEntry>) {
    forall k :: 0 <= k < |items| ==> PlainName(items[k].name)
  }

  /** The folders are, in order: `dev`, one `dev/<name>` per `dev`
      subdirectory in listing order, the `dev` files view, then the root.
      Each subdirectory folder's path has the folder's name as basename and
      `dev` as dirname. */
  lemma FoldersShape(rootName: string, devItems: seq<DirEntry>, rootItems: seq<DirEntry>)
    requires PlainListing(devItems)
    ensures var f := BuildConfig(rootName, devItems, rootItems).folders;
            var names := DirNames(devItems);
            |f| == |names| + 3
            && f[0] == Folder("dev", "dev")
            && f[|f| - 2] == Folder("dev", DevFilesName)
            && f[|f| - 1] == Folder(".", VmFilesName)
            && forall k :: 1 <= k <= |names| ==>
                 f[k].name == names[k - 1]
                 && f[k].path == "dev/" + names[k - 1]
                 && NodeBasename(f[k].path) == f[k].name
                 && NodeDirname(f[k].path) == "dev"
  {
    var names := DirNames(devItems);
    var f := BuildConfig(rootName, devItems, rootItems).folders;
    var d := DevFolders(names);
    assert f == [Folder("dev", "dev")] + d + [Folder("dev", DevFilesName), Folder(".", VmFilesName)];
    forall k | 1 <= k <= |names|
      ensures f[k].name == names[k - 1] && f[k].path == "dev/" + names[k - 1]
              && NodeBasename(f[k].path) == f[k].name && NodeDirname(f[k].path) == "dev"
    {
      assert f[k] == d[k - 1];
      var n := names[k - 1];
      assert PlainName(n) by {
        DirNamesPlain(devItems);
        assert n in names;
      }
      assert NodeJoin("dev", n) == "dev/" + n;
      NodeSplitPath("dev", n);
    }
  }

  /** `files.exclude` hides exactly `dev/<name>` for every `dev` subdirectory
      and every root directory other than `dev`, always with `true`. */
  lemma ExcludeKeys(rootName: string, devItems: seq<DirEntry>, rootItems: seq<DirEntry>, key: string)
    ensures var ex := BuildConfig(rootName, devItems, rootItems).exclude;
            (key in ex
             <==> (exists e :: e in devItems && e.isDir && key == "dev/" + e.name)
                  || (exists e :: e in rootItems && e.isDir && e.name != "dev" && key == e.name))
            && (key in ex ==> ex[key])
  {
    var names := DirNames(devItems);
    var u := UnderDev(names);
    var m := MarkAll(map[], u, true);
    var ex := MarkAll(m, RootDirsButDev(rootItems), true);
    assert ex == BuildConfig(rootName, devItems, rootItems).exclude;
    assert key in ex <==> key in u || key in RootDirsButDev(rootItems);
    UnderDevHas(names, key);
    assert (exists n :: n in names && key == "dev/" + n)
           <==> (exists e :: e in devItems && e.isDir && key == "dev/" + e.name) by {
      if exists n :: n in names && key == "dev/" + n {
        var n :| n in names && key == "dev/" + n;
        var e :| e in devItems && e.isDir && e.name == n;
      }
      if exists e :: e in devItems && e.isDir && key == "dev/" + e.name {
        var e :| e in devItems && e.isDir && key == "dev/" + e.name;
        assert e.name in names;
      }
    }
  }

  /** `"dev/" + n` is listed exactly for the names listed. */
  lemma UnderDevHas(names: seq<string>, key: string)
    ensures key in UnderDev(names) <==> exists n :: n in names && key == "dev/" + n
  {
    var u := UnderDev(names);
    if key in u {
      var i :| 0 <= i < |u| && u[i] == key;
      assert names[i] in names;
    }
    if exists n :: n in names && key == "dev/" + n {
      var n :| n in names && key == "dev/" + n;
      var i :| 0 <= i < |names| && names[i] == n;
      assert u[i] == key;
    }
  }

  /** In the `dev` view every subdirectory is hidden and `**` stays visible;
      in the root view `dev` and every root directory are hidden. */
  lemma ViewMaps(rootName: string, devItems: seq<DirEntry>, rootItems: seq<DirEntry>)
    requires PlainListing(devItems)
    ensures var c := BuildConfig(rootName, devItems, rootItems);
            && "**/" in c.devView && !c.devView["**/"]
            && (forall n :: n in DirNames(devItems) ==> n in c.devView && c.devView[n])
            && "dev" in c.rootView && c.rootView["dev"]
            && (forall n :: n in DirNames(rootItems) ==> n in c.rootView && c.rootView[n])
            && (forall k :: k in c.rootView && c.rootView[k] ==> k == "dev" || k in DirNames(rootItems))
  {
    DirNamesPlain(devItems);
    assert Slash in "**/" by { assert "**/"[2] == Slash; }
  }

  /** The directory names of a plain listing are plain. */
  lemma DirNamesPlain(items: seq<DirEntry>)
    requires PlainListing(items)
    ensures forall n :: n in DirNames(items) ==> PlainName(n)
  {
    forall n | n in DirNames(items) ensures PlainName(n) {
      var e :| e in items && e.isDir && n == e.name;
      var i :| 0 <= i < |items| && items[i] == e;
    }
  }

  /** The root the `createWorkspace` command starts from: the parent of a
      workspace folder that ends in `/dev`, otherwise the folder itself. */
  function ResolveRoot(workspaceRoot: string): string {
    if EndsWith(workspaceRoot, "/dev") then NodeDirname(workspaceRoot) else workspaceRoot
  }

  /** The `dev` path handed to `createWorkspace`. */
  function ResolveDevPath(workspaceRoot: string): string {
    NodeJoin(ResolveRoot(workspaceRoot), "dev")
  }

  /** Opened at a project root, or at the project's `dev` folder, the command
      works on the same project: `createWorkspace` looks for the Vagrantfile
      in that root and writes `<root>/<name>.code-workspace` there. */
  lemma ResolveFromRootOrDev(root: string)
    requires root != "" && !EndsWith(root, "/") && !EndsWith(root, "/dev")
    ensures ResolveDevPath(root) == root + "/dev"
    ensures ResolveDevPath(root + "/dev") == root + "/dev"
    ensures NodeDirname(ResolveDevPath(root)) == root
  {
    NodeSplitPath(root, "dev");
    var p := root + "/dev";
    assert EndsWith(p, "/dev") by { assert p[|p| - 4..] == "/dev"; }
    assert NodeJoin(root, "dev") == p;
  }

  /** `<root>/<basename(root)>.code-workspace`. */
  function WorkspaceFile(root: string): string {
    NodeJoin(root, NodeBasename(root) + ".code-workspace")
  }

  /** The workspace file lies in the project root and is named after it. */
  lemma WorkspaceFileInRoot(root: string)
    requires root != "" && !EndsWith(root, "/")
    ensures NodeDirname(WorkspaceFile(root)) == root
    ensures NodeBasename(WorkspaceFile(root)) == NodeBasename(root) + ".code-workspace"
  {
    var base := NodeBasename(root);
    var name := base + ".code-workspace";
    assert Slash !in name by {
      forall k | 0 <= k < |name| ensures name[k] != Slash {
        if k < |base| { assert name[k] == base[k]; }
      }
    }
    NodeSplitPath(root, name);
  }

  /** The verdict of the structure check. */
  datatype Verdict = NoWorkspace | SuggestParent | Incompatible | Fine

  /** `validateWorkspaceStructure`: inside a `dev` folder the Vagrantfile is
      looked for in the parent; elsewhere a missing Vagrantfile is only an
      error when there is no `dev` directory either. */
  function ValidateStructure(workspaceRoot: Option<string>, fs: Fs): (r: Verdict)
    ensures r == NoWorkspace <==> workspaceRoot.None? || workspaceRoot.value == ""
    ensures r == SuggestParent
            <==> workspaceRoot.Some? && workspaceRoot.value != "" && EndsWith(workspaceRoot.value, "/dev")
                 && !fs.Exists(NodeJoin(NodeDirname(workspaceRoot.value), "Vagrantfile"))
    ensures r == Incompatible
            <==> workspaceRoot.Some? && workspaceRoot.value != "" && !EndsWith(workspaceRoot.value, "/dev")
                 && !fs.Exists(NodeJoin(workspaceRoot.value, "Vagrantfile"))
                 && !fs.IsDir(NodeJoin(workspaceRoot.value, "dev"))
  {
    if workspaceRoot.None? || workspaceRoot.value == "" then NoWorkspace
    else
      var root := workspaceRoot.value;
      var inDev := EndsWith(root, "/dev");
      var vagrantfile := if inDev then NodeJoin(NodeDirname(root), "Vagrantfile")
                         else NodeJoin(root, "Vagrantfile");
      if inDev && !fs.Exists(vagrantfile) then SuggestParent
      else if !inDev && !fs.Exists(vagrantfile) then
        (if !(fs.Exists(NodeJoin(root, "dev")) && fs.IsDir(NodeJoin(root, "dev"))) then Incompatible else Fine)
      else Fine
  }

  /** A folder the check calls incompatible is one `createWorkspace` refuses,
      and a folder from which `createWorkspace` succeeds passes the check. */
  lemma ValidateAgreesWithCreate(root: string, fs: Fs, devItems: Option<seq<DirEntry>>,
                                 rootItems: Option<seq<DirEntry>>)
    requires root != "" && !EndsWith(root, "/") && !EndsWith(root, "/dev")
    ensures ValidateStructure(Some(root), fs) == Incompatible
            ==> CreateWorkspace(ResolveDevPath(root), fs, devItems, rootItems).Failed?
    ensures CreateWorkspace(ResolveDevPath(root), fs, devItems, rootItems).Created?
            ==> ValidateStructure(Some(root), fs) == Fine
  {
    ResolveFromRootOrDev(root);
  }

  /** The check is weaker than the command: a root with a `dev` directory but
      no Vagrantfile passes the check, yet `createWorkspace` refuses it. */
  lemma ValidateAcceptsMissingVagrantfile(root: string, fs: Fs, devItems: Option<seq<DirEntry>>,
                                         rootItems: Option<seq<DirEntry>>)
    requires root != "" && !EndsWith(root, "/") && !EndsWith(root, "/dev")
    requires !fs.Exists(NodeJoin(root, "Vagrantfile")) && fs.IsDir(NodeJoin(root, "dev"))
    ensures ValidateStructure(Some(root), fs) == Fine
    ensures CreateWorkspace(ResolveDevPath(root), fs, devItems, rootItems) == Failed(MissingVagrantfile)
  {
    ResolveFromRootOrDev(root);
  }
}

=== FILE: folder_manager.dfy ===
/** The extension's `FolderManager`: a configuration holding the priority
    folders, the dev path and the last selected folder, loaded from
    `config.json` and updated when a folder is chosen.

    Reading and parsing the file is a parameter (`None` when either fails),
    and so are the filesystem and `path.resolve`. The write of the
    configuration is returned instead of performed. */
module FolderManager {
  import opened Seqs
  import opened Base

  datatype Config = Config(priorityFolders: seq<string>, devPath: string, lastSelected: Option<string>)

  /** `loadConfig`: the parsed file, or on any read or parse failure the
      default configuration with no priority folders. */
  function LoadConfig(parsed: Option<Config>): (r: Config)
    ensures parsed.Some? ==> r == parsed.value
    ensures parsed.None? ==> r.priorityFolders == [] && r.devPath == "./dev" && r.lastSelected == None
  {
    parsed.GetOr(Config([], "./dev", None))
  }

  /** The configuration after a call, its boolean result, and the
      configuration written to disk, if any. */
  datatype SetOutcome = SetOutcome(config: Config, result: bool, written: Option<Config>)

  /** `setPriorityFolder(folder)`: when `folder` resolved against the dev
      path exists, it becomes the last selected folder and, if new, the first
      priority folder, and the configuration is saved. */
  function SetPriorityFolder(c: Config, folder: string, fs: Fs, resolve: (string, string) -> string): (r: SetOutcome)
    ensures r.result <==> fs.Exists(resolve(c.devPath, folder))
    ensures !r.result ==> r.config == c && r.written == None
    ensures r.result ==> r.written == Some(r.config) && r.config.devPath == c.devPath
                         && r.config.lastSelected == Some(folder)
    ensures r.result ==> forall x :: x in r.config.priorityFolders <==> x == folder || x in c.priorityFolders
    ensures |c.priorityFolders| <= |r.config.priorityFolders| <= |c.priorityFolders| + 1
    ensures r.config.priorityFolders[|r.config.priorityFolders| - |c.priorityFolders|..] == c.priorityFolders
  {
    if fs.Exists(resolve(c.devPath, folder)) then
      var c1 := Config(PrependAbsent(folder, c.priorityFolders), c.devPath, Some(folder));
      SetOutcome(c1, true, Some(c1))
    else
      SetOutcome(c, false, None)
  }

  function GetPriorityFolders(c: Config): seq<string> {
    c.priorityFolders
  }

  function GetLastSelected(c: Config): Option<string> {
    c.lastSelected
  }

  /** A successful choice of a new folder puts it in front of the unchanged
      list; of a known folder, keeps the list as it was, order included. */
  lemma SetPriorityFolderPlacement(c: Config, folder: string, fs: Fs, resolve: (string, string) -> string)
    requires fs.Exists(resolve(c.devPath, folder))
    ensures var c1 := SetPriorityFolder(c, folder, fs, resolve).config;
            && GetLastSelected(c1) == Some(folder)
            && (folder !in GetPriorityFolders(c) ==> GetPriorityFolders(c1) == [folder] + GetPriorityFolders(c))
            && (folder in GetPriorityFolders(c) ==> GetPriorityFolders(c1) == GetPriorityFolders(c))
  {
  }

  /** Choosing the same folder twice leaves the configuration as choosing it
      once did. */
  lemma SetPriorityFolderIdempotent(c: Config, folder: string, fs: Fs, resolve: (string, string) -> string)
    ensures var r1 := SetPriorityFolder(c, folder, fs, resolve);
            SetPriorityFolder(r1.config, folder, fs, resolve).config == r1.config
  {
  }

  /** A list without duplicates stays without duplicates. */
  lemma SetPriorityFolderNoDup(c: Config, folder: string, fs: Fs, resolve: (string, string) -> string)
    requires NoDup(c.priorityFolders)
    ensures NoDup(SetPriorityFolder(c, folder, fs, resolve).config.priorityFolders)
  {
    PrependAbsentNoDup(folder, c.priorityFolders);
  }
}

=== FILE: gui_backups.dfy ===
/** The backup picker of the GUI's restore (`select_backup_file`): the
    `.zip` files of the home directory, newest first, each shown as two list
    rows (a dated display name, then the full path), and the file handed to
    the restore when a row is selected.

    The directory listing, the modification times and the date formatting
    are parameters; modification times are whole numbers here. */
module GuiBackups {
  import opened Text
  import opened Seqs
  import opened Paths
  import opened Base

  datatype Backup = Backup(path: string, mtime: int)

  function MTime(b: Backup): int {
    b.mtime
  }

  predicate IsZip(name: string) {
    EndsWith(name, ".zip")
  }

  function ToBackup(home: string, mtime: string -> int): string -> Backup {
    n => Backup(PyJoin(home, n), mtime(PyJoin(home, n)))
  }

  /** The `.zip` entries of `home`, as full paths with their times, before
      sorting. */
  function ZipFiles(home: string, names: seq<string>, mtime: string -> int): seq<Backup> {
    FilterMap(names, IsZip, ToBackup(home, mtime))
  }

  /** The listed backups: newest first, every `.zip` entry exactly once, and
      entries with equal times in directory order. */
  function Backups(home: string, names: seq<string>, mtime: string -> int): (r: seq<Backup>)
    ensures SortedDesc(r, MTime)
    ensures multiset(r) == multiset(ZipFiles(home, names, mtime))
  {
    SortDesc(ZipFiles(home, names, mtime), MTime)
  }

  /** Entries with equal times keep the order of the directory listing. */
  lemma BackupsStable(home: string, names: seq<string>, mtime: string -> int, t: int)
    ensures WithKey(Backups(home, names, mtime), MTime, t) == WithKey(ZipFiles(home, names, mtime), MTime, t)
  {
    SortDescStable(ZipFiles(home, names, mtime), MTime, t);
  }

  /** Every listed backup is a `.zip` entry of `home`, found again by its
      basename, and every `.zip` entry is listed. */
  lemma BackupsAreZips(home: string, names: seq<string>, mtime: string -> int)
    requires forall k :: 0 <= k < |names| ==> Slash !in names[k]
    ensures forall b :: b in Backups(home, names, mtime) ==>
              IsZip(PyBasename(b.path)) && PyBasename(b.path) in names && b.mtime == mtime(b.path)
    ensures forall n :: n in names && IsZip(n) ==> ToBackup(home, mtime)(n) in Backups(home, names, mtime)
  {
    var zs := ZipFiles(home, names, mtime);
    var bs := Backups(home, names, mtime);
    forall b | b in bs
      ensures IsZip(PyBasename(b.path)) && PyBasename(b.path) in names && b.mtime == mtime(b.path)
    {
      assert b in multiset(bs);
      assert b in zs;
      var n :| n in names && IsZip(n) && b == ToBackup(home, mtime)(n);
      PyBasenameJoin(home, n);
    }
    forall n | n in names && IsZip(n) ensures ToBackup(home, mtime)(n) in bs {
      assert ToBackup(home, mtime)(n) in zs;
      assert ToBackup(home, mtime)(n) in multiset(zs);
    }
  }

  /** The first row of a backup: `<date> - <file name>`. */
  function Display(b: Backup, stamp: int -> string): string {
    stamp(b.mtime) + " - " + PyBasename(b.path)
  }

  function DisplayOf(stamp: int -> string): Backup -> string {
    b => Display(b, stamp)
  }

  /** The list rows: the display name of each backup followed by its path. */
  function Rows(files: seq<Backup>, stamp: int -> string): (r: seq<string>)
    ensures |r| == 2 * |files|
  {
    ShowRows(files, DisplayOf(stamp))
  }

  function ShowRows(files: seq<Backup>, show: Backup -> string): (r: seq<string>)
    ensures |r| == 2 * |files|
  {
    if |files| == 0 then []
    else [show(files[0]), files[0].path] + ShowRows(files[1..], show)
  }

  /** Row `2k` shows backup `k`, row `2k + 1` holds its path. */
  lemma RowsLayout(files: seq<Backup>, stamp: int -> string, k: nat)
    requires k < |files|
    ensures Rows(files, stamp)[2 * k] == Display(files[k], stamp)
    ensures Rows(files, stamp)[2 * k + 1] == files[k].path
  {
    ShowRowsLayout(files, DisplayOf(stamp), k);
  }

  lemma {:induction false} ShowRowsLayout(files: seq<Backup>, show: Backup -> string, k: nat)
    requires k < |files|
    ensures ShowRows(files, show)[2 * k] == show(files[k])
    ensures ShowRows(files, show)[2 * k + 1] == files[k].path
    decreases k
  {
    if k > 0 {
      ShowRowsLayout(files[1..], show, k - 1);
      assert files[1..][k - 1] == files[k];
    }
  }

  /** Tk's `listbox.get(i)`: the row, or the empty string past the end. */
  function ListGet(rows: seq<string>, i: nat): string {
    if i < |rows| then rows[i] else ""
  }

  /** `on_select`: whatever row is selected, the row after it is taken as the
      path of the backup. */
  function SelectBackup(rows: seq<string>, idx: nat): (r: string)
    ensures idx + 1 < |rows| ==> r == rows[idx + 1]
    ensures idx + 1 >= |rows| ==> r == ""
  {
    ListGet(rows, idx + 1)
  }

  /** Selecting the display row of a backup hands over its path. */
  lemma SelectDisplayRow(files: seq<Backup>, stamp: int -> string, k: nat)
    requires k < |files|
    ensures SelectBackup(Rows(files, stamp), 2 * k) == files[k].path
  {
    RowsLayout(files, stamp, k);
  }

  /** Selecting the path row of a backup hands over the next backup's display
      name, or, on the last row, the empty string: not a path of any listed
      backup. */
  lemma SelectPathRow(files: seq<Backup>, stamp: int -> string, k: nat)
    requires k < |files|
    ensures SelectBackup(Rows(files, stamp), 2 * k + 1)
            == if k + 1 < |files| then Display(files[k + 1], stamp) else ""
  {
    ShowRowsNext(files, DisplayOf(stamp), k);
  }

  lemma {:induction false} ShowRowsNext(files: seq<Backup>, show: Backup -> string, k: nat)
    requires k < |files|
    ensures ListGet(ShowRows(files, show), 2 * k + 2)
            == if k + 1 < |files| then show(files[k + 1]) else ""
  {
    var rows := ShowRows(files, show);
    if k + 1 < |files| {
      ShowRowsLayout(files, show, k + 1);
      assert rows[2 * (k + 1)] == show(files[k + 1]);
    } else {
      assert 2 * k + 2 == |rows|;
    }
  }

  /** The last row of a non-empty listing selects nothing usable. */
  lemma LastRowSelectsNoBackup(home: string, names: seq<string>, mtime: string -> int, stamp: int -> string)
    requires Backups(home, names, mtime) != []
    ensures var files := Backups(home, names, mtime);
            && SelectBackup(Rows(files, stamp), 2 * |files| - 1) == ""
            && forall b :: b in files ==> b.path != ""
  {
    var files := Backups(home, names, mtime);
    SelectPathRow(files, stamp, |files| - 1);
    forall b | b in files ensures b.path != "" {
      assert b in multiset(files);
      assert b in ZipFiles(home, names, mtime);
      var n :| n in names && IsZip(n) && b == ToBackup(home, mtime)(n);
      PyJoinNonEmpty(home, n);
    }
  }

  lemma PyJoinNonEmpty(a: string, b: string)
    requires b != ""
    ensures PyJoin(a, b) != ""
  {
  }

  /** The backup a row belongs to: each backup owns two consecutive rows. */
  function SelectBackupCorrected(files: seq<Backup>, idx: nat): (r: Option<string>)
    ensures r.Some? <==> idx < 2 * |files|
  {
    if idx < 2 * |files| then Some(files[idx / 2].path) else None
  }

  /** Either row of a backup selects that backup, and on display rows the
      correction agrees with the code as written. */
  lemma SelectCorrectedOwnsRow(files: seq<Backup>, stamp: int -> string, idx: nat)
    requires idx < 2 * |files|
    ensures var rows := Rows(files, stamp);
            var b := files[idx / 2];
            && SelectBackupCorrected(files, idx) == Some(b.path)
            && (rows[idx] == Display(b, stamp) || rows[idx] == b.path)
            && (idx % 2 == 0 ==> SelectBackup(rows, idx) == b.path)
  {
    var k := idx / 2;
    Halves(idx, |files|);
    RowsLayout(files, stamp, k);
    if idx % 2 == 0 {
      assert idx == 2 * k;
    } else {
      assert idx == 2 * k + 1;
    }
  }

  /** A row index below `2n` is `2k` or `2k + 1` for the backup `k < n`. */
  lemma Halves(idx: nat, n: nat)
    requires idx < 2 * n
    ensures idx / 2 < n
    ensures idx % 2 == 0 ==> idx == 2 * (idx / 2)
    ensures idx % 2 != 0 ==> idx == 2 * (idx / 2) + 1
  {
  }
}

=== FILE: gui_databases.dfy ===
/** The GUI's database list (`show_databases`) and the deletion of a listed
    database (`delete_selected_database`).

    The output of `psql -l` arrives as its lines, without line terminators
    (every test below strips or ignores them). Fewer than two lines make the
    two header `next()` calls raise, which the GUI reports as an error:
    `None`. */
module GuiDatabases {
  import opened Text
  import opened Shell
  import opened Seqs
  import opened Base
  import opened GuiNames
  import opened PsqlListing
  import OdooCommands

  /** `line.split("|")[0].strip()`. */
  function GuiName(line: string): (r: string)
    ensures '|' !in r
  {
    Column(line, IsPySpace)
  }

  /** The two tests of the loop: a non-blank line that is not a rule, whose
      name is non-empty and not a template database. */
  predicate GuiKeep(line: string) {
    PyStrip(line) != "" && !StartsWith(line, "-")
    && GuiName(line) != "" && !StartsWith(GuiName(line), "template")
  }

  /** `show_databases`: the names offered for deletion, in output order. */
  function ListDatabases(lines: seq<string>): (r: Option<seq<string>>)
    ensures r.None? <==> |lines| < 2
    ensures r.Some? ==> forall n :: n in r.value ==> n != "" && '|' !in n && !StartsWith(n, "template")
    ensures r.Some? ==> forall n :: n in r.value <==> exists k :: 2 <= k < |lines| && GuiKeep(lines[k]) && n == GuiName(lines[k])
  {
    if |lines| < 2 then None
    else
      var r := FilterMap(lines[2..], GuiKeep, GuiName);
      assert forall k :: 2 <= k < |lines| ==> lines[k] == lines[2..][k - 2];
      assert forall l :: l in lines[2..] ==> exists k :: 2 <= k < |lines| && l == lines[k];
      Some(r)
  }

  /** Once past the header, the listing is read line by line: more output
      appends its names. */
  lemma ListDatabasesAppend(lines: seq<string>, more: seq<string>)
    requires |lines| >= 2
    ensures ListDatabases(lines + more)
            == Some(ListDatabases(lines).value + FilterMap(more, GuiKeep, GuiName))
  {
    assert (lines + more)[2..] == lines[2..] + more;
    FilterMapAppend(lines[2..], more, GuiKeep, GuiName);
  }

  /** On a `psql -l` table without a footer the GUI lists exactly the
      non-template databases. */
  lemma ListDatabasesOfRows(title: string, header: string, rule: string, rows: seq<Row>)
    requires !StartsWith(title, "-") && !StartsWith(header, "-") && StartsWith(rule, "-")
    requires forall k :: 0 <= k < |rows| ==> PlainName(rows[k].name, IsPySpace)
    ensures ListDatabases([title, header, rule] + RowLines(rows)) == Some(Names(rows, NameRule))
  {
    var h := [title, header, rule];
    ListDatabasesAppend(h, RowLines(rows));
    HeaderOnly(title, header, rule);
    GuiRowsRead(rows);
    assert ListDatabases(h + RowLines(rows)) == Some([] + Names(rows, NameRule));
    assert [] + Names(rows, NameRule) == Names(rows, NameRule);
  }

  /** Title, header and rule alone list nothing. */
  lemma HeaderOnly(title: string, header: string, rule: string)
    requires StartsWith(rule, "-")
    ensures ListDatabases([title, header, rule]) == Some([])
  {
    assert [title, header, rule][2..] == [rule];
    FilterMapSingle(rule, GuiKeep, GuiName);
  }

  /** Printed rows are read as the intended reading reads them. */
  lemma {:induction false} GuiRowsRead(rows: seq<Row>)
    requires forall k :: 0 <= k < |rows| ==> PlainName(rows[k].name, IsPySpace)
    ensures FilterMap(RowLines(rows), GuiKeep, GuiName) == Names(rows, NameRule)
    decreases |rows|
  {
    if |rows| > 0 {
      var lines := RowLines(rows);
      assert lines[0] == RowLine(rows[0]);
      assert lines[1..] == RowLines(rows[1..]);
      RowLineColumn(rows[0], IsPySpace);
      RowLineNotBlank(rows[0]);
      GuiRowsRead(rows[1..]);
    }
  }

  /** A printed row starts with a blank and is not blank. */
  lemma RowLineNotBlank(r: Row)
    ensures !StartsWith(RowLine(r), "-")
    ensures PyStrip(RowLine(r)) != ""
  {
    var line := RowLine(r);
    assert line[0] == ' ';
    assert line[|r.name| + 2] == '|';
    TrimEmptyIff(line, IsPySpace);
  }

  /** The footer psql prints after the rows. */
  const Footer: string := "(1 row)"

  /** The footer passes every test of the loop and comes out as itself. */
  lemma FooterKept()
    ensures '|' !in Footer
    ensures GuiKeep(Footer) && GuiName(Footer) == Footer
  {
    assert forall k :: 0 <= k < |Footer| ==> Footer[k] != '|';
    BeforeOfPrefix(Footer, "", '|');
    assert Footer + "" == Footer;
    TrimOfPlain(Footer, IsPySpace);
  }

  /** The footer of the table is offered as a database to delete, next to
      the real ones. */
  lemma FooterOfferedAsDatabase(title: string, header: string, rule: string, rows: seq<Row>)
    requires !StartsWith(title, "-") && !StartsWith(header, "-") && StartsWith(rule, "-")
    requires forall k :: 0 <= k < |rows| ==> PlainName(rows[k].name, IsPySpace)
    ensures ListDatabases([title, header, rule] + RowLines(rows) + [Footer])
            == Some(Names(rows, NameRule) + [Footer])
  {
    var table := [title, header, rule] + RowLines(rows);
    ListDatabasesOfRows(title, header, rule, rows);
    ListDatabasesAppend(table, [Footer]);
    FooterKept();
    FilterMapSingle(Footer, GuiKeep, GuiName);
  }

  /** `delete_selected_database`: stop the container named like the
      database, then drop the database. */
  function DeleteCommands(db: string): (r: seq<string>)
    ensures |r| == 2
  {
    [InVm(Docker("stop", db)), InVm(DropDb(db))]
  }

  /** The GUI and the extension delete a database with the same two Docker
      commands, in the same order, each ending in the database name; only
      the quoting around `vagrant ssh -c` differs. */
  lemma DeleteCommandsAgree(db: string)
    ensures |DeleteCommands(db)| == |OdooCommands.DeleteDatabaseCommands(db)| == 2
    ensures forall i :: 0 <= i < 2 ==>
              exists c :: && DeleteCommands(db)[i] == InVm(c)
                          && OdooCommands.DeleteDatabaseCommands(db)[i] == VagrantSsh(c)
                          && EndsWith(c, db)
  {
    Affixes("docker " + "stop" + " ", db);
    Affixes("docker exec ldb dropdb -U odoo --if-exists ", db);
    assert DeleteCommands(db)[0] == InVm(Docker("stop", db));
    assert DeleteCommands(db)[1] == InVm(DropDb(db));
  }
}

=== FILE: gui_names.dfy ===
/** The names the Tk GUI derives from a project folder: the container and
    database name `<project>-local-<USERDEV>`, the three tasks of the
    generated `.vscode/tasks.json`, and the filestore directory inside the VM.
    The `USERDEV` environment variable is a parameter: `None` when unset. */
module GuiNames {
  import opened Text
  import opened Shell
  import opened Base
  import opened Paths

  const DefaultUserDev: string := "controlcdms-gh"

  /** `os.getenv("USERDEV", "controlcdms-gh")`. */
  function UserDev(env: Option<string>): string {
    env.GetOr(DefaultUserDev)
  }

  /** `f"{project}-local-{user_dev}"`. */
  function ContainerName(project: string, env: Option<string>): (r: string)
    ensures StartsWith(r, project) && EndsWith(r, UserDev(env))
    ensures |r| == |project| + 7 + |UserDev(env)|
  {
    var u := UserDev(env);
    var r := project + "-local-" + u;
    assert r[..|project|] == project;
    assert r[|r| - |u|..] == u;
    r
  }

  /** For one developer, different projects get different containers. */
  lemma ContainerNameInjective(p1: string, p2: string, env: Option<string>)
    requires ContainerName(p1, env) == ContainerName(p2, env)
    ensures p1 == p2
  {
    var n := ContainerName(p1, env);
    assert |p1| == |p2|;
    assert p1 == n[..|p1|] && p2 == n[..|p2|];
  }

  /** Across developers the convention is ambiguous: a project whose name
      itself contains `-local-` collides with another project and developer. */
  lemma ContainerNameAmbiguous(a: string, b: string, c: string)
    ensures ContainerName(a + "-local-" + b, Some(c)) == ContainerName(a, Some(b + "-local-" + c))
  {
    assert (a + "-local-" + b) + "-local-" + c == a + "-local-" + (b + "-local-" + c);
  }

  /** The `group` of a task: the default test task, or a plain test task. */
  datatype Group = DefaultTest | Test

  datatype Task = Task(title: string, command: string, group: Group)

  /** Act on the container, then follow its logs. */
  function FollowCommand(verb: string, container: string): string {
    InVm(Docker(verb, container) + " && " + Docker("logs -f", container))
  }

  /** Stop the container and say so. */
  function StopCommand(container: string): string {
    InVm(Docker("stop", container) + " && echo \"Contenedor detenido\"")
  }

  /** The three tasks, in file order: start and follow the logs, restart and
      follow the logs, stop. */
  function Tasks(container: string): (r: seq<Task>)
    ensures |r| == 3
    ensures forall i :: 0 <= i < |r| ==> (r[i].group == DefaultTest <==> i == 0)
  {
    [Task("🚀 Iniciar Contenedor Odoo", FollowCommand("start", container), DefaultTest),
     Task("🔁 Reiniciar Contenedor Odoo", FollowCommand("restart", container), Test),
     Task("⏹️ Detener Contenedor Odoo", StopCommand(container), Test)]
  }

  /** The docker verb each task runs. */
  const TaskVerbs: seq<string> := ["start", "restart", "stop"]

  /** Every task acts on the container, with its own verb, and the two
      long-running ones follow that same container's logs. */
  lemma TasksNameContainer(container: string)
    ensures forall i :: 0 <= i < 3 ==>
              Contains(Tasks(container)[i].command, Docker(TaskVerbs[i], container))
    ensures forall i :: 0 <= i < 2 ==>
              Contains(Tasks(container)[i].command, Docker("logs -f", container))
  {
    FollowContains("start", container);
    FollowContains("restart", container);
    InVmContains(Docker("stop", container), " && echo \"Contenedor detenido\"");
    var t := Tasks(container);
    assert t[0].command == FollowCommand(TaskVerbs[0], container);
    assert t[1].command == FollowCommand(TaskVerbs[1], container);
    assert t[2].command == InVm(Docker(TaskVerbs[2], container) + " && echo \"Contenedor detenido\"");
  }

  /** The start and restart commands name the container twice. */
  lemma FollowContains(verb: string, container: string)
    ensures Contains(FollowCommand(verb, container), Docker(verb, container))
    ensures Contains(FollowCommand(verb, container), Docker("logs -f", container))
  {
    var d := Docker(verb, container);
    var logs := Docker("logs -f", container);
    var x := d + " && " + logs;
    ContainsMiddle("", d, " && " + logs);
    assert "" + d + (" && " + logs) == x;
    ContainsMiddle(d + " && ", logs, "");
    assert d + " && " + logs + "" == x;
    InVmKeeps(x, d);
    InVmKeeps(x, logs);
  }

  /** A command run in the VM contains every command it begins with. */
  lemma InVmContains(x: string, y: string)
    ensures Contains(InVm(x + y), x)
  {
    ContainsMiddle("", x, y);
    assert "" + x + y == x + y;
    InVmKeeps(x + y, x);
  }

  /** Whatever the command contains, the VM command line contains too. */
  lemma InVmKeeps(x: string, t: string)
    requires Contains(x, t)
    ensures Contains(InVm(x), t)
  {
    var r := InVm(x);
    ContainsInSlice(r, 16, |r| - 1, t);
  }

  /** `<repo>/.vscode/tasks.json`. */
  function TasksFile(repoPath: string): string {
    PyJoin(PyJoin(repoPath, ".vscode"), "tasks.json")
  }

  /** `create_vscode_config(repo_path)`: where the tasks go and what they
      are; the container is named after the repository folder. */
  function VsCodeConfig(repoPath: string, env: Option<string>): (r: (string, seq<Task>))
    ensures PyBasename(r.0) == "tasks.json"
  {
    PyBasenameJoin(PyJoin(repoPath, ".vscode"), "tasks.json");
    (TasksFile(repoPath), Tasks(ContainerName(PyBasename(repoPath), env)))
  }

  /** The restore names its database after the project picked from `dev`;
      the task file names its container after the basename of
      `<dev>/<project>`. Both are the same name. */
  lemma TasksAndRestoreAgree(devPath: string, project: string, env: Option<string>)
    requires Slash !in project
    ensures VsCodeConfig(PyJoin(devPath, project), env).1 == Tasks(ContainerName(project, env))
  {
    PyBasenameJoin(devPath, project);
  }

  /** `/opt/odoo/staging/<db>/filestore/<db>`: the VM directory the restored
      filestore is moved to. */
  function FilestorePath(db: string): (r: string)
    ensures StartsWith(r, "/opt/odoo/staging/" + db + "/filestore/")
  {
    var p := "/opt/odoo/staging/" + db + "/filestore/";
    assert (p + db)[..|p|] == p;
    p + db
  }

  /** For a database name without a slash, the filestore directory is named
      after the database. */
  lemma FilestorePathBasename(db: string)
    requires Slash !in db
    ensures PyBasename(FilestorePath(db)) == db
  {
    var p := "/opt/odoo/staging/" + db + "/filestore/";
    assert FilestorePath(db) == PyJoin(p[..|p| - 1], db) by {
      assert p[..|p| - 1] + "/" == p;
      assert EndsWith(p[..|p| - 1], "/") == false by {
        assert p[..|p| - 1][|p| - 2] == 'e';
      }
      if |db| > 0 { assert db[0] != '/'; }
    }
    PyBasenameJoin(p[..|p| - 1], db);
  }
}

=== FILE: gui_ports.dfy ===
/** The GUI's container and port listing: each line of
    `docker ps --format '{{.Names}}|{{.Image}}|{{.Ports}}'` becomes a
    container with the URLs of its published ports, found with the pattern
    `0.0.0.0:(\d+)` and served at the VM's fixed address.

    The output arrives as its lines, without terminators. A non-blank line
    with fewer than two `|` fields makes `parts[1]` raise inside the listing
    thread; nothing catches it, so the listing stops there and the
    completion message never appears. */
module GuiPorts {
  import opened Text
  import opened Base

  /** `\d`, for the ASCII digits. */
  predicate IsDigit(c: char) {
    '0' <= c <= '9'
  }

  predicate AllDigits(p: string) {
    forall k :: 0 <= k < |p| ==> IsDigit(p[k])
  }

  /** A port number as the pattern captures it: one or more digits. */
  predicate IsPort(p: string) {
    p != "" && AllDigits(p)
  }

  /** The pattern `0.0.0.0:\d` matches at `i`: each unescaped `.` matches
      any character except a line break. */
  predicate MatchAt(s: string, i: nat) {
    i + 9 <= |s|
    && s[i] == '0' && s[i + 1] != '\n' && s[i + 2] == '0' && s[i + 3] != '\n'
    && s[i + 4] == '0' && s[i + 5] != '\n' && s[i + 6] == '0' && s[i + 7] == ':'
    && IsDigit(s[i + 8])
  }

  /** The end of the run of digits starting at `j`: `\d+` is greedy. */
  function DigitsEnd(s: string, j: nat): (e: nat)
    requires j <= |s|
    ensures j <= e <= |s|
    ensures forall k :: j <= k < e ==> IsDigit(s[k])
    ensures e < |s| ==> !IsDigit(s[e])
    decreases |s| - j
  {
    if j == |s| || !IsDigit(s[j]) then j else DigitsEnd(s, j + 1)
  }

  /** `re.finditer`'s group 1 from position `i` on: scan left to right, and
      after a match resume at its end, so matches never overlap. */
  function FindPorts(s: string, i: nat): (r: seq<string>)
    requires i <= |s|
    ensures forall k :: 0 <= k < |r| ==> IsPort(r[k])
    decreases |s| - i
  {
    if i == |s| then []
    else if MatchAt(s, i) then
      var e := DigitsEnd(s, i + 8);
      [s[i + 8..e]] + FindPorts(s, e)
    else FindPorts(s, i + 1)
  }

  /** The published host ports named in a `{{.Ports}}` field. */
  function Ports(s: string): seq<string> {
    FindPorts(s, 0)
  }

  /** One published port as Docker prints it. */
  function Mapping(host: string, container: string): string {
    "0.0.0.0:" + host + "->" + container + "/tcp"
  }

  /** A `{{.Ports}}` field listing the given (host, container) mappings. */
  function RenderPorts(ms: seq<(string, string)>): string {
    if |ms| == 0 then ""
    else if |ms| == 1 then Mapping(ms[0].0, ms[0].1)
    else Mapping(ms[0].0, ms[0].1) + ", " + RenderPorts(ms[1..])
  }

  function Hosts(ms: seq<(string, string)>): (r: seq<string>)
    ensures |r| == |ms|
  {
    if |ms| == 0 then [] else [ms[0].0] + Hosts(ms[1..])
  }

  predicate PortPairs(ms: seq<(string, string)>) {
    forall k :: 0 <= k < |ms| ==> IsPort(ms[k].0) && IsPort(ms[k].1)
  }

  /** Reading the ports back from what Docker prints gives the host ports,
      in order. */
  lemma {:induction false} PortsOfRender(ms: seq<(string, string)>)
    requires PortPairs(ms)
    ensures Ports(RenderPorts(ms)) == Hosts(ms)
    decreases |ms|
  {
    if |ms| == 1 {
      PortsOfMapping(ms[0].0, ms[0].1, "");
      assert Mapping(ms[0].0, ms[0].1) + "" == RenderPorts(ms);
    } else if |ms| > 1 {
      PortPairsTail(ms);
      PortsOfRender(ms[1..]);
      PortsOfRenderCons(ms);
    }
  }

  lemma PortPairsTail(ms: seq<(string, string)>)
    requires |ms| > 0 && PortPairs(ms)
    ensures IsPort(ms[0].0) && IsPort(ms[0].1) && PortPairs(ms[1..])
  {
    forall k | 0 <= k < |ms| - 1 ensures IsPort(ms[1..][k].0) && IsPort(ms[1..][k].1) {
      assert ms[1..][k] == ms[k + 1];
    }
  }

  /** The inductive step: the first mapping gives its host port, the rest
      after the `, ` give theirs. */
  lemma PortsOfRenderCons(ms: seq<(string, string)>)
    requires |ms| > 1 && IsPort(ms[0].0) && IsPort(ms[0].1)
    requires Ports(RenderPorts(ms[1..])) == Hosts(ms[1..])
    ensures Ports(RenderPorts(ms)) == Hosts(ms)
  {
    var h := ms[0].0;
    var rest := RenderPorts(ms[1..]);
    var tail := ", " + rest;
    PortsOfMapping(h, ms[0].1, tail);
    assert RenderPorts(ms) == Mapping(h, ms[0].1) + tail;
    PortsAfterComma(rest);
    assert Hosts(ms) == [h] + Hosts(ms[1..]);
  }

  /** A leading `, ` holds no match. */
  lemma PortsAfterComma(t: string)
    ensures Ports(", " + t) == Ports(t)
  {
    var s := ", " + t;
    assert s[0] == ',' && s[1] == ' ';
    assert FindPorts(s, 0) == FindPorts(s, 1) == FindPorts(s, 2);
    assert s[2..] == t;
    PortsShift(", ", t, 0);
  }

  /** A mapping contributes its host port, then scanning resumes after it. */
  lemma PortsOfMapping(h: string, c: string, rest: string)
    requires IsPort(h) && IsPort(c)
    ensures Ports(Mapping(h, c) + rest) == [h] + Ports(rest)
  {
    var m := Mapping(h, c);
    var s := m + rest;
    MappingShape(h, c, rest);
    DigitsEndAt(s, 8, 8 + |h|);
    assert s[8..8 + |h|] == h;
    assert FindPorts(s, 0) == [h] + FindPorts(s, 8 + |h|);
    NoMatchIn(s, 8 + |h|, |m|);
    PortsShift(m, rest, 0);
  }

  /** The characters of `Mapping(h, c) + rest` the proof looks at. */
  lemma MappingShape(h: string, c: string, rest: string)
    requires IsPort(h) && IsPort(c)
    ensures var s := Mapping(h, c) + rest;
            var m := |Mapping(h, c)|;
            && m == 14 + |h| + |c| && |s| == m + |rest|
            && MatchAt(s, 0)
            && (forall k :: 8 <= k < 8 + |h| ==> IsDigit(s[k]))
            && s[8 + |h|] == '-'
            && (forall k :: 8 + |h| <= k < m ==> s[k] != ':')
            && s[m - 4] == '/' && s[m - 3] == 't' && s[m - 2] == 'c' && s[m - 1] == 'p'
  {
    var s := Mapping(h, c) + rest;
    var pre := "0.0.0.0:";
    var mid := "->" + c + "/tcp";
    assert Mapping(h, c) == pre + h + mid;
    assert s == pre + h + mid + rest;
    assert forall k :: 8 <= k < 8 + |h| ==> s[k] == h[k - 8];
    assert forall k :: 8 + |h| <= k < 8 + |h| + |mid| ==> s[k] == mid[k - 8 - |h|];
    assert forall k :: 0 <= k < |mid| ==> mid[k] != ':' by {
      assert forall k :: 2 <= k < 2 + |c| ==> mid[k] == c[k - 2];
    }
  }

  /** The run of digits ends at the first non-digit. */
  lemma {:induction false} DigitsEndAt(s: string, j: nat, e: nat)
    requires j <= e < |s|
    requires forall k :: j <= k < e ==> IsDigit(s[k])
    requires !IsDigit(s[e])
    ensures DigitsEnd(s, j) == e
    decreases e - j
  {
    if j < e {
      DigitsEndAt(s, j + 1, e);
    }
  }

  /** Inside a mapping, after the host port, no match can start: a `:` is
      needed seven characters on, and the last characters are `/tcp`. */
  lemma {:induction false} NoMatchIn(s: string, from: nat, to: nat)
    requires 4 <= to <= |s| && from <= to
    requires forall k :: from <= k < to ==> s[k] != ':'
    requires s[to - 4] == '/' && s[to - 3] == 't' && s[to - 2] == 'c' && s[to - 1] == 'p'
    ensures FindPorts(s, from) == FindPorts(s, to)
    decreases (to as int) - (from as int)
  {
    if from < to {
      if from + 7 < to {
        assert s[from + 7] != ':';
      } else if from < to - 4 {
        assert s[from + 4] != '0';
      } else {
        assert s[from] != '0';
      }
      assert !MatchAt(s, from);
      NoMatchIn(s, from + 1, to);
    }
  }

  /** Scanning `a + t` from inside `t` is scanning `t`. */
  lemma {:induction false} PortsShift(a: string, t: string, j: nat)
    requires j <= |t|
    ensures FindPorts(a + t, |a| + j) == FindPorts(t, j)
    decreases |t| - j
  {
    if j < |t| {
      MatchShift(a, t, j);
      if MatchAt(t, j) {
        DigitsShift(a, t, j + 8);
        var e := DigitsEnd(t, j + 8);
        SliceShift(a, t, j + 8, e);
        PortsShift(a, t, e);
      } else {
        PortsShift(a, t, j + 1);
      }
    }
  }

  lemma MatchShift(a: string, t: string, j: nat)
    requires j < |t|
    ensures MatchAt(a + t, |a| + j) == MatchAt(t, j)
  {
    var s := a + t;
    assert forall k :: |a| + j <= k < |s| ==> s[k] == t[k - |a|];
  }

  lemma SliceShift(a: string, t: string, i: nat, e: nat)
    requires i <= e <= |t|
    ensures (a + t)[|a| + i..|a| + e] == t[i..e]
  {
  }

  lemma {:induction false} DigitsShift(a: string, t: string, j: nat)
    requires j <= |t|
    ensures DigitsEnd(a + t, |a| + j) == |a| + DigitsEnd(t, j)
    decreases |t| - j
  {
    if j < |t| {
      assert (a + t)[|a| + j] == t[j];
      DigitsShift(a, t, j + 1);
    }
  }

  /** The VM's private-network address. */
  const VmIp: string := "192.168.56.10"

  function Url(port: string): string {
    "http://" + VmIp + ":" + port
  }

  function Urls(ports: seq<string>): (r: seq<string>)
    ensures |r| == |ports|
    ensures forall k :: 0 <= k < |r| ==> r[k] == Url(ports[k])
  {
    if |ports| == 0 then [] else [Url(ports[0])] + Urls(ports[1..])
  }

  /** What the listing shows for one container. */
  datatype Container = Container(name: string, image: string, urls: seq<string>)

  /** One non-blank line: `None` when it lacks the image field. The ports
      field is the third one, or empty. */
  function Describe(line: string): (r: Option<Container>)
    ensures r.None? <==> |Split(PyStrip(line), '|')| < 2
  {
    var parts := Split(PyStrip(line), '|');
    if |parts| < 2 then None
    else
      var ports := if |parts| > 2 then parts[2] else "";
      Some(Container(parts[0], parts[1], Urls(Ports(ports))))
  }

  predicate Blank(line: string) {
    PyStrip(line) == ""
  }

  /** What one line does to the listing. */
  datatype Effect = Skip | Fatal | Show(c: Container)

  function LineEffect(line: string): (r: Effect)
    ensures r.Skip? <==> Blank(line)
    ensures r.Fatal? <==> !Blank(line) && Describe(line).None?
  {
    if Blank(line) then Skip
    else match Describe(line)
      case None => Fatal
      case Some(c) => Show(c)
  }

  /** The whole listing: the containers shown, and whether the completion
      message is reached. */
  function ListPorts(lines: seq<string>): (r: (seq<Container>, bool))
    ensures |r.0| <= |lines|
  {
    if |lines| == 0 then ([], true)
    else match LineEffect(lines[0])
      case Skip => ListPorts(lines[1..])
      case Fatal => ([], false)
      case Show(c) =>
        var rest := ListPorts(lines[1..]);
        ([c] + rest.0, rest.1)
  }

  /** The completion message is reached exactly when every non-blank line
      has an image field. */
  lemma {:induction false} ListPortsCompletes(lines: seq<string>)
    ensures ListPorts(lines).1 <==> forall k :: 0 <= k < |lines| ==> Blank(lines[k]) || Describe(lines[k]).Some?
    decreases |lines|
  {
    if |lines| > 0 {
      ListPortsCompletes(lines[1..]);
      assert forall k :: 1 <= k < |lines| ==> lines[k] == lines[1..][k - 1];
    }
  }

  /** The listing is line by line: after a complete prefix the rest is
      listed on its own, and a fatal line hides everything after it. */
  lemma {:induction false} ListPortsAppend(a: seq<string>, b: seq<string>)
    ensures ListPorts(a).1 ==> ListPorts(a + b) == (ListPorts(a).0 + ListPorts(b).0, ListPorts(b).1)
    ensures !ListPorts(a).1 ==> ListPorts(a + b) == ListPorts(a)
    decreases |a|
  {
    if |a| == 0 {
      assert a + b == b;
      assert ListPorts(a) == ([], true);
      assert [] + ListPorts(b).0 == ListPorts(b).0;
    } else {
      var ab := a + b;
      assert ab[0] == a[0];
      assert ab[1..] == a[1..] + b;
      ListPortsAppend(a[1..], b);
      match LineEffect(a[0])
      case Skip =>
      case Fatal =>
      case Show(c) =>
        assert [c] + ListPorts(a[1..]).0 + ListPorts(b).0 == [c] + (ListPorts(a[1..]).0 + ListPorts(b).0);
    }
  }

  /** The line Docker prints for a container. */
  function PsLine(name: string, image: string, ms: seq<(string, string)>): string {
    Join([name, image, RenderPorts(ms)], '|')
  }

  /** A container line as Docker prints it is shown with its name, its image
      and one URL per published host port, in order. */
  lemma DescribePsLine(name: string, image: string, ms: seq<(string, string)>)
    requires '|' !in name && '|' !in image && PortPairs(ms)
    requires name == "" || !IsPySpace(name[0])
    ensures Describe(PsLine(name, image, ms)) == Some(Container(name, image, Urls(Hosts(ms))))
  {
    var ports := RenderPorts(ms);
    var line := PsLine(name, image, ms);
    RenderNoBar(ms);
    StripPsLine(name, image, ms);
    SplitJoin([name, image, ports], '|');
    PortsOfRender(ms);
  }

  /** A rendered ports field has no `|` and ends with `p` when non-empty. */
  lemma {:induction false} RenderNoBar(ms: seq<(string, string)>)
    requires PortPairs(ms)
    ensures '|' !in RenderPorts(ms)
    ensures |ms| > 0 ==> |RenderPorts(ms)| > 0 && RenderPorts(ms)[|RenderPorts(ms)| - 1] == 'p'
    decreases |ms|
  {
    if |ms| > 0 {
      PortPairsTail(ms);
      var m := Mapping(ms[0].0, ms[0].1);
      MappingNoBar(ms[0].0, ms[0].1);
      if |ms| > 1 {
        RenderNoBar(ms[1..]);
        var r := RenderPorts(ms[1..]);
        assert RenderPorts(ms) == m + ", " + r;
        assert RenderPorts(ms)[|RenderPorts(ms)| - 1] == r[|r| - 1];
      }
    }
  }

  lemma MappingNoBar(h: string, c: string)
    requires IsPort(h) && IsPort(c)
    ensures var m := Mapping(h, c);
            '|' !in m && |m| > 0 && m[|m| - 1] == 'p'
  {
    var m := Mapping(h, c);
    assert forall x :: x in m ==> x in "0.:->/tcp" || x in h || x in c;
  }

  /** Stripping leaves a Docker line as it is. */
  lemma StripPsLine(name: string, image: string, ms: seq<(string, string)>)
    requires PortPairs(ms)
    requires name == "" || !IsPySpace(name[0])
    ensures PyStrip(PsLine(name, image, ms)) == PsLine(name, image, ms)
  {
    var ports := RenderPorts(ms);
    var line := PsLine(name, image, ms);
    RenderNoBar(ms);
    assert [name, image, ports][1..] == [image, ports];
    assert [image, ports][1..] == [ports];
    assert Join([image, ports], '|') == image + ['|'] + ports;
    assert line == name + ['|'] + (image + ['|'] + ports);
    assert line[0] == if name == "" then '|' else name[0];
    assert line[|line| - 1] == if ms == [] then '|' else ports[|ports| - 1];
    TrimOfPlain(line, IsPySpace);
  }

  /** A container Docker prints is listed with one link per published host
      port, and the listing goes on. */
  lemma ListPortsOfPsLine(name: string, image: string, ms: seq<(string, string)>)
    requires '|' !in name && '|' !in image && PortPairs(ms)
    requires name == "" || !IsPySpace(name[0])
    ensures ListPorts([PsLine(name, image, ms)]) == ([Container(name, image, Urls(Hosts(ms)))], true)
  {
    var line := PsLine(name, image, ms);
    DescribePsLine(name, image, ms);
    StripPsLine(name, image, ms);
    var ports := RenderPorts(ms);
    assert [name, image, ports][1..] == [image, ports];
    assert [image, ports][1..] == [ports];
    assert Join([image, ports], '|') == image + ['|'] + ports;
    assert line == name + ['|'] + (image + ['|'] + ports);
    assert !Blank(line);
    assert LineEffect(line) == Show(Container(name, image, Urls(Hosts(ms))));
    assert [line][1..] == [];
    assert ListPorts([line][1..]) == ([], true);
    var c := Container(name, image, Urls(Hosts(ms)));
    assert ListPorts([line]) == ([c] + [], true);
    assert [c] + [] == [c];
  }
}

=== FILE: gui_restore.dfy ===
/** The GUI's database restore (`restore_database`): pick a project folder of
    `dev`, pick a backup, then `process_backup_file` copies the ZIP into
    `dev/temp`, extracts it there, checks for `dump.sql`, and issues the shell
    commands that recreate the database `<project>-local-<USERDEV>` and move
    the filestore into the VM.

    The state of `dev/temp` is reduced to whether it holds a `dump.sql` and a
    `filestore` folder, and a ZIP to whether it contains them. The shell
    commands never raise (their exit status is not looked at); the copy, the
    extraction and the missing dump do, ending the restore with an error. */
module GuiRestore {
  import opened Text
  import opened Shell
  import opened Base
  import opened GuiNames
  import opened GuiDatabases
  import opened Paths

  /** `dev/temp` between restores: nothing ever deletes it (the clean-up is
      commented out), and extraction only adds or overwrites files. */
  datatype TempDir = TempDir(dump: bool, filestore: bool)

  /** The relevant entries of a backup ZIP. */
  datatype Archive = Archive(dump: bool, filestore: bool)

  /** The shell commands of a restore, each naming the database it acts on. */
  datatype Step =
    | Stop(db: string)
    | Drop(db: string)
    | Create(db: string)
    | CopyDump(db: string)
    | LoadDump(db: string)
    | RemoveFilestore(db: string)
    | MoveFilestore(db: string)

  /** The command line run for a step. `CopyDump` copies the one shared dump
      path into the database server container whatever the database. */
  function Command(s: Step): string {
    match s
    case Stop(db) => InVm(Docker("stop", db))
    case Drop(db) => InVm(DropDb(db))
    case Create(db) => InVm("docker exec ldb createdb -U odoo " + db)
    case CopyDump(_) => InVm("docker cp /home/vagrant/dev/temp/dump.sql ldb:/tmp/dump.sql")
    case LoadDump(db) => InVm("docker exec ldb psql -U odoo -f /tmp/dump.sql " + db)
    case RemoveFilestore(db) => InVm("sudo rm -rf " + FilestorePath(db))
    case MoveFilestore(db) => InVm("sudo mv /home/vagrant/dev/temp/filestore " + FilestorePath(db))
  }

  /** The position of each kind of step in the script. */
  function Rank(s: Step): nat {
    match s
    case Stop(_) => 0
    case Drop(_) => 1
    case Create(_) => 2
    case CopyDump(_) => 3
    case LoadDump(_) => 4
    case RemoveFilestore(_) => 5
    case MoveFilestore(_) => 6
  }

  datatype Failure = CopyFailed | ExtractFailed | NoDump

  datatype Outcome =
    | Failed(why: Failure)
    | Restored(db: string, steps: seq<Step>)

  /** What `dev/temp` holds after extracting `a` into `t`. */
  function Extract(t: TempDir, a: Archive): (r: TempDir)
    ensures r.dump <==> t.dump || a.dump
    ensures r.filestore <==> t.filestore || a.filestore
  {
    TempDir(t.dump || a.dump, t.filestore || a.filestore)
  }

  /** The commands for database `db`, given whether `dev/temp` holds a
      filestore. */
  function Script(db: string, filestore: bool): (r: seq<Step>)
    ensures |r| == if filestore then 7 else 5
    ensures forall k :: 0 <= k < |r| ==> Rank(r[k]) == k
  {
    [Stop(db), Drop(db), Create(db), CopyDump(db), LoadDump(db)]
    + (if filestore then [RemoveFilestore(db), MoveFilestore(db)] else [])
  }

  /** `process_backup_file`, as written: `readable` says whether the copy of
      the chosen file succeeds, `archive` is `None` when the copy is not a
      ZIP, `moved` whether the VM's `mv` of the filestore succeeds. The
      result is the outcome and the new state of `dev/temp`. */
  function Restore(t: TempDir, readable: bool, archive: Option<Archive>, moved: bool,
                   project: string, env: Option<string>): (r: (Outcome, TempDir))
    ensures r.0.Restored? ==> r.0.db == ContainerName(project, env)
    ensures r.0.Failed? && r.0.why != NoDump ==> r.1 == t
  {
    if !readable then (Failed(CopyFailed), t)
    else if archive.None? then (Failed(ExtractFailed), t)
    else
      var t1 := Extract(t, archive.value);
      if !t1.dump then (Failed(NoDump), t1)
      else
        var db := ContainerName(project, env);
        (Restored(db, Script(db, t1.filestore)),
         TempDir(true, t1.filestore && !moved))
  }

  /** The script is in a fixed order, every step acts on the one database,
      and the filestore is replaced exactly when one was extracted. */
  lemma ScriptShape(db: string, filestore: bool)
    ensures var s := Script(db, filestore);
            && (forall i, j :: 0 <= i < j < |s| ==> Rank(s[i]) < Rank(s[j]))
            && (forall i :: 0 <= i < |s| ==> s[i].db == db)
            && (|s| == 7 <==> filestore) && (|s| == 5 <==> !filestore)
            && (forall i :: 0 <= i < |s| ==> Rank(s[i]) == i)
  {
  }

  /** A restore issues commands only once a dump is present, and then always
      stops and drops before it creates and loads. */
  lemma RestoreNeedsDump(t: TempDir, readable: bool, archive: Option<Archive>, moved: bool,
                         project: string, env: Option<string>)
    ensures var r := Restore(t, readable, archive, moved, project, env).0;
            r.Restored? <==> readable && archive.Some? && (t.dump || archive.value.dump)
    ensures var r := Restore(t, readable, archive, moved, project, env).0;
            r.Restored? ==> r.steps[..3] == [Stop(r.db), Drop(r.db), Create(r.db)]
  {
  }

  /** As written, the dump check looks at `dev/temp`, not at the ZIP: after
      one restore has left a `dump.sql` there, a backup without a dump is
      restored from the stale dump instead of being rejected. */
  lemma StaleDumpRestored(first: Archive, second: Archive, project: string, env: Option<string>)
    requires first.dump && !second.dump
    ensures var r1 := Restore(TempDir(false, false), true, Some(first), true, project, env);
            var r2 := Restore(r1.1, true, Some(second), true, project, env);
            r1.0.Restored? && r2.0.Restored?
  {
  }

  /** The check the error message describes: the ZIP itself must contain the
      dump. */
  function RestoreChecked(t: TempDir, readable: bool, archive: Option<Archive>, moved: bool,
                          project: string, env: Option<string>): (r: (Outcome, TempDir))
    ensures r.0.Restored? ==> archive.Some? && archive.value.dump
    ensures r.0.Restored? ==> r.0.db == ContainerName(project, env)
  {
    if readable && archive.Some? && !archive.value.dump then (Failed(NoDump), Extract(t, archive.value))
    else Restore(t, readable, archive, moved, project, env)
  }

  /** The checked restore rejects exactly the ZIPs without a dump and
      otherwise behaves as written, whatever earlier restores left behind. */
  lemma RestoreCheckedSound(t: TempDir, readable: bool, archive: Option<Archive>, moved: bool,
                            project: string, env: Option<string>)
    ensures RestoreChecked(t, readable, archive, moved, project, env).0.Restored?
            <==> readable && archive.Some? && archive.value.dump
    ensures readable && archive.Some? && archive.value.dump
            ==> RestoreChecked(t, readable, archive, moved, project, env)
                == Restore(t, readable, archive, moved, project, env)
  {
  }

  /** Deleting a database from the GUI's list runs the first two commands of
      a restore of that database. */
  lemma DeleteIsRestorePrefix(db: string)
    ensures DeleteCommands(db) == [Command(Stop(db)), Command(Drop(db))]
  {
  }

  /** The restored database, the container the tasks control and the
      filestore directory share one name. */
  lemma RestoreMatchesTasks(t: TempDir, archive: Archive, moved: bool, devPath: string,
                            project: string, env: Option<string>)
    requires Slash !in project
    requires (t.dump || archive.dump) && Slash !in ContainerName(project, env)
    ensures var r := Restore(t, true, Some(archive), moved, project, env).0;
            && r.Restored?
            && VsCodeConfig(PyJoin(devPath, project), env).1 == Tasks(r.db)
            && PyBasename(FilestorePath(r.db)) == r.db
  {
    TasksAndRestoreAgree(devPath, project, env);
    FilestorePathBasename(ContainerName(project, env));
  }

  /** `select_project`: the directories of `dev`; a missing `dev` is
      created, so it lists nothing. */
  function Projects(dev: Option<seq<DirEntry>>): (r: seq<string>)
    ensures dev.None? ==> r == []
    ensures dev.Some? ==> forall n :: n in r <==> exists e :: e in dev.value && e.isDir && e.name == n
  {
    match dev
    case None => []
    case Some(entries) => DirNames(entries)
  }
}

=== FILE: paths.dfy ===
/** The path operations the system uses: Node's posix `path.basename`,
    `path.dirname` and `path.join`, and Python's `os.path.basename` and
    `os.path.join`. Paths are plain strings with `/` as separator. */
module Paths {
  import opened Text

  const Slash: char := '/'

  /** The part of `s` after its last `c` (all of `s` when there is none). */
  function AfterLast(s: string, c: char): (r: string)
    ensures |r| <= |s| && r == s[|s| - |r|..]
    ensures c !in r
    ensures |r| < |s| ==> s[|s| - |r| - 1] == c
    decreases |s|
  {
    if |s| == 0 then []
    else if s[|s| - 1] == c then []
    else
      var r := AfterLast(s[..|s| - 1], c);
      assert s[..|s| - 1][|s| - 1 - |r|..] + [s[|s| - 1]] == s[|s| - 1 - |r|..];
      r + [s[|s| - 1]]
  }

  /** Python's `os.path.basename`: everything after the last slash. */
  function PyBasename(p: string): (r: string)
    ensures Slash !in r && EndsWith(p, r)
  {
    AfterLast(p, Slash)
  }

  /** Python's `os.path.join(a, b)` for two components: an absolute `b`
      replaces `a`, otherwise `b` is appended after a separator. */
  function PyJoin(a: string, b: string): (r: string)
    ensures EndsWith(r, b)
    ensures !StartsWith(b, "/") ==> StartsWith(r, a)
  {
    if StartsWith(b, "/") then b
    else if a == "" || EndsWith(a, "/") then a + b
    else a + "/" + b
  }

  /** A name without a slash joined onto any directory is that directory's
      entry of that name: `basename(join(d, n)) == n`. */
  lemma PyBasenameJoin(dir: string, name: string)
    requires Slash !in name
    ensures PyBasename(PyJoin(dir, name)) == name
  {
    var p := PyJoin(dir, name);
    if |name| > 0 { assert name[0] != Slash; }
    assert EndsWith(p, name);
    AfterLastOfSuffix(p, name);
    if dir == "" || EndsWith(dir, "/") {
      if |dir| > 0 { assert p[|p| - |name| - 1] == dir[|dir| - 1]; }
    } else {
      assert p[|p| - |name| - 1] == Slash;
    }
  }

  lemma AfterLastOfSuffix(p: string, name: string)
    requires Slash !in name
    requires EndsWith(p, name)
    requires |name| < |p| ==> p[|p| - |name| - 1] == Slash
    ensures AfterLast(p, Slash) == name
  {
    forall m | |p| - |name| <= m < |p| ensures p[m] != Slash {
      assert p[m] == name[m - (|p| - |name|)];
    }
    AfterLastSuffix(p, Slash, |name|);
  }

  /** `AfterLast` stops exactly at the last separator. */
  lemma AfterLastSuffix(s: string, c: char, n: nat)
    requires n <= |s|
    requires forall m :: |s| - n <= m < |s| ==> s[m] != c
    requires n < |s| ==> s[|s| - n - 1] == c
    ensures AfterLast(s, c) == s[|s| - n..]
  {
    var r := AfterLast(s, c);
    if |r| < n {
      assert false;
    } else if |r| > n {
      assert false;
    }
  }

  /** Length of `p` once its trailing slashes are removed. */
  function TrailingSlashesStart(p: string, j: nat): (k: nat)
    requires j <= |p|
    ensures k <= j
    ensures forall m :: k <= m < j ==> p[m] == Slash
    ensures k > 0 ==> p[k - 1] != Slash
    decreases j
  {
    if j == 0 || p[j - 1] != Slash then j else TrailingSlashesStart(p, j - 1)
  }

  /** Node's posix `path.basename(p)`: trailing slashes are ignored, then
      everything after the last remaining slash. */
  function NodeBasename(p: string): (r: string)
    ensures Slash !in r
  {
    AfterLast(p[..TrailingSlashesStart(p, |p|)], Slash)
  }

  /** The index Node's `path.dirname` cuts at: scanning down from `i` to 1,
      the first slash met after a non-slash character, or -1 when there is none. */
  function DirnameEnd(p: string, i: int, matchedSlash: bool): (e: int)
    requires i < |p|
    ensures -1 <= e && (e == -1 || (1 <= e <= i && p[e] == Slash))
    decreases i
  {
    if i < 1 then -1
    else if p[i] == Slash then (if !matchedSlash then i else DirnameEnd(p, i - 1, true))
    else DirnameEnd(p, i - 1, false)
  }

  /** Node's posix `path.dirname(p)`. */
  function NodeDirname(p: string): (r: string)
    ensures r == "." || r == "/" || r == "//" || r < p
  {
    if |p| == 0 then "."
    else
      var e := DirnameEnd(p, |p| - 1, true);
      if e == -1 then (if p[0] == Slash then "/" else ".")
      else if p[0] == Slash && e == 1 then "//"
      else p[..e]
  }

  /** Node's `path.join(a, b)` for two components that need no normalisation:
      empty components are skipped, and joining nothing gives `.`. */
  function NodeJoin(a: string, b: string): string {
    if a == "" && b == "" then "."
    else if a == "" then b
    else if b == "" then a
    else if EndsWith(a, "/") then a + b
    else a + "/" + b
  }

  /** A join is never empty, starts with its first component and ends with
      its second. */
  lemma NodeJoinParts(a: string, b: string)
    ensures NodeJoin(a, b) != ""
    ensures a != "" ==> StartsWith(NodeJoin(a, b), a)
    ensures b != "" ==> EndsWith(NodeJoin(a, b), b)
  {
    var r := NodeJoin(a, b);
    if a != "" && b != "" && !EndsWith(a, "/") {
      assert r == a + "/" + b;
      assert r[|r| - |b|..] == b;
    }
  }

  /** A plain name is its own basename and lives in directory `.`. */
  lemma NodePlainName(n: string)
    requires n != "" && Slash !in n
    ensures NodeBasename(n) == n
    ensures NodeDirname(n) == "."
  {
    assert n[..|n|] == n;
    assert n[|n| - 1] != Slash;
    DirnameNoSlash(n, |n| - 1, true);
  }

  lemma {:induction false} DirnameNoSlash(p: string, i: int, matched: bool)
    requires i < |p|
    requires forall m :: 0 <= m <= i ==> p[m] != Slash
    ensures DirnameEnd(p, i, matched) == -1
    decreases i
  {
    if i >= 1 {
      DirnameNoSlash(p, i - 1, false);
    }
  }

  /** For `dir/name` with a non-empty `dir` that does not end in a slash and a
      plain `name`, basename and dirname split the path back into its parts. */
  lemma NodeSplitPath(dir: string, name: string)
    requires dir != "" && !EndsWith(dir, "/")
    requires name != "" && Slash !in name
    ensures NodeBasename(NodeJoin(dir, name)) == name
    ensures NodeDirname(NodeJoin(dir, name)) == dir
  {
    var p := dir + "/" + name;
    assert NodeJoin(dir, name) == p;
    JoinedBasename(dir, name);
    JoinedDirname(dir, name);
  }

  lemma JoinedBasename(dir: string, name: string)
    requires name != "" && Slash !in name
    ensures NodeBasename(dir + "/" + name) == name
  {
    var p := dir + "/" + name;
    assert p[|p| - 1] == name[|name| - 1];
    assert TrailingSlashesStart(p, |p|) == |p|;
    assert p[..|p|] == p;
    assert p[|p| - |name| - 1] == Slash;
    assert p[|p| - |name|..] == name;
    AfterLastOfSuffix(p, name);
  }

  lemma JoinedDirname(dir: string, name: string)
    requires dir != "" && !EndsWith(dir, "/")
    requires name != "" && Slash !in name
    ensures NodeDirname(dir + "/" + name) == dir
  {
    var p := dir + "/" + name;
    assert dir[|dir| - 1] != Slash by {
      assert dir[|dir| - 1..] != "/";
    }
    forall m | |dir| < m <= |p| - 1 ensures p[m] != Slash {
      assert p[m] == name[m - |dir| - 1];
    }
    assert p[|dir|] == Slash;
    if |dir| == 1 {
      assert p[0] != Slash;
    }
    DirnameCut(p, |dir|, |p| - 1);
    assert p[..|dir|] == dir;
  }

  lemma {:induction false} DirnameCut(p: string, d: int, i: int)
    requires 1 <= d < i < |p|
    requires p[d] == Slash
    requires forall m :: d < m <= i ==> p[m] != Slash
    ensures DirnameEnd(p, i, true) == d
    ensures DirnameEnd(p, i, false) == d
    decreases i
  {
    if i - 1 > d {
      DirnameCut(p, d, i - 1);
    }
  }
}

=== FILE: priority_folders.dfy ===
/** The extension's priority-folder tree (`PriorityFolderProvider`): on
    construction it merges the top-level folders of `<root>/dev` into the
    `priorityFolders` of `<root>/config.json`; the tree lists the configured
    folders that exist.

    `config.json` is given by what reading and parsing it yields; its
    `priorityFolders` is an array of strings or absent. The write of the
    merged file is returned instead of performed. */
module PriorityFolders {
  import opened Text
  import opened Seqs
  import opened Paths
  import opened Base

  datatype ConfigFile =
    | Missing
    | Unparsable
    | Parsed(priorityFolders: Option<seq<string>>)

  /** `<root>/dev` as the provider sees it. `BadEntry`: a directory with an
      entry `statSync` throws on, as it does for a dangling symbolic link. */
  datatype DevDir = NoDev | NotADirectory | BadEntry | Listing(entries: seq<DirEntry>)

  /** The outcome of `initializeDefaultFolders`: nothing done, an exception
      (out of the constructor), or the `priorityFolders` written back (`None`
      when the key stays absent). */
  datatype InitOutcome = Skipped | Threw | Wrote(folders: Option<seq<string>>)

  /** The list the merge starts from: empty for a missing file, the stored
      one for a parsed file (`None` when it cannot be had). */
  function Stored(file: ConfigFile): Option<seq<string>> {
    match file
    case Missing => Some([])
    case Unparsable => None
    case Parsed(folders) => folders
  }

  /** `initializeDefaultFolders`: a missing `config.json` starts from an empty
      list; every top-level folder not yet listed is appended, in listing
      order. */
  function InitializeDefaultFolders(dev: DevDir, file: ConfigFile): (r: InitOutcome)
    ensures dev.NoDev? <==> r.Skipped?
    ensures r.Wrote? && r.folders.Some? ==>
              && dev.Listing? && Stored(file).Some? && Stored(file).value <= r.folders.value
              && forall n :: n in DirNames(dev.entries) ==> n in r.folders.value
    ensures r.Threw? <==> !dev.NoDev? && (dev.NotADirectory? || dev.BadEntry? || Stored(file).None?)
                          && !(dev.Listing? && file.Parsed? && DirNames(dev.entries) == [])
  {
    match dev
    case NoDev => Skipped
    case NotADirectory =>
      Threw
    case BadEntry =>
      Threw
    case Listing(entries) =>
      var names := DirNames(entries);
      match file
      case Unparsable => Threw
      case Missing =>
        AppendAbsentContents([], names);
        Wrote(Some(AppendAbsent([], names)))
      case Parsed(None) =>
        if names == [] then Wrote(None) else Threw
      case Parsed(Some(folders)) =>
        AppendAbsentContents(folders, names);
        Wrote(Some(AppendAbsent(folders, names)))
  }

  /** The merge keeps the stored list as a prefix and appends exactly the
      new folder names, first occurrences only, in listing order; it never
      introduces a duplicate. */
  lemma InitializeAppendsFresh(entries: seq<DirEntry>, file: ConfigFile)
    requires Stored(file).Some?
    ensures var r := InitializeDefaultFolders(Listing(entries), file);
            var before := Stored(file).value;
            && r.Wrote? && r.folders.Some?
            && r.folders.value == before + Fresh(before, DirNames(entries))
            && (NoDup(before) ==> NoDup(r.folders.value))
  {
    var before := Stored(file).value;
    AppendAbsentIsFresh(before, DirNames(entries));
    if NoDup(before) {
      AppendAbsentNoDup(before, DirNames(entries));
    }
  }

  /** Running the merge again on the file it wrote, over the same listing,
      writes the same list. */
  lemma InitializeIdempotent(entries: seq<DirEntry>, file: ConfigFile)
    requires InitializeDefaultFolders(Listing(entries), file).Wrote?
    ensures var r := InitializeDefaultFolders(Listing(entries), file);
            InitializeDefaultFolders(Listing(entries), Parsed(r.folders)) == r
  {
    var names := DirNames(entries);
    if Stored(file).Some? {
      AppendAbsentIdempotent(Stored(file).value, names);
    }
  }

  /** A tree item: its label (`caption`), the folder it opens, and the configured path
      it stands for, shown as tooltip and, by its directory, as description. */
  datatype PriorityFolder = PriorityFolder(caption: string, folderPath: string, relativePath: string,
                                           tooltip: string, description: string)

  function DevPath(root: string): string {
    NodeJoin(root, "dev")
  }

  /** The item for the configured path `rel`. */
  function Item(root: string, rel: string): (r: PriorityFolder)
    ensures Slash !in r.caption
    ensures r.relativePath == rel && r.tooltip == rel
  {
    PriorityFolder(NodeBasename(rel), NodeJoin(DevPath(root), rel), rel, rel, NodeDirname(rel))
  }

  function ItemOf(root: string): string -> PriorityFolder {
    rel => Item(root, rel)
  }

  function InDev(root: string, fs: Fs): string -> bool {
    rel => fs.Exists(NodeJoin(DevPath(root), rel))
  }

  /** `getChildren`: nothing without a workspace root or a readable
      `config.json`; otherwise an item per configured path, in configured
      order, for the paths that exist under `dev`. A missing
      `priorityFolders` counts as empty. */
  function GetChildren(root: string, file: ConfigFile, fs: Fs): (r: seq<PriorityFolder>)
    ensures root == "" || !file.Parsed? ==> r == []
    ensures forall it :: it in r ==>
              && file.Parsed? && it.relativePath in file.priorityFolders.GetOr([])
              && it.folderPath == NodeJoin(DevPath(root), it.relativePath) && fs.Exists(it.folderPath)
              && it.caption == NodeBasename(it.relativePath)
              && it.tooltip == it.relativePath && it.description == NodeDirname(it.relativePath)
    ensures root != "" && file.Parsed? ==>
              forall rel :: rel in file.priorityFolders.GetOr([]) && fs.Exists(NodeJoin(DevPath(root), rel))
                            ==> Item(root, rel) in r
  {
    if root == "" then []
    else
      match file
      case Missing => []
      case Unparsable => []
      case Parsed(folders) => FilterMap(folders.GetOr([]), InDev(root, fs), ItemOf(root))
  }

  /** The tree keeps the configured order: the items of a longer list are
      those of its parts, one after the other. */
  lemma GetChildrenOrder(root: string, xs: seq<string>, ys: seq<string>, fs: Fs)
    requires root != ""
    ensures GetChildren(root, Parsed(Some(xs + ys)), fs)
            == GetChildren(root, Parsed(Some(xs)), fs) + GetChildren(root, Parsed(Some(ys)), fs)
  {
    FilterMapAppend(xs, ys, InDev(root, fs), ItemOf(root));
  }

  /** A path `dir/name` is shown as `name`, described by `dir`. */
  lemma NestedItem(root: string, dir: string, name: string)
    requires dir != "" && !EndsWith(dir, "/")
    requires name != "" && Slash !in name
    ensures Item(root, NodeJoin(dir, name)).caption == name
    ensures Item(root, NodeJoin(dir, name)).description == dir
  {
    NodeSplitPath(dir, name);
  }

  /** After the merge, the tree shows every top-level folder of `dev` that
      still exists, labelled with its own name and described by `.`. */
  lemma TreeShowsMergedFolders(root: string, entries: seq<DirEntry>, file: ConfigFile, fs: Fs)
    requires root != ""
    requires InitializeDefaultFolders(Listing(entries), file).Wrote?
    requires InitializeDefaultFolders(Listing(entries), file).folders.Some?
    requires forall k :: 0 <= k < |entries| ==> entries[k].name != "" && Slash !in entries[k].name
    ensures var written := Parsed(InitializeDefaultFolders(Listing(entries), file).folders);
            forall e :: e in entries && e.isDir && fs.IsDir(NodeJoin(DevPath(root), e.name)) ==>
              && Item(root, e.name) in GetChildren(root, written, fs)
              && Item(root, e.name).caption == e.name
              && Item(root, e.name).description == "."
  {
    var written := Parsed(InitializeDefaultFolders(Listing(entries), file).folders);
    forall e | e in entries && e.isDir && fs.IsDir(NodeJoin(DevPath(root), e.name))
      ensures Item(root, e.name) in GetChildren(root, written, fs)
      ensures Item(root, e.name).caption == e.name && Item(root, e.name).description == "."
    {
      assert e.name in DirNames(entries);
      NodePlainName(e.name);
    }
  }
}

=== FILE: psql_listing.dfy ===
/** The table `psql -l` prints, and the database names it lists.

    The aligned layout is: a title line, a header line, a rule line of dashes,
    one line per database (`<space><name><space>|<other columns>`) with
    continuation lines whose first column is blank, and a footer such as
    `(3 rows)`. Both front ends read database names from this text; this
    module renders the layout and defines the reading the front ends intend:
    the first column of the lines below the rule that have columns at all. */
module PsqlListing {
  import opened Text
  import opened Seqs

  /** A line of the table body: a database name (blank on continuation lines)
      and the remaining columns. */
  datatype Row = Row(name: string, rest: string)

  /** How psql prints a row. */
  function RowLine(r: Row): string {
    " " + r.name + " |" + r.rest
  }

  function RowLines(rows: seq<Row>): (r: seq<string>)
    ensures |r| == |rows|
  {
    if |rows| == 0 then [] else [RowLine(rows[0])] + RowLines(rows[1..])
  }

  /** How a front end recognises a template database: the GUI looks at the
      name (`db_name.startswith("template")`), the extension at the whole
      line (`line.includes('template')`), so that a row whose owner or
      privileges mention `template` is not offered either. */
  datatype TemplateRule = NameRule | LineRule

  /** A database that is listed: a real row, not a template database. */
  predicate Listed(r: Row, rule: TemplateRule) {
    r.name != "" && !StartsWith(r.name, "template")
    && (rule == LineRule ==> !Contains(RowLine(r), "template"))
  }

  function ListedTest(rule: TemplateRule): Row -> bool {
    r => Listed(r, rule)
  }

  function RowName(r: Row): string {
    r.name
  }

  /** The names the table lists, in table order. */
  function Names(rows: seq<Row>, rule: TemplateRule): seq<string> {
    FilterMap(rows, ListedTest(rule), RowName)
  }

  /** A name as psql prints it: no `|`, and no whitespace at either end. */
  predicate PlainName(n: string, ws: char -> bool) {
    '|' !in n && (|n| > 0 ==> !ws(n[0]) && !ws(n[|n| - 1]))
  }

  /** The lines after the first rule line (a line starting with `-`); none
      when there is no rule. */
  function AfterRule(lines: seq<string>): (r: seq<string>)
    ensures |r| <= |lines|
    ensures r <= lines[|lines| - |r|..]
    ensures forall x :: x in r ==> x in lines
  {
    if |lines| == 0 then []
    else if StartsWith(lines[0], "-") then lines[1..]
    else AfterRule(lines[1..])
  }

  /** The first column of a line, trimmed by `ws`. */
  function Column(line: string, ws: char -> bool): (r: string)
    ensures '|' !in r
  {
    var f := Before(line, '|');
    var r := TrimWith(f, ws);
    assert forall c :: c in r ==> c in f;
    r
  }

  /** A body line that names a database: it has columns, is not a rule, its
      first column is not blank and it is no template database by `rule`. */
  predicate IsDbRow(line: string, ws: char -> bool, rule: TemplateRule) {
    '|' in line && !StartsWith(line, "-")
    && Column(line, ws) != "" && !StartsWith(Column(line, ws), "template")
    && (rule == LineRule ==> !Contains(line, "template"))
  }

  function DbRowTest(ws: char -> bool, rule: TemplateRule): string -> bool {
    line => IsDbRow(line, ws, rule)
  }

  function ColumnOf(ws: char -> bool): string -> string {
    line => Column(line, ws)
  }

  /** The database names of a `psql -l` listing, its lines trimmed by `ws`
      and template databases recognised by `rule`. */
  function DatabaseRows(lines: seq<string>, ws: char -> bool, rule: TemplateRule): (r: seq<string>)
    ensures forall n :: n in r ==> n != "" && '|' !in n && !StartsWith(n, "template")
    ensures forall n :: n in r ==> exists line :: line in lines && IsDbRow(line, ws, rule)
                                                  && n == Column(line, ws)
  {
    FilterMap(AfterRule(lines), DbRowTest(ws, rule), ColumnOf(ws))
  }

  /** On the table psql prints, the reading lists exactly the non-template
      databases, in order: title, header, rule, continuation lines and
      footer contribute nothing. */
  lemma DatabaseRowsOfTable(pre: seq<string>, rule: string, rows: seq<Row>, post: seq<string>,
                            ws: char -> bool, tr: TemplateRule)
    requires ws(' ')
    requires forall k :: 0 <= k < |pre| ==> !StartsWith(pre[k], "-")
    requires StartsWith(rule, "-")
    requires forall k :: 0 <= k < |rows| ==> PlainName(rows[k].name, ws)
    requires forall k :: 0 <= k < |post| ==> '|' !in post[k]
    ensures DatabaseRows(pre + [rule] + RowLines(rows) + post, ws, tr) == Names(rows, tr)
  {
    var body := RowLines(rows) + post;
    AfterRuleSkips(pre, rule, body);
    Regroup(pre, [rule], RowLines(rows), post);
    BodyRead(rows, post, ws, tr);
  }

  lemma Regroup<T>(a: seq<T>, b: seq<T>, c: seq<T>, d: seq<T>)
    ensures a + b + c + d == a + (b + (c + d))
  {
  }

  /** Below the rule: the rows give their names, the footer nothing. */
  lemma BodyRead(rows: seq<Row>, post: seq<string>, ws: char -> bool, tr: TemplateRule)
    requires ws(' ')
    requires forall k :: 0 <= k < |rows| ==> PlainName(rows[k].name, ws)
    requires forall k :: 0 <= k < |post| ==> '|' !in post[k]
    ensures FilterMap(RowLines(rows) + post, DbRowTest(ws, tr), ColumnOf(ws)) == Names(rows, tr)
  {
    FilterMapAppend(RowLines(rows), post, DbRowTest(ws, tr), ColumnOf(ws));
    NoColumnsNoRows(post, ws, tr);
    RowLinesRead(rows, ws, tr);
    assert Names(rows, tr) + [] == Names(rows, tr);
  }

  /** Lines before the rule are skipped, the rule itself too. */
  lemma {:induction false} AfterRuleSkips(pre: seq<string>, rule: string, body: seq<string>)
    requires forall k :: 0 <= k < |pre| ==> !StartsWith(pre[k], "-")
    requires StartsWith(rule, "-")
    ensures AfterRule(pre + ([rule] + body)) == body
    decreases |pre|
  {
    var all := pre + ([rule] + body);
    if |pre| == 0 {
      assert all == [rule] + body;
      assert all[1..] == body;
    } else {
      assert all[0] == pre[0];
      assert all[1..] == pre[1..] + ([rule] + body);
      AfterRuleSkips(pre[1..], rule, body);
    }
  }

  /** Lines without columns name no database. */
  lemma {:induction false} NoColumnsNoRows(lines: seq<string>, ws: char -> bool, tr: TemplateRule)
    requires forall k :: 0 <= k < |lines| ==> '|' !in lines[k]
    ensures FilterMap(lines, DbRowTest(ws, tr), ColumnOf(ws)) == []
    decreases |lines|
  {
    if |lines| > 0 {
      NoColumnsNoRows(lines[1..], ws, tr);
    }
  }

  /** Row by row, the reading recovers the listed names. */
  lemma {:induction false} RowLinesRead(rows: seq<Row>, ws: char -> bool, tr: TemplateRule)
    requires ws(' ')
    requires forall k :: 0 <= k < |rows| ==> PlainName(rows[k].name, ws)
    ensures FilterMap(RowLines(rows), DbRowTest(ws, tr), ColumnOf(ws)) == Names(rows, tr)
    decreases |rows|
  {
    if |rows| > 0 {
      var lines := RowLines(rows);
      assert lines[0] == RowLine(rows[0]);
      assert lines[1..] == RowLines(rows[1..]);
      RowLineColumn(rows[0], ws);
      RowLinesRead(rows[1..], ws, tr);
    }
  }

  /** The first column of a printed row is its name. */
  lemma RowLineColumn(r: Row, ws: char -> bool)
    requires ws(' ') && PlainName(r.name, ws)
    ensures '|' in RowLine(r) && !StartsWith(RowLine(r), "-")
    ensures Column(RowLine(r), ws) == r.name
  {
    var line := RowLine(r);
    var n := r.name;
    assert line[0] == ' ';
    assert line[|n| + 2] == '|';
    assert forall k :: 0 <= k < |n| + 2 ==> line[k] != '|' by {
      assert forall k :: 1 <= k < |n| + 1 ==> line[k] == n[k - 1];
    }
    BeforeAt(line, '|', |n| + 2);
    assert line[..|n| + 2] == " " + n + " ";
    if |n| > 0 {
      TrimOfPadded(" ", n, " ", ws);
    } else {
      assert " " + n + " " == "  ";
      TrimEmptyIff("  ", ws);
    }
  }
}

=== FILE: seqs.dfy ===
/** Sequence operations the system performs with JavaScript's `filter`/`map`,
    `includes`/`push`/`unshift`, and Python's stable `list.sort`. */
module Seqs {

  /** `xs.filter(keep).map(f)`: the image under `f` of the kept elements, in order. */
  function FilterMap<T, U>(xs: seq<T>, keep: T -> bool, f: T -> U): (r: seq<U>)
    ensures |r| <= |xs|
    ensures forall x :: x in xs && keep(x) ==> f(x) in r
    ensures forall y :: y in r ==> exists x :: x in xs && keep(x) && y == f(x)
  {
    if |xs| == 0 then []
    else
      var rest := FilterMap(xs[1..], keep, f);
      assert forall x :: x in xs ==> x == xs[0] || x in xs[1..];
      (if keep(xs[0]) then [f(xs[0])] else []) + rest
  }

  /** Filtering and mapping distributes over concatenation, which together with
      the one-element case fixes the order of the result. */
  lemma {:induction false} FilterMapAppend<T, U>(a: seq<T>, b: seq<T>, keep: T -> bool, f: T -> U)
    ensures FilterMap(a + b, keep, f) == FilterMap(a, keep, f) + FilterMap(b, keep, f)
    decreases |a|
  {
    if |a| == 0 {
      assert a + b == b;
    } else {
      assert (a + b)[1..] == a[1..] + b;
      FilterMapAppend(a[1..], b, keep, f);
    }
  }

  /** The one-element case: an element contributes its image iff it is kept. */
  lemma FilterMapSingle<T, U>(x: T, keep: T -> bool, f: T -> U)
    ensures FilterMap([x], keep, f) == if keep(x) then [f(x)] else []
  {
    assert [x][1..] == [];
  }

  /** No element occurs twice. */
  predicate NoDup<T(==)>(xs: seq<T>) {
    forall i, j :: 0 <= i < j < |xs| ==> xs[i] != xs[j]
  }

  /** `if (!xs.includes(x)) xs.push(x)` for every `x` of `ys`, in order. */
  function AppendAbsent<T(==)>(xs: seq<T>, ys: seq<T>): (r: seq<T>)
    ensures xs <= r
    decreases |ys|
  {
    if |ys| == 0 then xs
    else
      var next := if ys[0] in xs then xs else xs + [ys[0]];
      var r := AppendAbsent(next, ys[1..]);
      assert xs <= r by { assert xs <= next; assert r[..|xs|] == next[..|xs|]; }
      r
  }

  /** After the merge every element of `ys` is present, and nothing else was added. */
  lemma {:induction false} AppendAbsentContents<T>(xs: seq<T>, ys: seq<T>)
    ensures forall y :: y in ys ==> y in AppendAbsent(xs, ys)
    ensures forall z :: z in AppendAbsent(xs, ys) ==> z in xs || z in ys
    decreases |ys|
  {
    if |ys| > 0 {
      var next := if ys[0] in xs then xs else xs + [ys[0]];
      var r := AppendAbsent(next, ys[1..]);
      assert r == AppendAbsent(xs, ys);
      AppendAbsentContents(next, ys[1..]);
      assert ys[0] in r by {
        var i :| 0 <= i < |next| && next[i] == ys[0];
        assert r[..|next|][i] == next[i];
      }
      assert forall y :: y in ys ==> y == ys[0] || y in ys[1..];
      assert forall z :: z in next ==> z in xs || z == ys[0];
    }
  }

  /** The merge never introduces a duplicate. */
  lemma {:induction false} AppendAbsentNoDup<T>(xs: seq<T>, ys: seq<T>)
    requires NoDup(xs)
    ensures NoDup(AppendAbsent(xs, ys))
    decreases |ys|
  {
    if |ys| > 0 {
      var next := if ys[0] in xs then xs else xs + [ys[0]];
      NoDupSnoc(xs, ys[0]);
      AppendAbsentNoDup(next, ys[1..]);
    }
  }

  lemma NoDupSnoc<T>(xs: seq<T>, y: T)
    ensures NoDup(xs) && y !in xs ==> NoDup(xs + [y])
  {
    if NoDup(xs) && y !in xs {
      forall i, j | 0 <= i < j < |xs| + 1 ensures (xs + [y])[i] != (xs + [y])[j] {
        if j == |xs| { assert (xs + [y])[i] == xs[i]; }
      }
    }
  }

  /** Merging a list that is already present changes nothing: merging twice is
      merging once. */
  lemma {:induction false} AppendAbsentPresent<T>(xs: seq<T>, ys: seq<T>)
    requires forall y :: y in ys ==> y in xs
    ensures AppendAbsent(xs, ys) == xs
    decreases |ys|
  {
    if |ys| > 0 {
      assert forall y :: y in ys[1..] ==> y in ys;
      AppendAbsentPresent(xs, ys[1..]);
    }
  }

  lemma AppendAbsentIdempotent<T>(xs: seq<T>, ys: seq<T>)
    ensures AppendAbsent(AppendAbsent(xs, ys), ys) == AppendAbsent(xs, ys)
  {
    AppendAbsentContents(xs, ys);
    AppendAbsentPresent(AppendAbsent(xs, ys), ys);
  }

  /** The appended part is exactly the elements of `ys` that are not in `xs`,
      first occurrences only, in the order of `ys`. */
  function Fresh<T(==)>(xs: seq<T>, ys: seq<T>): seq<T>
    decreases |ys|
  {
    if |ys| == 0 then []
    else if ys[0] in xs then Fresh(xs, ys[1..])
    else [ys[0]] + Fresh(xs + [ys[0]], ys[1..])
  }

  lemma {:induction false} AppendAbsentIsFresh<T>(xs: seq<T>, ys: seq<T>)
    ensures AppendAbsent(xs, ys) == xs + Fresh(xs, ys)
    decreases |ys|
  {
    if |ys| == 0 {
      assert xs + [] == xs;
    } else if ys[0] in xs {
      assert AppendAbsent(xs, ys) == AppendAbsent(xs, ys[1..]);
      assert Fresh(xs, ys) == Fresh(xs, ys[1..]);
      AppendAbsentIsFresh(xs, ys[1..]);
    } else {
      var y := ys[0];
      var next := xs + [y];
      var tail := ys[1..];
      var f := Fresh(next, tail);
      assert Fresh(xs, ys) == [y] + f;
      AppendAbsentIsFresh(next, tail);
      assert AppendAbsent(next, tail) == next + f;
      assert next + f == xs + ([y] + f);
    }
  }

  /** `if (!xs.includes(x)) xs.unshift(x)`. */
  function PrependAbsent<T(==)>(x: T, xs: seq<T>): (r: seq<T>)
    ensures x in r
    ensures |xs| <= |r| <= |xs| + 1 && r[|r| - |xs|..] == xs
  {
    if x in xs then xs else [x] + xs
  }

  /** Prepending an absent element never introduces a duplicate. */
  lemma PrependAbsentNoDup<T>(x: T, xs: seq<T>)
    requires NoDup(xs)
    ensures NoDup(PrependAbsent(x, xs))
  {
    if x !in xs {
      var r := [x] + xs;
      forall i, j | 0 <= i < j < |r| ensures r[i] != r[j] {
        assert r[j] == xs[j - 1];
        if i > 0 { assert r[i] == xs[i - 1]; }
      }
    }
  }

  /** Elements of `xs` ordered by `key`, largest first. */
  predicate SortedDesc<T>(xs: seq<T>, key: T -> int) {
    forall i, j :: 0 <= i < j < |xs| ==> key(xs[i]) >= key(xs[j])
  }

  /** The elements of `xs` whose key is `k`, in order. */
  function WithKey<T>(xs: seq<T>, key: T -> int, k: int): seq<T> {
    if |xs| == 0 then []
    else (if key(xs[0]) == k then [xs[0]] else []) + WithKey(xs[1..], key, k)
  }

  /** Inserts `x` in front of the first element whose key is not larger. */
  function InsertDesc<T>(x: T, ys: seq<T>, key: T -> int): (r: seq<T>)
    requires SortedDesc(ys, key)
    ensures SortedDesc(r, key)
    ensures multiset(r) == multiset(ys) + multiset{x}
    ensures |r| == |ys| + 1
  {
    if |ys| == 0 || key(x) >= key(ys[0]) then [x] + ys
    else
      var rest := InsertDesc(x, ys[1..], key);
      assert ys == [ys[0]] + ys[1..];
      InsertDescBound(x, ys, rest, key);
      [ys[0]] + rest
  }

  lemma InsertDescBound<T>(x: T, ys: seq<T>, rest: seq<T>, key: T -> int)
    requires |ys| > 0 && SortedDesc(ys, key) && key(x) < key(ys[0])
    requires SortedDesc(rest, key)
    requires multiset(rest) == multiset(ys[1..]) + multiset{x}
    ensures SortedDesc([ys[0]] + rest, key)
  {
    forall z | z in rest ensures key(z) <= key(ys[0]) {
      assert z in multiset(rest);
      if z != x {
        assert z in multiset(ys[1..]);
        var j :| 0 <= j < |ys[1..]| && ys[1..][j] == z;
        assert ys[j + 1] == z;
      }
    }
    var r := [ys[0]] + rest;
    forall i, j | 0 <= i < j < |r| ensures key(r[i]) >= key(r[j]) {
      if i == 0 { assert r[j] == rest[j - 1]; assert rest[j - 1] in rest; }
      else { assert r[i] == rest[i - 1] && r[j] == rest[j - 1]; }
    }
  }

  /** Python's `xs.sort(key=key, reverse=True)`: a stable sort, largest key first. */
  function SortDesc<T>(xs: seq<T>, key: T -> int): (r: seq<T>)
    ensures SortedDesc(r, key)
    ensures multiset(r) == multiset(xs)
    ensures |r| == |xs|
  {
    if |xs| == 0 then []
    else
      assert xs == [xs[0]] + xs[1..];
      InsertDesc(xs[0], SortDesc(xs[1..], key), key)
  }

  lemma {:induction false} InsertDescWithKey<T>(x: T, ys: seq<T>, key: T -> int, k: int)
    requires SortedDesc(ys, key)
    ensures WithKey(InsertDesc(x, ys, key), key, k)
            == (if key(x) == k then [x] else []) + WithKey(ys, key, k)
    decreases |ys|
  {
    var mine := if key(x) == k then [x] else [];
    if |ys| == 0 || key(x) >= key(ys[0]) {
      assert ([x] + ys)[1..] == ys;
      assert WithKey([x] + ys, key, k) == mine + WithKey(ys, key, k);
    } else {
      var y := ys[0];
      var rest := InsertDesc(x, ys[1..], key);
      var head := if key(y) == k then [y] else [];
      assert InsertDesc(x, ys, key) == [y] + rest;
      assert ([y] + rest)[1..] == rest;
      assert WithKey([y] + rest, key, k) == head + WithKey(rest, key, k);
      InsertDescWithKey(x, ys[1..], key, k);
      assert WithKey(ys, key, k) == head + WithKey(ys[1..], key, k);
      SwapEmpty(head, mine, WithKey(ys[1..], key, k));
    }
  }

  lemma SwapEmpty<T>(a: seq<T>, b: seq<T>, c: seq<T>)
    requires a == [] || b == []
    ensures a + (b + c) == b + (a + c)
  {
    if a == [] {
      assert a + (b + c) == b + c;
    } else {
      assert b + (a + c) == a + c;
    }
  }

  /** Stability: elements with equal keys keep their relative order. */
  lemma {:induction false} SortDescStable<T>(xs: seq<T>, key: T -> int, k: int)
    ensures WithKey(SortDesc(xs, key), key, k) == WithKey(xs, key, k)
    decreases |xs|
  {
    if |xs| > 0 {
      SortDescStable(xs[1..], key, k);
      InsertDescWithKey(xs[0], SortDesc(xs[1..], key), key, k);
    }
  }
}

=== FILE: shell.dfy ===
/** The shell commands both front ends send into the Vagrant VM: the GUI
    quotes them with single quotes, the extension with double quotes, and
    the Docker commands inside are the same. */
module Shell {
  /** The GUI's `vagrant ssh -c '<cmd>'`. */
  function InVm(cmd: string): (r: string)
    ensures |r| == |cmd| + 17 && r[16..|r| - 1] == cmd
    ensures r[15] == '\'' && r[|r| - 1] == '\''
  {
    "vagrant ssh -c '" + cmd + "'"
  }

  /** The extension's `vagrant ssh -c "<cmd>"`. */
  function VagrantSsh(cmd: string): (r: string)
    ensures |r| == |cmd| + 17 && r[16..|r| - 1] == cmd
    ensures r[15] == '"' && r[|r| - 1] == '"'
  {
    "vagrant ssh -c \"" + cmd + "\""
  }

  /** `docker <verb> <container>`. */
  function Docker(verb: string, container: string): (r: string)
    ensures |r| == |verb| + |container| + 8
    ensures r[7..7 + |verb|] == verb && r[8 + |verb|..] == container
  {
    "docker " + verb + " " + container
  }

  /** Drop the database `db` from the database container, if it exists. */
  function DropDb(db: string): (r: string)
    ensures |r| == |db| + 43 && r[43..] == db
  {
    "docker exec ldb dropdb -U odoo --if-exists " + db
  }
}

=== FILE: text.dfy ===
/** String helpers shared by the TypeScript and Python parts of the system:
    whitespace trimming (JavaScript `trim` and Python `strip` differ in their
    whitespace sets), splitting on one separator character, substring search,
    prefix/suffix tests and ASCII lower-casing. */
module Text {

  /** Characters removed by JavaScript's `String.prototype.trim`
      (WhiteSpace and LineTerminator of ECMA-262). */
  predicate IsJsSpace(c: char) {
    || c == '\t' || c == '\n' || c == '\U{000B}' || c == '\U{000C}' || c == '\r'
    || c == ' ' || c == '\U{00A0}' || c == '\U{1680}'
    || ('\U{2000}' <= c <= '\U{200A}')
    || c == '\U{2028}' || c == '\U{2029}' || c == '\U{202F}' || c == '\U{205F}'
    || c == '\U{3000}' || c == '\U{FEFF}'
  }

  /** Characters for which Python's `str.isspace` holds, i.e. those removed by
      `str.strip()` without arguments. */
  predicate IsPySpace(c: char) {
    || ('\t' <= c <= '\r') || ('\U{001C}' <= c <= '\U{001F}')
    || c == ' ' || c == '\U{0085}' || c == '\U{00A0}' || c == '\U{1680}'
    || ('\U{2000}' <= c <= '\U{200A}')
    || c == '\U{2028}' || c == '\U{2029}' || c == '\U{202F}' || c == '\U{205F}'
    || c == '\U{3000}'
  }

  /** Every character of `s[lo..hi]` satisfies `ws`. */
  predicate SpaceBetween(s: string, lo: int, hi: int, ws: char -> bool)
    requires 0 <= lo <= hi <= |s|
  {
    forall k :: lo <= k < hi ==> ws(s[k])
  }

  /** The first index at or after `i` whose character is not whitespace. */
  function LeadEnd(s: string, ws: char -> bool, i: nat): (j: nat)
    requires i <= |s|
    ensures i <= j <= |s| && SpaceBetween(s, i, j, ws)
    ensures j < |s| ==> !ws(s[j])
    decreases |s| - i
  {
    if i == |s| || !ws(s[i]) then i else LeadEnd(s, ws, i + 1)
  }

  /** The start of the run of whitespace that ends at `j`, not going below `lo`. */
  function TrailStart(s: string, ws: char -> bool, lo: nat, j: nat): (k: nat)
    requires lo <= j <= |s|
    ensures lo <= k <= j && SpaceBetween(s, k, j, ws)
    ensures k > lo ==> !ws(s[k - 1])
    decreases j - lo
  {
    if j == lo || !ws(s[j - 1]) then j else TrailStart(s, ws, lo, j - 1)
  }

  /** `s` with every leading and trailing `ws` character removed: the result
      is a slice `s[i..j]` that neither starts nor ends with such a character,
      and everything outside it is whitespace. */
  function TrimWith(s: string, ws: char -> bool): (r: string)
    ensures exists i, j :: 0 <= i <= j <= |s| && r == s[i..j]
                           && SpaceBetween(s, 0, i, ws) && SpaceBetween(s, j, |s|, ws)
    ensures |r| > 0 ==> !ws(r[0]) && !ws(r[|r| - 1])
  {
    var i := LeadEnd(s, ws, 0);
    var j := TrailStart(s, ws, i, |s|);
    s[i..j]
  }

  /** JavaScript `s.trim()`. */
  function JsTrim(s: string): string {
    TrimWith(s, IsJsSpace)
  }

  /** Python `s.strip()`. */
  function PyStrip(s: string): string {
    TrimWith(s, IsPySpace)
  }

  /** A trimmed string is empty exactly when the input is all whitespace;
      this is what the truthiness tests `line.trim()` and `line.strip()` decide. */
  lemma TrimEmptyIff(s: string, ws: char -> bool)
    ensures TrimWith(s, ws) == [] <==> SpaceBetween(s, 0, |s|, ws)
  {
    var r := TrimWith(s, ws);
    var i, j :| 0 <= i <= j <= |s| && r == s[i..j]
                && SpaceBetween(s, 0, i, ws) && SpaceBetween(s, j, |s|, ws);
    if r != [] {
      assert s[i] == r[0];
    }
  }

  /** A string that neither starts nor ends with whitespace is its own trim. */
  lemma TrimOfPlain(s: string, ws: char -> bool)
    requires |s| > 0 ==> !ws(s[0]) && !ws(s[|s| - 1])
    ensures TrimWith(s, ws) == s
  {
    var r := TrimWith(s, ws);
    var i, j :| 0 <= i <= j <= |s| && r == s[i..j]
                && SpaceBetween(s, 0, i, ws) && SpaceBetween(s, j, |s|, ws);
    if |s| > 0 {
      assert i == 0;
      assert j == |s|;
    }
  }

  /** Whitespace padding around a non-empty string that neither starts nor
      ends with whitespace is exactly what trimming removes. */
  lemma TrimOfPadded(a: string, s: string, b: string, ws: char -> bool)
    requires SpaceBetween(a, 0, |a|, ws) && SpaceBetween(b, 0, |b|, ws)
    requires |s| > 0 && !ws(s[0]) && !ws(s[|s| - 1])
    ensures TrimWith(a + s + b, ws) == s
  {
    var t := a + s + b;
    var e := |a| + |s|;
    forall k | 0 <= k < |a| ensures ws(t[k]) {
      assert t[k] == a[k];
    }
    forall k | e <= k < |t| ensures ws(t[k]) {
      assert t[k] == b[k - e];
    }
    assert t[|a|] == s[0] && t[e - 1] == s[|s| - 1];
    LeadEndSkips(t, ws, 0, |a|);
    TrailStartSkips(t, ws, |a|, |t|, e);
    assert t[|a|..e] == s;
  }

  /** `LeadEnd` stops at the first non-whitespace character. */
  lemma {:induction false} LeadEndSkips(s: string, ws: char -> bool, i: nat, m: nat)
    requires i <= m < |s| && SpaceBetween(s, i, m, ws) && !ws(s[m])
    ensures LeadEnd(s, ws, i) == m
    decreases m - i
  {
    if i < m {
      LeadEndSkips(s, ws, i + 1, m);
    }
  }

  /** `TrailStart` stops after the last non-whitespace character. */
  lemma {:induction false} TrailStartSkips(s: string, ws: char -> bool, lo: nat, j: nat, m: nat)
    requires lo < m <= j <= |s| && SpaceBetween(s, m, j, ws) && !ws(s[m - 1])
    ensures TrailStart(s, ws, lo, j) == m
    decreases j - m
  {
    if m < j {
      TrailStartSkips(s, ws, lo, j - 1, m);
    }
  }

  /** A string of blanks trims to the empty string. */
  lemma JsTrimAllSpace(s: string)
    requires forall k :: 0 <= k < |s| ==> s[k] == ' '
    ensures JsTrim(s) == ""
  {
    TrimEmptyIff(s, IsJsSpace);
  }

  /** `t` occurs in `s` starting at index `i`. */
  predicate OccursAt(s: string, t: string, i: int) {
    0 <= i && i + |t| <= |s| && s[i..i + |t|] == t
  }

  /** JavaScript `s.includes(t)` and Python `t in s`. */
  function Contains(s: string, t: string): (r: bool)
    ensures r <==> exists i :: OccursAt(s, t, i)
  {
    if t <= s then
      assert OccursAt(s, t, 0);
      true
    else if |s| == 0 then
      false
    else
      var r := Contains(s[1..], t);
      if r then
        var i :| OccursAt(s[1..], t, i);
        assert OccursAt(s, t, i + 1) by { assert s[1..][i..i + |t|] == s[i + 1..i + 1 + |t|]; }
        true
      else
        assert forall i :: OccursAt(s, t, i) ==> OccursAt(s[1..], t, i - 1) by {
          forall i | OccursAt(s, t, i) ensures OccursAt(s[1..], t, i - 1) {
            OccursAtZero(s, t);
            assert s[1..][i - 1..i - 1 + |t|] == s[i..i + |t|];
          }
        }
        false
  }

  lemma OccursAtZero(s: string, t: string)
    ensures OccursAt(s, t, 0) <==> t <= s
  {
    if OccursAt(s, t, 0) { assert s[..|t|] == t; }
  }

  /** A string contains every string placed inside it. */
  lemma ContainsMiddle(a: string, t: string, b: string)
    ensures Contains(a + t + b, t)
  {
    assert OccursAt(a + t + b, t, |a|) by { assert (a + t + b)[|a|..|a| + |t|] == t; }
  }

  /** Containment is inherited by any string that has the first one as a slice. */
  lemma ContainsInSlice(s: string, lo: int, hi: int, t: string)
    requires 0 <= lo <= hi <= |s|
    requires Contains(s[lo..hi], t)
    ensures Contains(s, t)
  {
    var u := s[lo..hi];
    var i :| OccursAt(u, t, i);
    assert s[lo + i..lo + i + |t|] == t by {
      forall k | 0 <= k < |t| ensures s[lo + i + k] == t[k] {
        assert u[i..i + |t|][k] == t[k];
      }
    }
    assert OccursAt(s, t, lo + i);
  }

  /** A string lacking one of the characters of `t` does not contain `t`. */
  lemma MissingCharNotContained(s: string, t: string, c: char)
    requires c in t && forall k :: 0 <= k < |s| ==> s[k] != c
    ensures !Contains(s, t)
  {
    var k :| 0 <= k < |t| && t[k] == c;
    forall i ensures !OccursAt(s, t, i) {
      if 0 <= i && i + |t| <= |s| {
        assert s[i..i + |t|][k] == s[i + k];
      }
    }
  }

  /** JavaScript `s.startsWith(t)` and Python `s.startswith(t)`. */
  predicate StartsWith(s: string, t: string) {
    t <= s
  }

  /** JavaScript `s.endsWith(t)` and Python `s.endswith(t)`. */
  predicate EndsWith(s: string, t: string) {
    |t| <= |s| && s[|s| - |t|..] == t
  }

  /** A concatenation starts with its first part and ends with its second. */
  lemma Affixes(a: string, b: string)
    ensures StartsWith(a + b, a) && EndsWith(a + b, b)
  {
    assert (a + b)[..|a|] == a;
    assert (a + b)[|a|..] == b;
  }

  function LowerChar(c: char): char {
    if 'A' <= c <= 'Z' then (c as int + 32) as char else c
  }

  /** Lower-casing of the ASCII letters; see the README for why this agrees
      with `toLowerCase`/`lower` on the words searched for. */
  function Lower(s: string): (r: string)
    ensures |r| == |s|
    ensures forall k :: 0 <= k < |s| ==> r[k] == LowerChar(s[k])
  {
    if |s| == 0 then [] else [LowerChar(s[0])] + Lower(s[1..])
  }

  /** A lower-cased part that contains `t` makes the lower-cased whole
      contain it. */
  lemma ContainsLowerInside(a: string, b: string, c: string, t: string)
    requires Contains(Lower(b), t)
    ensures Contains(Lower(a + b + c), t)
  {
    var s := a + b + c;
    var lo, hi := |a|, |a| + |b|;
    SliceMiddle(a, b, c);
    LowerSlice(s, lo, hi);
    assert Lower(s)[lo..hi] == Lower(b);
    ContainsInSlice(Lower(s), lo, hi, t);
  }

  lemma SliceMiddle<T>(a: seq<T>, b: seq<T>, c: seq<T>)
    ensures (a + b + c)[|a|..|a| + |b|] == b
  {
  }

  /** Lower-casing commutes with slicing. */
  lemma LowerSlice(s: string, lo: int, hi: int)
    requires 0 <= lo <= hi <= |s|
    ensures Lower(s[lo..hi]) == Lower(s)[lo..hi]
  {
  }

  /** `s` with its first `sep` and everything after it removed: the first
      field of `s.split(sep)`. */
  function Before(s: string, sep: char): (r: string)
    ensures r <= s
    ensures sep !in r
    ensures |r| < |s| ==> s[|r|] == sep
  {
    if |s| == 0 || s[0] == sep then [] else [s[0]] + Before(s[1..], sep)
  }

  /** The first field ends at the first separator. */
  lemma BeforeAt(s: string, sep: char, i: nat)
    requires i < |s| && s[i] == sep
    requires forall k :: 0 <= k < i ==> s[k] != sep
    ensures Before(s, sep) == s[..i]
  {
    var r := Before(s, sep);
    assert |r| == i;
  }

  /** `s.split(sep)` in both JavaScript and Python: the maximal pieces between
      separator characters, including empty ones; the empty string gives `[""]`. */
  function Split(s: string, sep: char): (r: seq<string>)
    ensures |r| >= 1 && r[0] == Before(s, sep)
    ensures forall k :: 0 <= k < |r| ==> sep !in r[k]
    decreases |s|
  {
    var f := Before(s, sep);
    if |f| == |s| then [s] else [f] + Split(s[|f| + 1..], sep)
  }

  /** `parts.join(sep)`. */
  function Join(parts: seq<string>, sep: char): string
    requires |parts| >= 1
  {
    if |parts| == 1 then parts[0] else parts[0] + [sep] + Join(parts[1..], sep)
  }

  /** A join splits into the join of the pieces before `k`, a separator, and
      the join of the rest. */
  lemma {:induction false} JoinAt(parts: seq<string>, sep: char, k: int)
    requires 0 < k < |parts|
    ensures Join(parts, sep) == Join(parts[..k], sep) + [sep] + Join(parts[k..], sep)
    decreases k
  {
    if k > 1 {
      JoinAt(parts[1..], sep, k - 1);
      assert parts[1..][..k - 1] == parts[..k][1..];
      assert parts[1..][k - 1..] == parts[k..];
    }
  }

  /** Splitting and joining again gives back the input. */
  lemma {:induction false} JoinSplit(s: string, sep: char)
    ensures Join(Split(s, sep), sep) == s
    decreases |s|
  {
    var f := Before(s, sep);
    if |f| < |s| {
      var rest := s[|f| + 1..];
      SplitCons(s, sep);
      JoinCons(f, Split(rest, sep), sep);
      JoinSplit(rest, sep);
      BeforeSplitsOff(s, sep);
    }
  }

  lemma JoinCons(f: string, pieces: seq<string>, sep: char)
    requires |pieces| >= 1
    ensures Join([f] + pieces, sep) == f + [sep] + Join(pieces, sep)
  {
    assert ([f] + pieces)[1..] == pieces;
  }

  /** A string is its first field, the separator, and the rest. */
  lemma BeforeSplitsOff(s: string, sep: char)
    requires |Before(s, sep)| < |s|
    ensures s == Before(s, sep) + [sep] + s[|Before(s, sep)| + 1..]
  {
  }

  /** Joining separator-free pieces and splitting again gives back the pieces. */
  lemma {:induction false} SplitJoin(parts: seq<string>, sep: char)
    requires |parts| >= 1
    requires forall k :: 0 <= k < |parts| ==> sep !in parts[k]
    ensures Split(Join(parts, sep), sep) == parts
    decreases |parts|
  {
    var s := Join(parts, sep);
    if |parts| == 1 {
      BeforeOfPrefix(parts[0], [], sep);
      assert parts[0] + [] == parts[0];
    } else {
      var tail := Join(parts[1..], sep);
      assert s == parts[0] + ([sep] + tail);
      BeforeOfPrefix(parts[0], [sep] + tail, sep);
      assert Before(s, sep) == parts[0];
      assert s[|parts[0]| + 1..] == tail;
      SplitJoin(parts[1..], sep);
      assert Split(s, sep) == [parts[0]] + parts[1..];
    }
  }

  lemma {:induction false} BeforeOfPrefix(a: string, b: string, sep: char)
    requires sep !in a
    requires b == [] || b[0] == sep
    ensures Before(a + b, sep) == a
    decreases |a|
  {
    if |a| == 0 {
      assert a + b == b;
    } else {
      BeforeOfPrefix(a[1..], b, sep);
      assert (a + b)[1..] == a[1..] + b;
      assert a == [a[0]] + a[1..];
    }
  }

  /** The input is some text, any one piece of its split, and some more text. */
  lemma SplitPieceInside(s: string, sep: char, k: int) returns (a: string, c: string)
    requires 0 <= k < |Split(s, sep)|
    ensures s == a + Split(s, sep)[k] + c
  {
    JoinSplit(s, sep);
    a, c := JoinPieceInside(Split(s, sep), sep, k);
  }

  /** A joined list is some text, any one of its parts, and some more text. */
  lemma {:induction false} JoinPieceInside(parts: seq<string>, sep: char, k: int) returns (a: string, c: string)
    requires 0 <= k < |parts|
    ensures Join(parts, sep) == a + parts[k] + c
    decreases k
  {
    if |parts| == 1 {
      a, c := "", "";
      assert parts[k] == parts[0];
      assert "" + parts[0] + "" == parts[0];
    } else {
      var j := Join(parts[1..], sep);
      assert Join(parts, sep) == parts[0] + [sep] + j;
      if k == 0 {
        a, c := "", [sep] + j;
        assert parts[0] + [sep] + j == "" + parts[0] + ([sep] + j);
      } else {
        var a', c' := JoinPieceInside(parts[1..], sep, k - 1);
        assert parts[1..][k - 1] == parts[k];
        a, c := parts[0] + [sep] + a', c';
        assert parts[0] + [sep] + (a' + parts[k] + c') == parts[0] + [sep] + a' + parts[k] + c';
      }
    }
  }

  lemma {:induction false} BeforeExtend(a: string, rest: string, sep: char)
    requires |Before(a, sep)| < |a|
    ensures Before(a + rest, sep) == Before(a, sep)
    decreases |a|
  {
    if a[0] != sep {
      BeforeExtend(a[1..], rest, sep);
      assert (a + rest)[1..] == a[1..] + rest;
    }
  }

  /** Splitting is local to the pieces: splitting two strings joined by the
      separator gives the pieces of the first followed by those of the second. */
  lemma {:induction false} SplitAppend(a: string, b: string, sep: char)
    ensures Split(a + [sep] + b, sep) == Split(a, sep) + Split(b, sep)
    decreases |a|
  {
    var f := Before(a, sep);
    if |f| == |a| {
      SplitAppendLast(a, b, sep);
    } else {
      SplitAppend(a[|f| + 1..], b, sep);
      SplitAppendCons(a, b, sep);
    }
  }

  /** The inductive step: the first piece of `a` ends before its end. */
  lemma SplitAppendCons(a: string, b: string, sep: char)
    requires |Before(a, sep)| < |a|
    requires var a' := a[|Before(a, sep)| + 1..];
             Split(a' + [sep] + b, sep) == Split(a', sep) + Split(b, sep)
    ensures Split(a + [sep] + b, sep) == Split(a, sep) + Split(b, sep)
  {
    var f := Before(a, sep);
    var a' := a[|f| + 1..];
    SplitAppendStep(a, b, sep);
    SplitCons(a, sep);
    ConsAppend(Split(a + [sep] + b, sep), Split(a, sep), f, Split(a', sep), Split(b, sep));
  }

  lemma ConsAppend<T>(l: seq<T>, m: seq<T>, x: T, y: seq<T>, z: seq<T>)
    requires l == [x] + (y + z) && m == [x] + y
    ensures l == m + z
  {
  }

  /** A string without the separator is a single piece. */
  lemma SplitNone(s: string, sep: char)
    requires sep !in s
    ensures Split(s, sep) == [s]
  {
    BeforeOfPrefix(s, [], sep);
    assert s + [] == s;
  }

  /** Two separator-free strings joined by the separator split into both. */
  lemma SplitTwo(a: string, b: string, sep: char)
    requires sep !in a && sep !in b
    ensures Split(a + [sep] + b, sep) == [a, b]
  {
    SplitNone(a, sep);
    SplitNone(b, sep);
    SplitAppend(a, b, sep);
  }

  /** Past a separator, splitting emits the first field and goes on. */
  lemma SplitCons(s: string, sep: char)
    requires |Before(s, sep)| < |s|
    ensures Split(s, sep) == [Before(s, sep)] + Split(s[|Before(s, sep)| + 1..], sep)
  {
  }

  lemma SplitAt(s: string, sep: char, f: string, t: string)
    requires Before(s, sep) == f && |f| < |s| && s[|f| + 1..] == t
    ensures Split(s, sep) == [f] + Split(t, sep)
  {
  }

  lemma BeforeJoined(a: string, b: string, sep: char)
    requires |Before(a, sep)| < |a|
    ensures Before(a + [sep] + b, sep) == Before(a, sep)
  {
    assert a + [sep] + b == a + ([sep] + b);
    BeforeExtend(a, [sep] + b, sep);
  }

  lemma SliceJoined(a: string, b: string, sep: char, n: nat)
    requires n < |a|
    ensures (a + [sep] + b)[n + 1..] == a[n + 1..] + [sep] + b
  {
  }

  /** The first piece of `a` is the whole of `a`. */
  lemma SplitAppendLast(a: string, b: string, sep: char)
    requires |Before(a, sep)| == |a|
    ensures Split(a + [sep] + b, sep) == [a] + Split(b, sep)
    ensures Split(a, sep) == [a]
  {
    var s := a + [sep] + b;
    assert Before(a, sep) == a;
    assert s == a + ([sep] + b);
    BeforeOfPrefix(a, [sep] + b, sep);
    assert s[|a| + 1..] == b;
    SplitCons(s, sep);
  }

  /** The first piece of `a` ends before its end, and so does that of the join. */
  lemma SplitAppendStep(a: string, b: string, sep: char)
    requires |Before(a, sep)| < |a|
    ensures var f := Before(a, sep);
            Split(a + [sep] + b, sep) == [f] + Split(a[|f| + 1..] + [sep] + b, sep)
  {
    var s := a + [sep] + b;
    var f := Before(a, sep);
    var t := a[|f| + 1..] + [sep] + b;
    BeforeJoined(a, b, sep);
    SliceJoined(a, b, sep, |f|);
    SplitAt(s, sep, f, t);
  }
}
